=== FILE: README.md ===
# mailstorm-backend in Dafny

This project models the core of the mailstorm-backend campaign service. It
covers the path from an audience filter to a sent email, and the pure
bookkeeping of the controllers around that path:

- **Filter compiler.** The operator table (`operatorMap`,
  `logicalOperatorMap`) and `buildAudienceQuery`. A nested filter (groups of
  criteria, each group with an AND/OR combinator) becomes a MongoDB-style
  query tree, or the whole compilation throws. The query tree has a small
  evaluation semantics over flat audience records (`Query.Matches`), so
  compiled filters can be compared by meaning. They are related to a
  reference reading of the filter as a formula (`AudienceQuery.FilterHolds`).
- **Criteria-block registry.** The block record and its schema rules, the
  per-type operator whitelist, the ordered rejection chain of
  `createCriteriaBlock`, and the keyed `$setOnInsert` upsert loop of the
  criteria seed.
- **Snapshot and enqueue pipeline.** These are transitions over an abstract
  store (`StoreModel.Store`). The store holds:
  - campaigns, recipients in insertion order, saved filters, templates and
    the audience;
  - the list of jobs put on the email queue.

  The steps are:
  - `snapshotAudience` compiles the filter, selects the audience, and
    bulk-inserts PENDING recipients with an unordered insert under the
    `(campaignId, email)` unique index.
  - `enqueueCampaignExecution` has a conditional claim on
    `executionEnqueued` and a job-building tail.

  The clock and the template renderer are parameters.
- **Campaign state machine.** `createCampaign`, `createOrUpdateCampaign`
  with `action === "Scheduled"`, `toggleCampaignStatus`, `launchCampaign` and
  `duplicateCampaign`. Each is a transition of the store together with the
  HTTP status it answers. This part also covers the pagination, sort and
  comma-list filter arithmetic of the list endpoints.
- **Dispatch worker.** The `send-email` job handler runs over an abstract
  Redis, a map from key to integer value with an optional expiry instant.
  - A fixed one-second window counter per sender (`INCR` plus `EXPIRE 1`).
  - A `SETNX` dedupe key with a one-hour expiry.
  - One send, whose outcome is a parameter.
- **Template controller.** Creation with its checks and defaults, the
  test-email list, the truthy-merge update with its version counter,
  duplication and the favourite toggle.

A few behaviours of the source differ from what its comments and names
suggest. The model follows the code in each of them:

- **Duplicate recipients.** The insert is commented "skip duplicates
  safely" (`src/services/snapshotAudience.ts:23`). The call is
  `insertMany(…, {ordered: false})`, which inserts the other documents and
  then throws a duplicate-key error. The scheduling request then answers 500
  (`Snapshot.SnapshotAudience`, `DuplicateKey`).
- **Enqueue of a claimed campaign.** Enqueueing a campaign that is already
  claimed is not a silent no-op. The conditional update finds no document,
  and the service throws `Campaign not found`.
- **Enqueue with a start date in the past.** As written this check never
  runs, because the guard after the claim always returns (see Findings). In
  the corrected service `Enqueue.EnqueueIntended` the claim sets
  `executionEnqueued` before the start date is looked at. When the date
  check then throws, the store keeps the claim, so the flag stays set.
- **Worker and recipient status.** The worker never updates a recipient
  record, so recipients stay PENDING after a send.
- **Toggle.** The handler is commented "Pause/Resume Campaign"
  (`src/controllers/campaignController.ts:245`). It sends every status other
  than Active to Active (see Findings).

## Model

| member | source | states |
|---|---|---|
| OperatorMap.Lookup | src/utils/operatorMap.ts:2-30 | a name finds one of the table's own keys only when it is that key's exact spelling, and a name no own key spells finds nothing |
| OperatorMap.LookupName | src/utils/operatorMap.ts:2-30 | every one of the fourteen keys is found under its own name |
| OperatorMap.FourteenKeys | src/utils/operatorMap.ts:2-30 | the table has exactly fourteen keys with pairwise distinct names, and `not equals` (with a space) is not one of them |
| OperatorMap.Destructure | src/utils/operatorMap.ts:21 | the `[min, max]` parameter pattern throws exactly on values that are neither arrays nor strings; an array of two or more yields its first two elements |
| OperatorMap.Build | src/utils/operatorMap.ts:2-30 | every constructor yields a one-field node on the criterion's field; only `between` on a non-iterable value throws |
| OperatorMap.BuildBetweenPair | src/utils/operatorMap.ts:21 | `between` on `[v, w]` yields a single node carrying both `$gte v` and `$lte w` on the same field |
| OperatorMap.BuildMeaning | src/utils/operatorMap.ts:3-29 | each constructed node selects exactly the records its operator is meant to select, per an independent per-operator description. Equality and `$ne` compare with the value. The three regular expressions are on `v`, `"^"+v` and `v+"$"`. The four comparisons and `between` order numbers. `$in`/`$nin` test membership in the value as given. `$exists` ignores the value |
| OperatorMap.LogicalOperator | src/utils/operatorMap.ts:32-35 | exactly `"AND"` and `"OR"` have a combinator |
| AudienceQuery.CompileCriteria | src/utils/buildAudienceQuery.ts:8-14 | a group's criteria compile iff every one does, into one node per criterion in input order; otherwise the error thrown is that of the first criterion that throws |
| AudienceQuery.CompileCriterion | src/utils/buildAudienceQuery.ts:9-13 | a criterion fails iff its operator is not a table key or it is `between` on a value that is neither array nor string; an unknown operator throws `Unsupported operator` with its name; a compiled criterion is one node on the criterion's field |
| AudienceQuery.CompileGroup | src/utils/buildAudienceQuery.ts:8-18 | a group compiles iff every criterion does, into `$and` exactly when the group operator is `"AND"` and `$or` otherwise |
| AudienceQuery.GroupChildren | src/utils/buildAudienceQuery.ts:8-18 | a compiled group has one child per criterion, each that criterion's own node, in input order |
| AudienceQuery.CompileGroups | src/utils/buildAudienceQuery.ts:7-19 | the groups compile iff every one does, one node per group in order; otherwise the first group error is thrown |
| AudienceQuery.Compile | src/utils/buildAudienceQuery.ts:6-28 | the filter compiles iff all its groups do. With exactly one group the result is that group's node. Otherwise it is the top-level combinator over the group nodes in order, so zero groups give an empty combinator |
| AudienceQuery.UnsupportedOperatorFails | src/utils/buildAudienceQuery.ts:9-12 | one criterion anywhere whose operator has no table entry makes the whole compilation throw; no criterion is dropped |
| AudienceQuery.SupportedOperatorsCompile | src/utils/buildAudienceQuery.ts:7-14 | conversely, a filter naming only table operators (with `between` given an array or string) always compiles |
| AudienceQuery.SingleGroupUnwrapped | src/utils/buildAudienceQuery.ts:21-23 | with one group the compiled query is that group's node and does not depend on `logicalOperator` |
| AudienceQuery.SingletonCombinatorsAgree | src/utils/buildAudienceQuery.ts:21-27 | a one-element `$and` or `$or` selects exactly what its only child selects |
| AudienceQuery.ShortCircuitHarmless | src/utils/buildAudienceQuery.ts:21-27 | the unwrapped single-group query selects the same records as that group wrapped under either top-level combinator |
| AudienceQuery.CriterionMeaning | src/utils/buildAudienceQuery.ts:9-13 | a compiled criterion selects exactly the records satisfying the criterion read as a formula |
| AudienceQuery.GroupMeaning | src/utils/buildAudienceQuery.ts:8-18 | a compiled group selects exactly the records satisfying all its criteria (group operator exactly `"AND"`) or some criterion (any other group operator) |
| AudienceQuery.CompileMeaning | src/utils/buildAudienceQuery.ts:6-28 | a compiled filter selects exactly the records satisfying the filter read as a formula, with no special case for a single group |
| CriteriaBlocks.ParseType | src/controllers/criteriaBlockController.ts:81-83 | exactly `string`, `number` and `date` are value types |
| CriteriaBlocks.ParseCategory | src/models/criteriaBlock.ts:20 | exactly `filterComponent` and `triggerFilter` are categories |
| CriteriaBlocks.InvalidOperators | src/controllers/criteriaBlockController.ts:92-93 | the invalid operators are exactly the entries the type's whitelist lacks, and the list is empty iff every entry is allowed |
| CriteriaBlocks.InvalidOperatorsAppend | src/controllers/criteriaBlockController.ts:93-97 | the invalid operators keep the order they were sent in, which the 400 message lists: filtering a concatenation concatenates the filtered parts |
| CriteriaBlocks.CreateCriteriaBlock | src/controllers/criteriaBlockController.ts:58-132 | a block is created iff every check passes: label, type, category and operators present, a non-empty operator array, a known type, only whitelisted operators, no block of the category with the label as sent, a known category, a non-empty key and trimmed label, and a fresh key. Only success writes. The created block is stored under its key with the trimmed label, the parsed type and category, and the operators as given. It satisfies the schema |
| CriteriaBlocks.BlankLabelIsServerError | src/controllers/criteriaBlockController.ts:121-131 | a label of blanks passes every controller check but fails the schema's `required` once trimmed, so it answers 500 instead of 400 |
| CriteriaBlocks.CreatePreservesValidity | src/models/criteriaBlock.ts:13-31 | creation keeps every stored block schema-valid and stored under its own unique key |
| CriteriaBlocks.RejectionOrder | src/controllers/criteriaBlockController.ts:62-112 | each rejection answers only when the checks before it passed, in source order: a non-array or empty list (400), then a bad type (400), then bad operators (400), then a duplicate label in the category (409) |
| CriteriaBlocks.WhitelistBeyondCompiler | src/controllers/criteriaBlockController.ts:6-44 | `not equals`, `notContains`, `before`, `after`, `on`, `not on`, `onOrBefore`, `onOrAfter` and `notBetween` are whitelisted but have no operator-table entry |
| CriteriaBlocks.DateWhitelistBeyondCompiler | src/controllers/criteriaBlockController.ts:30-43 | the seven date-only operators are whitelisted for dates and none has an operator-table entry |
| CriteriaBlocks.WhitelistShape | src/controllers/criteriaBlockController.ts:6-44 | every type's whitelist offers `equals`, `not equals`, `isEmpty` and `isNotEmpty`; numbers and dates offer `between`; strings offer `contains`, `startsWith` and `endsWith` |
| CriteriaBlocks.UntrimmedLabelSlipsPast | src/controllers/criteriaBlockController.ts:101-121 | as written, a category holding `Age` accepts a new block sent as `"Age "`: the lookup misses, the stored label is trimmed to `Age`, and the category then has two blocks labelled alike |
| CriteriaBlocks.CreateCriteriaBlockIntended | src/controllers/criteriaBlockController.ts:101-121 | the corrected creation looks the label up trimmed: it succeeds iff the written one does and no block of the category has the trimmed label, refusing with 409 otherwise, and writes exactly what the written one writes |
| CriteriaBlocks.IntendedLabelsDistinct | src/controllers/criteriaBlockController.ts:101-121 | the corrected creation keeps labels distinct, ignoring case, within each category |
| CriteriaSeed.UpsertOnInsert | src/scripts/criteriaSeed.ts:65-69 | a block is inserted only when no block has its key; an existing block with that key stays exactly as it was; `upsertedCount > 0` iff it was inserted |
| CriteriaSeed.Seed | src/scripts/criteriaSeed.ts:64-76 | the seed loop adds exactly the blocks' keys, never changes a stored block, and logs one line per block in order |
| CriteriaSeed.SeedLogKinds | src/scripts/criteriaSeed.ts:66-75 | a block is logged as inserted exactly when its key was neither stored beforehand nor used by an earlier block of the run, and as already existing otherwise |
| CriteriaSeed.SeedOverSeededStore | src/scripts/criteriaSeed.ts:71-75 | over a store holding every key, the seed changes nothing and logs every block as already present |
| CriteriaSeed.SeedIdempotent | src/scripts/criteriaSeed.ts:64-76 | running the seed twice leaves the store exactly as running it once |
| CriteriaSeed.SeedDistinctInserts | src/scripts/criteriaSeed.ts:64-76 | blocks with distinct keys, none stored yet, each end up stored under their key |
| CriteriaSeed.SeedIntoEmpty | src/scripts/criteriaSeed.ts:7-57 | seeding an empty registry stores each of the seven built-in blocks under its key |
| CriteriaSeed.SeedKeysDistinct | src/scripts/criteriaSeed.ts:7-57 | the seven seeded keys are pairwise distinct |
| CriteriaSeed.SeedOperatorsSupported | src/scripts/criteriaSeed.ts:7-57 | every seeded operator is both an operator-table key and whitelisted for its block's type, and every seeded block satisfies the schema |
| CampaignModel.Create | src/models/Campaign.ts:77-102 | a campaign document is created iff it has a non-empty name and a type. Status defaults to Draft, both flags to false, the metrics to 0 and `publishedDate` to null. `createdAt` is now |
| CampaignModel.ApplyUpdate | src/controllers/campaignController.ts:121-125 | `findByIdAndUpdate` replaces each of the eight payload fields the payload carries and keeps each one it does not; metrics and dates stay, and an empty payload changes nothing |
| CampaignModel.NewRecipient | src/models/CampaignRecipient.ts:10-20 | a new recipient has status PENDING by default, no provider id, error or send date, and its key is `(campaignId, email)` |
| StoreModel.DeleteRecipientsOf | src/controllers/campaignController.ts:149 | `deleteMany({campaignId})` drops exactly that campaign's recipients, keeps the others, and preserves the unique index |
| StoreModel.DeleteRecipientsOfAppend | src/controllers/campaignController.ts:149 | the delete keeps the other recipients in their order: deleting from a concatenation concatenates what each part keeps |
| Snapshot.Matched | src/services/snapshotAudience.ts:12 | the selected audience is exactly the records the query matches |
| Snapshot.MatchedAppend | src/services/snapshotAudience.ts:12 | the selection keeps store order: selecting from a concatenation concatenates the selections |
| Snapshot.DocsFor | src/services/snapshotAudience.ts:17-20 | one `{campaignId, email}` document per selected record, in order, carrying only the projected email |
| Snapshot.InsertUnordered | src/services/snapshotAudience.ts:22-24 | the unordered insert never touches existing recipients. It keeps the `(campaignId, email)` index unique, and every new recipient comes from some document. Every valid document's key is present afterwards. Inserted plus conflicting documents are exactly the valid ones |
| Snapshot.InsertAllPresent | src/services/snapshotAudience.ts:22-24 | documents whose keys are all present already insert nothing |
| Snapshot.MatchedKeysPresent | src/services/snapshotAudience.ts:12-24 | after the insert, every matched record with a usable email has its recipient |
| Snapshot.InsertFreshNoConflicts | src/services/snapshotAudience.ts:22-24 | documents whose keys are new and pairwise distinct all go in with no conflict |
| Snapshot.SnapshotAudience | src/services/snapshotAudience.ts:6-28 | a filter that does not compile throws with nothing written. Only recipients change, and only by appending PENDING recipients of this campaign. No match returns 0 with nothing written. Otherwise the recipients are exactly those of the unordered insert of one document per match; the call succeeds iff the insert had no conflict, returning the number stored, and every matched usable email is present |
| Snapshot.FreshSnapshotStoresAll | src/services/snapshotAudience.ts:15-27 | when none of the matched emails is already a recipient of the campaign and they are pairwise distinct, the snapshot succeeds and returns the number of documents with a usable email |
| Snapshot.SnapshotTwiceAddsNothing | src/services/snapshotAudience.ts:6-28 | snapshotting twice without purging leaves the recipients of the first run |
| Enqueue.Claim | src/services/enqueueCampaignExecution.ts:11-17 | the conditional update matches iff the campaign exists and is not yet claimed. It sets the flag and returns the updated document; otherwise it throws `Campaign not found` with nothing changed |
| Enqueue.PendingOf | src/services/enqueueCampaignExecution.ts:36-39 | the query finds only PENDING recipients of the campaign, and finds each of them |
| Enqueue.PendingOfCounts | src/services/enqueueCampaignExecution.ts:36-39 | each PENDING recipient of the campaign is found exactly as many times as it is stored, and no other recipient is found |
| Enqueue.PendingOfUnique | src/services/enqueueCampaignExecution.ts:36-39 | under the unique `(campaignId, email)` index the query finds no recipient twice |
| Enqueue.PendingOfAppend | src/services/enqueueCampaignExecution.ts:36-39 | the query keeps store order: the pending recipients of a concatenation are those of each part, concatenated |
| Enqueue.JobsCoverPending | src/services/enqueueCampaignExecution.ts:36-54 | jobs that follow the pending recipients one for one give every PENDING recipient of the campaign a job addressed to it |
| Enqueue.JobsOnlyPending | src/services/enqueueCampaignExecution.ts:36-54 | each of those jobs is addressed to a PENDING recipient of the campaign |
| Enqueue.IdempotencyKeyInjective | src/services/enqueueCampaignExecution.ts:50 | when campaign ids contain no `:`, the idempotency key `campaignId:email` determines both the campaign and the email |
| Enqueue.IdempotencyKey | src/services/enqueueCampaignExecution.ts:50 | the key is the campaign id, a `:` and the email, in that order |
| Enqueue.JobsFor | src/services/enqueueCampaignExecution.ts:41-54 | one job per recipient, in order, addressed to its email, all sharing subject, html and delay, each keyed `campaignId:email` |
| Enqueue.BuildJobs | src/services/enqueueCampaignExecution.ts:21-54 | in the tail, a missing start date throws, then a negative delay (zero is allowed), then a missing template. Otherwise the i-th job belongs to the i-th pending recipient found by the query, with the template's subject, one rendering of its content, and delay start minus now. Under the unique recipient index no two jobs share a recipient |
| Enqueue.RunTail | src/services/enqueueCampaignExecution.ts:41-64 | the tail appends the jobs after the queued ones and changes only the campaign's status, to Scheduled; an error changes nothing |
| Enqueue.EnqueueCampaignExecution | src/services/enqueueCampaignExecution.ts:10-65 | the service as written succeeds iff the campaign exists and is unclaimed, and otherwise throws with nothing changed |
| Enqueue.EnqueueOnlyFlipsFlag | src/services/enqueueCampaignExecution.ts:14-19 | because the claim returns the already-flipped document, the service's only effect is the flag: no job is queued and the status does not change |
| Enqueue.EnqueueIntended | src/services/enqueueCampaignExecution.ts:10-65 | with the guard removed, a successful run claims the campaign, marks it Scheduled, and queues after the existing jobs as many jobs as the query finds PENDING recipients, leaving recipients alone. A tail error after a successful claim (no start date, a past start, no template) keeps the claim: the flag stays set and nothing else changes |
| Enqueue.EnqueueIntendedOnePerPending | src/services/enqueueCampaignExecution.ts:36-54 | under the unique recipient index, a successful intended run queues exactly one job per PENDING recipient of the campaign, addressed to it, and no other job |
| Enqueue.EnqueueIntendedOnce | src/services/enqueueCampaignExecution.ts:11-17 | the claim makes the intended service run at most once: a second call throws and queues nothing |
| Enqueue.EnqueueQueuesNothing | src/services/enqueueCampaignExecution.ts:19 | on a Draft campaign with a future start, a template and one PENDING recipient, the service as written queues no job where the intended one queues one |
| Listing.ParseOr | src/controllers/campaignController.ts:52-53 | `parseInt(x) \|\| d` keeps a parsed non-zero number and falls back to the default on NaN or 0 |
| Listing.Paginate | src/controllers/campaignController.ts:52-54 | page and size default to 1 and 10, are never 0, and `skip = (page - 1) * size` |
| Listing.CeilDiv | src/controllers/campaignController.ts:78 | `Math.ceil(total / size)` is the least n with `n * size >= total` for a positive size, and the mirror image for a negative one |
| Listing.TotalPages | src/controllers/templateController.ts:203 | the reported page count covers the total and no more, and is 0 for an empty list |
| Listing.PagesCoverAll | src/controllers/templateController.ts:177-203 | with a non-negative limit, every page `1..totalPages` skips fewer documents than there are, so none is empty, and the page after the last skips them all |
| Listing.ListSortOrder | src/controllers/campaignController.ts:58 | an absent order or exactly `"desc"` sorts descending (-1); anything else ascending (1) |
| Listing.RecentSortOrder | src/controllers/templateController.ts:565 | exactly `"asc"` sorts ascending (1); anything else, absent included, descending (-1) |
| Listing.SortOrdersDiffer | src/controllers/templateController.ts:183 | the two list endpoints agree on an absent order and disagree on every value other than `"desc"` and `"asc"` |
| Listing.BuildCampaignListQuery | src/controllers/campaignController.ts:28-49 | a name search, status and type conditions appear iff their parameter is non-empty. Statuses and types are the comma-split, trimmed entries. The date range needs both ends |
| Listing.StatusListRoundTrip | src/controllers/campaignController.ts:33-49 | a list of clean statuses written comma-separated is read back exactly, and a date range with one end missing is ignored |
| Text.Trim | src/controllers/campaignController.ts:34 | `trim` returns the infix of the string left after dropping the white space at both ends, and the result has none at either end |
| Text.TrimOfTrimmed | src/controllers/campaignController.ts:34 | trimming a string without white space at its ends changes nothing |
| Text.TrimDropsTrailingSpace | src/controllers/criteriaBlockController.ts:121 | a trimmed non-empty string with one more white space character at its end trims back to itself |
| Text.Split | src/controllers/campaignController.ts:34 | `split(",")` gives at least one part, no part contains the separator, and joining the parts back gives the input |
| Text.SplitJoin | src/controllers/campaignController.ts:34 | splitting undoes joining when no part contains the separator |
| Text.TrimAll | src/controllers/templateController.ts:59 | `map(trim)` trims every entry, in order |
| Text.DropEmpty | src/controllers/templateController.ts:60 | `filter(Boolean)` keeps exactly the non-empty entries, each as often as it occurred, in order |
| Text.DropEmptyAppend | src/controllers/templateController.ts:60 | filtering a concatenation is concatenating the filtered parts, so the order of the kept entries is the input order |
| Text.CommaList | src/controllers/campaignController.ts:34 | the comma list has one entry per `split(",")` part, each that part trimmed, so the entries contain no comma and are trimmed |
| Text.CommaListRoundTrip | src/controllers/campaignController.ts:34-40 | trimmed, comma-free entries written out with `,` read back as the same list |
| Text.CleanList | src/controllers/templateController.ts:57-60 | the cleaned list holds exactly the non-empty entries of the trimmed comma list, each as often as there, and they contain no comma and are trimmed |
| Text.CleanListRoundTrip | src/controllers/templateController.ts:57-60 | non-empty, trimmed, comma-free entries survive a write-out and a clean read-back |
| Templates.CreateTemplate | src/controllers/templateController.ts:8-51 | the name lookup answers "already exists" first: a given name hits iff some template has it, and an absent name (`findOne({})`) hits whenever a template exists. Missing required fields answer next. Only success writes. The stored template carries the body's fields, tags and layout included, with `favorite` and `includeOptOutText` false unless given true, and all three dates set to now |
| Templates.CreateKeepsNamesUnique | src/controllers/templateController.ts:25-28 | creation keeps template names unique |
| Templates.NameCheckFirst | src/controllers/templateController.ts:25-32 | a taken name is reported as a duplicate even when every other required field is missing |
| Templates.TestEmailRecipients | src/controllers/templateController.ts:54-60 | test emails go out only for Email templates with a non-empty list, to clean entries only |
| Templates.TestEmailsRoundTrip | src/controllers/templateController.ts:57-60 | a list of clean addresses sent comma-separated reaches exactly those addresses |
| Templates.Merge | src/controllers/templateController.ts:365-376 | each of name, subject, type, category and layout takes the new value iff it is non-empty and the content iff it is truthy; tags, `favorite` and `includeOptOutText` take theirs iff given. The version and the dates stay, and the empty patch changes nothing |
| Templates.SnapshotOf | src/controllers/templateController.ts:352-362 | the `previousVersion` object has no `_id` |
| Templates.DocumentOf | src/controllers/templateController.ts:379 | the serialised document carries `_id` |
| Templates.NextVersion | src/controllers/templateController.ts:380 | `(version \|\| 1) + 1` moves a set version up by one and an unset one to 2 |
| Templates.UpdateTemplate | src/controllers/templateController.ts:330-385 | the update as written is the merge apart from the version, with both dates stamped now |
| Templates.UpdateAlwaysBumpsVersion | src/controllers/templateController.ts:379-381 | as written, every update bumps the version, even one that changes no field |
| Templates.UpdateTemplateIntended | src/controllers/templateController.ts:379-381 | the corrected update is the merge apart from the version, with both dates stamped now |
| Templates.IntendedEmptyKeepsVersion | src/controllers/templateController.ts:379-381 | the corrected update leaves the version alone when nothing changes |
| Templates.IntendedRenameBumps | src/controllers/templateController.ts:379-381 | the corrected update bumps the version on a rename |
| Templates.IntendedVersioning | src/controllers/templateController.ts:379-381 | the corrected update agrees with the written one except for the version, which moves iff a snapshotted field changed |
| Templates.Duplicate | src/controllers/templateController.ts:473-481 | the copy is named `"Copy of "` plus the original name, restarts at version 1 with all dates now, and keeps every other field |
| Templates.DuplicateTemplate | src/controllers/templateController.ts:463-496 | an unknown id answers 404 with nothing written; otherwise the copy is stored under the new id |
| Templates.DuplicateRenames | src/controllers/templateController.ts:477 | a copy never carries its original's name |
| Templates.ToggleFavorite | src/controllers/templateController.ts:677-702 | only `favorite` changes, to its negation; an unknown id answers 404 |
| Templates.ToggleTwice | src/controllers/templateController.ts:688-692 | toggling the favourite twice restores the store |
| CampaignController.ParseCampaignType | src/models/Campaign.ts:79 | exactly the three enum spellings are campaign types |
| CampaignController.CreateCampaign | src/controllers/campaignController.ts:87-109 | a missing name or type answers 400 with nothing written. 201 comes iff the type is in the enum, and stores a Draft with both flags false and zero metrics. Anything else writes nothing |
| CampaignController.Schedule | src/controllers/campaignController.ts:139-161 | only `"Scheduled"` acts, and only on a Draft (400 otherwise). A missing filter answers 500 before anything is deleted. A Draft whose name is blank always answers 500, because the final `save()` validates the required name. Success saves the campaign Scheduled with both flags set. Templates, filters, audience and jobs are never touched |
| CampaignController.EnqueueAndSave | src/controllers/campaignController.ts:152-158 | success comes iff the campaign is unclaimed and its name is not blank, and then the in-memory campaign is saved Scheduled with both flags. A claimed campaign answers 500 with nothing changed. A blank name fails `save()` validation (src/models/Campaign.ts:78) with 500 after the claim has set the flag |
| CampaignController.CreateOrUpdateCampaign | src/controllers/campaignController.ts:113-166 | an unknown id answers 404 with nothing written, and no path queues a job |
| CampaignController.CreateForcesDraft | src/controllers/campaignController.ts:127-132 | creating without an id stores a Draft with both flags false whatever the payload says |
| CampaignController.BlankNameCannotBeScheduled | src/controllers/campaignController.ts:121-158 | the update path writes a blank name without validators, then the scheduling `save()` refuses it: the request answers 500 and the campaign stays a Draft with the blank name |
| CampaignController.CreatePathsAgree | src/controllers/campaignController.ts:87-132 | for a payload of a name and a known type, `createCampaign` and `createOrUpdateCampaign` without an id (and without scheduling) store the same campaign |
| CampaignController.NonDraftSchedulePersistsPayload | src/controllers/campaignController.ts:121-143 | scheduling a non-Draft answers 400, yet the payload has already been written |
| CampaignController.MissingFilterKeepsRecipients | src/controllers/campaignController.ts:146-149 | a missing audience filter aborts scheduling before any recipient is deleted |
| CampaignController.ScheduleOutcome | src/controllers/campaignController.ts:149-158 | scheduling keeps every other campaign's recipients and queues no job. On success the campaign's recipients are all PENDING and it is Scheduled and claimed |
| CampaignController.AppendedOnly | src/controllers/campaignController.ts:149-150 | after deleting a campaign's recipients and appending only PENDING ones of it, the other campaigns' recipients remain and all of its own are PENDING |
| CampaignController.ToggleCampaignStatus | src/controllers/campaignController.ts:246-266 | as written, Active becomes Paused and every other status becomes Active, with nothing else changed. A blank stored name fails `save()` validation and answers 500 with nothing changed. An unknown id answers 404 |
| CampaignController.ToggleActivatesDraft | src/controllers/campaignController.ts:256-257 | the written toggle starts a named Draft, and two toggles turn it into Paused; a Draft with a blank name stays a Draft |
| CampaignController.ToggleCampaignStatusIntended | src/controllers/campaignController.ts:245-257 | pause/resume touches only Active and Paused campaigns, swapping them, and refuses every other status with 400; the save still refuses a blank name with 500 |
| CampaignController.ToggleIntendedTwice | src/controllers/campaignController.ts:256 | the intended toggle applied twice restores the store |
| CampaignController.LaunchCampaign | src/controllers/campaignController.ts:300-319 | any stored campaign becomes Active and nothing else changes; an unknown id answers 404 |
| CampaignController.LaunchIdempotent | src/controllers/campaignController.ts:300-319 | launching a second time changes nothing more |
| CampaignController.LaunchThenToggle | src/controllers/campaignController.ts:245-319 | a launched campaign is Active, so both the written and the corrected toggle pause it, unless its name is blank and the save leaves it Active |
| CampaignController.DuplicateCampaign | src/controllers/campaignController.ts:269-297 | the copy is named `"Copy of "` plus the name. It is a Draft created and published now, and copies every other field, both flags included |
| CampaignController.DuplicateOfEnqueuedCannotSchedule | src/controllers/campaignController.ts:280-289 | a duplicate of an enqueued campaign inherits the flag, so scheduling it always answers 500 |
| SendWorker.Incr | src/worker/sendEmailWorker.ts:42 | `INCR` adds one to the live count (a missing or expired key counts 0), keeps a live TTL, and touches no other key |
| SendWorker.Expire | src/worker/sendEmailWorker.ts:44 | `EXPIRE` sets the TTL of a live key and leaves a missing one alone |
| SendWorker.SetNx | src/worker/sendEmailWorker.ts:81 | `SETNX` answers true iff the key was not live, and only then writes it |
| SendWorker.TokenNotDedupe | src/worker/sendEmailWorker.ts:38-80 | a `token:` key never collides with a `dedupe:` key |
| SendWorker.SenderOf | src/worker/sendEmailWorker.ts:69 | the sender is `from` when truthy, else `default@local` |
| SendWorker.Cap | src/worker/sendEmailWorker.ts:72 | the cap is `SENDER_RPS` when set, else 5 |
| SendWorker.AcquireToken | src/worker/sendEmailWorker.ts:40-48 | the counter goes up by one, and the first count in a window opens a one-second window. The send is allowed iff the new count is within the cap, and no other key changes |
| SendWorker.BurstWithinWindow | src/worker/sendEmailWorker.ts:40-47 | inside one window (up to and including its expiry instant) exactly `min(n, max(cap, 0))` of `n` attempts are allowed, and the window ends one second after the first |
| SendWorker.WindowResets | src/worker/sendEmailWorker.ts:40-47 | once the clock is past the window's end, the next attempt opens a new one and is allowed |
| SendWorker.HandleJob | src/worker/sendEmailWorker.ts:65-106 | rate limiting answers iff the count would exceed the cap, and touches only the token. A job is skipped iff it has a truthy key whose dedupe key is live. It is sent iff neither applies and the transport delivers. Only the `token:` and `dedupe:` keys change |
| SendWorker.ClaimDedupe | src/worker/sendEmailWorker.ts:79-89 | a job without a truthy key is never a duplicate. Otherwise it is a duplicate iff its dedupe key is live, and a first claim sets the key with a one-hour TTL |
| SendWorker.SentAtMostOnce | src/worker/sendEmailWorker.ts:79-89 | up to one hour after a send, a job with the same key is skipped or rate limited, never sent |
| SendWorker.RetryAfterFailureIsSkipped | src/worker/sendEmailWorker.ts:79-105 | as written, a failed send leaves the dedupe key behind, so its retry is skipped as a duplicate and the email is never sent |
| SendWorker.HandleJobIntended | src/worker/sendEmailWorker.ts:79-105 | the corrected handler answers like the written one and agrees with it on deliveries; a failed send releases the dedupe key |
| SendWorker.IntendedRetrySends | src/worker/sendEmailWorker.ts:79-105 | with the corrected handler, the retry of a failed send is delivered |
| Scenario.SchedulingSpring | src/controllers/campaignController.ts:140-158 | scheduling a Draft with filter `age > 30` over three people stores the two matching people as PENDING recipients and saves the campaign Scheduled with both flags, yet queues no job |
| Scenario.SpringIntendedJobs | src/services/enqueueCampaignExecution.ts:36-54 | on that snapshot the intended enqueue queues two jobs keyed `c1:bob@x.io` and `c1:cat@x.io`, each delayed until the start |
| Scenario.NotEqualsBlockAccepted | src/controllers/criteriaBlockController.ts:92-127 | the registry accepts a string block offering `not equals` |
| Scenario.NotEqualsFilterFails | src/utils/buildAudienceQuery.ts:9-12 | a filter using that operator never compiles |
| Values.FalsyValues | src/worker/sendEmailWorker.ts:69 | exactly `undefined`, `null`, `false`, `0` and `""` are falsy; arrays and objects are truthy even when empty |

## Left out

- HTTP plumbing. Express requests and responses are replaced by a status
  code with an optional campaign or result value. Routes, the server, the
  health controller and every `console` log are not part of this model.
- MongoDB itself. The query evaluation is a small semantics over flat
  records with dotted paths.
  - Ordering compares numbers only.
  - Regular-expression matching is an uninterpreted parameter `rx`, so
    escaping and the `i` flag of user-supplied patterns are not modelled.
  - `$and`/`$or` with an empty array, `$in`/`$nin` without an array, and a
    raw `$regex` on a non-string are treated as queries the store refuses.
- Audience selection at scale. `Audience.find` returns records in store
  order. Audience records are reduced to a map from field path to value.
- Date parsing. Dates are integer milliseconds. `new Date(str)` for the
  campaign list's date range is kept as the raw strings.
- Floating point. Values are integers. `getFavoriteTemplates` divides by a
  limit that may be 0 (Infinity/NaN pages) and is not modelled.
- The remaining read and delete endpoints are not modelled:
  `getCampaignById`, `deleteCampaign`, the template getters, preview,
  soft/permanent delete and restore. Each is a single store lookup with no
  logic beyond a 404.
- The listing endpoints model only their query and pagination arithmetic.
  The store-side sort, skip and limit are not modelled.
- `renderToStaticMarkup` is an uninterpreted renderer parameter.
- The test email and test SMS sends are not modelled. They are
  fire-and-forget network calls. Only the recipient list of the test email
  is modelled.
- Nodemailer and the transporter are not modelled. The transport's answer
  to a send is a parameter of the handler.
- BullMQ is not modelled: retry, backoff, concurrency and the two worker
  instances. Each handler call is one atomic step, and a retry is modelled
  as a second call.
- `Cap` takes `SENDER_RPS` already parsed. A value that parses to NaN
  (which rejects every send) is not modelled.
- Fields the core never reads are not modelled: `userId` and
  `audienceSnapshotHash` of a campaign, `timestamps`, `isDeleted`/`deletedAt`
  of a template, and the SHA-256 filter hash.
- The template schema is not part of this model. The template record holds
  the fields the controller reads and writes. A `version` of 0 stands for a
  document without a version.
- Recipient document ids are represented by the unique
  `(campaignId, email)` key.
- Document ids are plain strings that are assumed to be well-formed
  ObjectIds. In the source, a malformed id makes `findById` or
  `findByIdAndUpdate` throw a `CastError` inside the handler's `try`, so the
  answer is 500 with nothing written. This holds for a route parameter
  (campaignController.ts:121, :250, :273, :304 and the template handlers)
  and for a malformed `audience` or `template` id in the update payload.
  The model answers 404 for an unknown route id, and `ApplyUpdate` writes
  any payload id as given.
- CampaignController.CreateCampaign: the source has no `catch` around the
  create. A type outside the enum is an unhandled rejection, not a
  response; it is modelled as an answer of 500 that writes nothing.
- CampaignController.CreateOrUpdateCampaign: its own contract states only
  the 404 answer and that no job is queued. The behaviour of the scheduling
  half is stated on `CampaignController.Schedule` and the lemmas about it.
- EnqueueIntended: its own contract counts the queued jobs as the size of
  the PENDING-recipient query. That this is one job per PENDING recipient,
  addressed to it, is stated by `Enqueue.EnqueueIntendedOnePerPending`
  under the unique `(campaignId, email)` index, which every store the
  pipeline builds keeps.
- Snapshot.SnapshotAudience: on a duplicate key, the contract states that
  the call throws after inserting the other documents. It does not state how
  many documents went in before the error.
- CriteriaBlocks.CreateCriteriaBlock: the duplicate-label lookup
  `new RegExp("^" + label + "$", "i")` is modelled as case-insensitive
  equality for ASCII letters. Labels containing regular-expression
  metacharacters are not modelled.
- OperatorMap.Lookup: `operatorMap[c.operator]` also finds the names an
  object literal inherits from `Object.prototype`. A criterion whose
  operator is `constructor`, `toString` or `isPrototypeOf` builds some
  object, and `valueOf` or `hasOwnProperty` throws a `TypeError`. The model
  looks up the table's own fourteen keys only and treats every other name
  as unsupported.
- CampaignModel.ApplyUpdate: the payload is the unvalidated request body,
  which may also carry `openRate`, `ctr`, `delivered`, `createdAt` and
  `publishedDate`. Writes to those fields, on the update path and on the
  create path, are not modelled; the payload carries only the eight
  campaign fields the controllers read.
- Text.Trim: white space is the ECMAScript WhiteSpace and LineTerminator
  set. Case-insensitive comparison folds ASCII letters only.

## Findings

| source | as written | input that shows it | evidently intended | confidence | as-written member | corrected member |
|---|---|---|---|---|---|---|
| src/services/enqueueCampaignExecution.ts:11-19 | the claim returns the updated document (`new: true`), whose `executionEnqueued` is already true, so the guard always returns and lines 21-64 never run | a Draft campaign `c1` with a future start date, an existing template and one PENDING recipient: no job is queued and the status stays Draft | the guard should skip only a campaign that was already claimed before this call, and the tail should queue one job per PENDING recipient | high (not executed) | Enqueue.EnqueueQueuesNothing | Enqueue.EnqueueIntended |
| src/controllers/templateController.ts:379-381 | the nine-field `previousVersion` is compared with the whole serialised document, which carries `_id` (and more fields), so the two never agree | an update whose body is empty: the version still goes from 1 to 2 | the version moves only when a tracked field changed | high (not executed) | Templates.UpdateAlwaysBumpsVersion | Templates.UpdateTemplateIntended |
| src/controllers/campaignController.ts:256 | every status other than Active becomes Active | a Draft campaign with a name, toggled once, becomes Active (skipping scheduling); toggled twice it becomes Paused | pause/resume swaps only Active and Paused | medium (not executed) | CampaignController.ToggleActivatesDraft | CampaignController.ToggleCampaignStatusIntended |
| src/worker/sendEmailWorker.ts:79-105 | the dedupe key is set before the send and kept when the send throws | a job with key `c1:a@x.io` whose send fails at t=0 and whose BullMQ retry at t=1000 would be delivered: the retry is skipped as a duplicate | a failed send should not mark the key as sent, so the retry is delivered | high (not executed) | SendWorker.RetryAfterFailureIsSkipped | SendWorker.HandleJobIntended |
| src/controllers/criteriaBlockController.ts:101-121 | the duplicate-label lookup uses the label as sent, while the stored label is trimmed | a category holding a block labelled `Age`, and a new block sent as `"Age "` with key `age2`: the lookup misses and a second block labelled `Age` is stored | the lookup should use the trimmed label, so the category keeps distinct labels | high (not executed) | CriteriaBlocks.UntrimmedLabelSlipsPast | CriteriaBlocks.CreateCriteriaBlockIntended |

=== FILE: audience_query.dfy ===
/** The filter compiler: a nested filter (groups of criteria, each group with
    an AND/OR combinator, and a top-level combinator) becomes one query tree,
    or the whole compilation fails. */
module AudienceQuery {
  import opened Wrappers
  import opened Values
  import opened Query
  import opened OperatorMap

  /** One condition of a filter: a field path, an operator name, a value. */
  datatype Criterion = Criterion(field: string, operator: string, value: Value)

  /** Criteria combined by `groupOperator`. */
  datatype Group = Group(groupOperator: string, criteria: seq<Criterion>)

  /** Groups combined by `logicalOperator`. */
  datatype Filter = Filter(conditions: seq<Group>, logicalOperator: string)

  /** One criterion through its operator's constructor; an operator with no
      table entry is an error. */
  function CompileCriterion(c: Criterion): (r: Result<Node, CompileError>)
    ensures r.Err? <==> Lookup(c.operator).None?
                        || (Lookup(c.operator) == Some(Between) && !(c.value.Arr? || c.value.Str?))
    ensures Lookup(c.operator).None? ==> r == Err(UnsupportedOperator(c.operator))
    ensures r.Ok? ==> r.value.Field? && r.value.path == c.field
  {
    match Lookup(c.operator)
    case None => Err(UnsupportedOperator(c.operator))
    case Some(op) => Build(op, c.field, c.value)
  }

  /** `criteria.map(...)`: every criterion is compiled, in input order; the
      first one that throws aborts the whole list with its error. */
  function CompileCriteria(cs: seq<Criterion>): (r: Result<seq<Node>, CompileError>)
    ensures r.Ok? <==> forall i :: 0 <= i < |cs| ==> CompileCriterion(cs[i]).Ok?
    ensures r.Ok? ==> |r.value| == |cs|
    ensures r.Ok? ==> forall i :: 0 <= i < |cs| ==> CompileCriterion(cs[i]) == Ok(r.value[i])
    ensures r.Err? ==> exists i :: 0 <= i < |cs| && CompileCriterion(cs[i]) == Err(r.error)
                                   && forall j :: 0 <= j < i ==> CompileCriterion(cs[j]).Ok?
  {
    if |cs| == 0 then Ok([])
    else
      match CompileCriterion(cs[0])
      case Err(e) => Err(e)
      case Ok(q) =>
        match CompileCriteria(cs[1..])
        case Err(e) =>
          FirstCriterionErrorShifts(cs, e);
          Err(e)
        case Ok(qs) => Ok([q] + qs)
  }

  /** The first failing criterion of the tail is the first failing criterion
      of the whole list when its head compiles. */
  lemma FirstCriterionErrorShifts(cs: seq<Criterion>, e: CompileError)
    requires |cs| > 0 && CompileCriterion(cs[0]).Ok?
    requires exists i :: 0 <= i < |cs[1..]| && CompileCriterion(cs[1..][i]) == Err(e)
                         && forall j :: 0 <= j < i ==> CompileCriterion(cs[1..][j]).Ok?
    ensures exists i :: 0 <= i < |cs| && CompileCriterion(cs[i]) == Err(e)
                        && forall j :: 0 <= j < i ==> CompileCriterion(cs[j]).Ok?
  {
    var i :| 0 <= i < |cs[1..]| && CompileCriterion(cs[1..][i]) == Err(e)
             && forall j :: 0 <= j < i ==> CompileCriterion(cs[1..][j]).Ok?;
    assert CompileCriterion(cs[i + 1]) == Err(e);
    assert forall j :: 0 <= j < i + 1 ==> CompileCriterion(cs[j]).Ok? by {
      forall j | 0 <= j < i + 1 ensures CompileCriterion(cs[j]).Ok? {
        if j > 0 { assert cs[j] == cs[1..][j - 1]; }
      }
    }
  }

  /** A group's combinator: exactly `"AND"` gives `$and`, anything else `$or`. */
  function Combine(operator: string, qs: seq<Node>): (q: Node)
    ensures operator == "AND" ==> q == And(qs)
    ensures operator != "AND" ==> q == Or(qs)
  {
    if operator == "AND" then And(qs) else Or(qs)
  }

  /** One group: its criteria combined by the group's own operator. */
  function CompileGroup(g: Group): (r: Result<Node, CompileError>)
    ensures r.Ok? <==> forall i :: 0 <= i < |g.criteria| ==> CompileCriterion(g.criteria[i]).Ok?
    ensures r.Ok? ==> (r.value.And? <==> g.groupOperator == "AND") && !r.value.Field?
  {
    match CompileCriteria(g.criteria)
    case Err(e) => Err(e)
    case Ok(qs) => Ok(Combine(g.groupOperator, qs))
  }

  /** A compiled group has one child per criterion, each that criterion's
      own node, in input order. */
  lemma GroupChildren(g: Group)
    requires CompileGroup(g).Ok?
    ensures var q := CompileGroup(g).value;
            |q.children| == |g.criteria|
            && forall i :: 0 <= i < |g.criteria| ==> CompileCriterion(g.criteria[i]) == Ok(q.children[i])
  {
  }

  /** `conditions.map(...)`: groups compiled in order, the first error wins. */
  function CompileGroups(gs: seq<Group>): (r: Result<seq<Node>, CompileError>)
    ensures r.Ok? <==> forall i :: 0 <= i < |gs| ==> CompileGroup(gs[i]).Ok?
    ensures r.Ok? ==> |r.value| == |gs|
    ensures r.Ok? ==> forall i :: 0 <= i < |gs| ==> CompileGroup(gs[i]) == Ok(r.value[i])
    ensures r.Err? ==> exists i :: 0 <= i < |gs| && CompileGroup(gs[i]) == Err(r.error)
                                   && forall j :: 0 <= j < i ==> CompileGroup(gs[j]).Ok?
  {
    if |gs| == 0 then Ok([])
    else
      match CompileGroup(gs[0])
      case Err(e) => Err(e)
      case Ok(q) =>
        match CompileGroups(gs[1..])
        case Err(e) =>
          FirstGroupErrorShifts(gs, e);
          Err(e)
        case Ok(qs) => Ok([q] + qs)
  }

  /** The first failing group of the tail is the first failing group of the
      whole list when its head compiles. */
  lemma FirstGroupErrorShifts(gs: seq<Group>, e: CompileError)
    requires |gs| > 0 && CompileGroup(gs[0]).Ok?
    requires exists i :: 0 <= i < |gs[1..]| && CompileGroup(gs[1..][i]) == Err(e)
                         && forall j :: 0 <= j < i ==> CompileGroup(gs[1..][j]).Ok?
    ensures exists i :: 0 <= i < |gs| && CompileGroup(gs[i]) == Err(e)
                        && forall j :: 0 <= j < i ==> CompileGroup(gs[j]).Ok?
  {
    var i :| 0 <= i < |gs[1..]| && CompileGroup(gs[1..][i]) == Err(e)
             && forall j :: 0 <= j < i ==> CompileGroup(gs[1..][j]).Ok?;
    assert CompileGroup(gs[i + 1]) == Err(e);
    assert forall j :: 0 <= j < i + 1 ==> CompileGroup(gs[j]).Ok? by {
      forall j | 0 <= j < i + 1 ensures CompileGroup(gs[j]).Ok? {
        if j > 0 { assert gs[j] == gs[1..][j - 1]; }
      }
    }
  }

  /** `buildAudienceQuery`: a single group is returned as it is, whatever the
      top-level operator says; otherwise the groups are combined by the
      top-level operator, zero groups giving an empty combinator. */
  function Compile(f: Filter): (r: Result<Node, CompileError>)
    ensures r.Ok? <==> CompileGroups(f.conditions).Ok?
    ensures |f.conditions| == 1 && r.Ok? ==> Ok(r.value) == CompileGroup(f.conditions[0])
    ensures |f.conditions| != 1 && r.Ok? ==>
              r.value == Combine(f.logicalOperator, CompileGroups(f.conditions).value)
  {
    match CompileGroups(f.conditions)
    case Err(e) => Err(e)
    case Ok(gqs) =>
      if |gqs| == 1 then Ok(gqs[0])
      else Ok(Combine(f.logicalOperator, gqs))
  }

  /** A criterion that can never compile: its operator has no table entry. */
  predicate Unsupported(c: Criterion) {
    Lookup(c.operator).None?
  }

  /** No criterion is silently dropped: if any criterion anywhere in the
      filter names an operator outside the table, the whole compilation
      fails, and it fails with the error of the first criterion (in group
      order, then criterion order) that throws. */
  lemma UnsupportedOperatorFails(f: Filter, gi: nat, ci: nat)
    requires gi < |f.conditions| && ci < |f.conditions[gi].criteria|
    requires Unsupported(f.conditions[gi].criteria[ci])
    ensures Compile(f).Err?
    ensures exists g, c :: 0 <= g < |f.conditions| && 0 <= c < |f.conditions[g].criteria|
              && CompileCriterion(f.conditions[g].criteria[c]) == Err(Compile(f).error)
  {
    var g := f.conditions[gi];
    assert CompileCriterion(g.criteria[ci]).Err?;
    assert CompileCriteria(g.criteria).Err?;
    assert CompileGroup(g).Err?;
    var e := Compile(f).error;
    var k :| 0 <= k < |f.conditions| && CompileGroup(f.conditions[k]) == Err(e);
    var cs := f.conditions[k].criteria;
    var c :| 0 <= c < |cs| && CompileCriterion(cs[c]) == Err(e);
  }

  /** A filter every criterion of which names a table operator, with
      `between` given an array or string, always compiles. */
  lemma SupportedOperatorsCompile(f: Filter)
    requires forall g, c :: 0 <= g < |f.conditions| && 0 <= c < |f.conditions[g].criteria| ==>
               var cr := f.conditions[g].criteria[c];
               Lookup(cr.operator).Some? && (cr.operator == "between" ==> cr.value.Arr? || cr.value.Str?)
    ensures Compile(f).Ok?
  {
    forall g | 0 <= g < |f.conditions| ensures CompileGroup(f.conditions[g]).Ok? {
      var cs := f.conditions[g].criteria;
      forall c | 0 <= c < |cs| ensures CompileCriterion(cs[c]).Ok? {
        var op := Lookup(cs[c].operator).value;
        assert Name(op) == cs[c].operator;
      }
    }
  }

  /** With exactly one group, the compiled query is that group's node, and
      the top-level operator plays no part. */
  lemma SingleGroupUnwrapped(g: Group, top1: string, top2: string)
    ensures Compile(Filter([g], top1)) == CompileGroup(g)
    ensures Compile(Filter([g], top1)) == Compile(Filter([g], top2))
  {
    assert [g][1..] == [];
  }

  /** Wrapping a query in a one-element `$and` or `$or` does not change what
      it selects: the single-group short-circuit is harmless. */
  lemma SingletonCombinatorsAgree(q: Node, rec: Record, rx: (Pattern, Value) -> bool)
    ensures Matches(And([q]), rec, rx) <==> Matches(q, rec, rx)
    ensures Matches(Or([q]), rec, rx) <==> Matches(q, rec, rx)
  {
    assert [q][0] == q;
  }

  /** The compiled single-group query selects exactly what the same group
      wrapped under either top-level combinator would select. */
  lemma ShortCircuitHarmless(g: Group, top: string, rec: Record, rx: (Pattern, Value) -> bool)
    requires CompileGroup(g).Ok?
    ensures Compile(Filter([g], top)).Ok?
    ensures var q := Compile(Filter([g], top)).value;
            (Matches(q, rec, rx) <==> Matches(And([q]), rec, rx))
            && (Matches(q, rec, rx) <==> Matches(Or([q]), rec, rx))
  {
    SingleGroupUnwrapped(g, top, top);
    SingletonCombinatorsAgree(Compile(Filter([g], top)).value, rec, rx);
  }

  // ---------------------------------------------------------------------
  // Reference semantics, stated on criteria without reference to queries.
  // ---------------------------------------------------------------------

  /** A record satisfies a criterion when its operator is in the table and the
      field value is what the operator intends. */
  predicate CriterionHolds(c: Criterion, rec: Record, rx: (Pattern, Value) -> bool) {
    match Lookup(c.operator)
    case None => false
    case Some(op) => Intended(op, c.field in rec, Get(rec, c.field), c.value, rx)
  }

  predicate GroupHolds(g: Group, rec: Record, rx: (Pattern, Value) -> bool) {
    if g.groupOperator == "AND" then
      forall i :: 0 <= i < |g.criteria| ==> CriterionHolds(g.criteria[i], rec, rx)
    else
      exists i :: 0 <= i < |g.criteria| && CriterionHolds(g.criteria[i], rec, rx)
  }

  /** The filter as a formula: groups under the top-level combinator, with no
      special case for a single group. */
  predicate FilterHolds(f: Filter, rec: Record, rx: (Pattern, Value) -> bool) {
    if f.logicalOperator == "AND" then
      forall i :: 0 <= i < |f.conditions| ==> GroupHolds(f.conditions[i], rec, rx)
    else
      exists i :: 0 <= i < |f.conditions| && GroupHolds(f.conditions[i], rec, rx)
  }

  lemma CriterionMeaning(c: Criterion, rec: Record, rx: (Pattern, Value) -> bool)
    requires CompileCriterion(c).Ok?
    ensures Matches(CompileCriterion(c).value, rec, rx) <==> CriterionHolds(c, rec, rx)
  {
    var op := Lookup(c.operator).value;
    BuildMeaning(op, c.field, c.value, rec, rx);
  }

  lemma GroupMeaning(g: Group, rec: Record, rx: (Pattern, Value) -> bool)
    requires CompileGroup(g).Ok?
    ensures Matches(CompileGroup(g).value, rec, rx) <==> GroupHolds(g, rec, rx)
  {
    var qs := CompileCriteria(g.criteria).value;
    forall i | 0 <= i < |g.criteria|
      ensures Matches(qs[i], rec, rx) <==> CriterionHolds(g.criteria[i], rec, rx)
    {
      CriterionMeaning(g.criteria[i], rec, rx);
    }
  }

  /** A compiled filter selects exactly the records that satisfy the filter
      read as a formula; in particular the single-group short-circuit never
      changes which records are selected. */
  lemma CompileMeaning(f: Filter, rec: Record, rx: (Pattern, Value) -> bool)
    requires Compile(f).Ok?
    ensures Matches(Compile(f).value, rec, rx) <==> FilterHolds(f, rec, rx)
  {
    var gqs := CompileGroups(f.conditions).value;
    GroupsMeaning(f.conditions, gqs, rec, rx);
    if |gqs| == 1 {
      assert Compile(f).value == gqs[0];
      SingleGroupMeaning(f, gqs[0], rec, rx);
    } else {
      CombinedMeaning(f, gqs, rec, rx);
    }
  }

  /** One group under either top-level combinator reads as that group. */
  lemma SingleGroupMeaning(f: Filter, q: Node, rec: Record, rx: (Pattern, Value) -> bool)
    requires |f.conditions| == 1
    requires Matches(q, rec, rx) <==> GroupHolds(f.conditions[0], rec, rx)
    ensures Matches(q, rec, rx) <==> FilterHolds(f, rec, rx)
  {
  }

  /** Group nodes combined by the top-level operator read as the groups
      under that operator. */
  lemma CombinedMeaning(f: Filter, gqs: seq<Node>, rec: Record, rx: (Pattern, Value) -> bool)
    requires |gqs| == |f.conditions|
    requires forall i :: 0 <= i < |gqs| ==> (Matches(gqs[i], rec, rx) <==> GroupHolds(f.conditions[i], rec, rx))
    ensures Matches(Combine(f.logicalOperator, gqs), rec, rx) <==> FilterHolds(f, rec, rx)
  {
  }

  /** Each compiled group node selects what its group reads as. */
  lemma GroupsMeaning(gs: seq<Group>, gqs: seq<Node>, rec: Record, rx: (Pattern, Value) -> bool)
    requires CompileGroups(gs) == Ok(gqs)
    ensures |gqs| == |gs|
    ensures forall i :: 0 <= i < |gs| ==> (Matches(gqs[i], rec, rx) <==> GroupHolds(gs[i], rec, rx))
  {
    forall i | 0 <= i < |gs|
      ensures Matches(gqs[i], rec, rx) <==> GroupHolds(gs[i], rec, rx)
    {
      GroupMeaning(gs[i], rec, rx);
    }
  }
}

=== FILE: campaign_controller.dfy ===
/** The campaign controller's state machine: create, create-or-update with
    scheduling, pause/resume, launch and duplicate, each a transition of the
    store together with the HTTP status it answers. */
module CampaignController {
  import opened Wrappers
  import opened Values
  import opened Query
  import opened CampaignModel
  import opened StoreModel
  import Snapshot
  import Enqueue

  /** The status code and, when the body carries one, the campaign. */
  datatype Reply = Reply(code: int, campaign: Option<Campaign>)

  datatype Response = Response(store: Store, reply: Reply)

  /** The three values the `type` enum admits. */
  function ParseCampaignType(s: string): (t: Option<CampaignType>)
    ensures t == Some(CriteriaBased) <==> s == "Criteria Based"
    ensures t == Some(RealTime) <==> s == "Real Time"
    ensures t == Some(ScheduledType) <==> s == "Scheduled"
  {
    if s == "Criteria Based" then Some(CriteriaBased)
    else if s == "Real Time" then Some(RealTime)
    else if s == "Scheduled" then Some(ScheduledType)
    else None
  }

  // ---------------------------------------------------------------------
  // createCampaign
  // ---------------------------------------------------------------------

  /** `createCampaign`: a missing name or type answers 400; a type outside the
      enum fails validation and nothing is stored (the handler has no catch;
      the failure is reported here as 500); otherwise a Draft campaign with
      both flags false and zero metrics is stored under the new id. */
  function CreateCampaign(s: Store, newId: Id, name: string, typeName: string, now: int): (r: Response)
    requires newId !in s.campaigns
    ensures name == "" || typeName == "" ==> r == Response(s, Reply(400, None))
    ensures r.reply.code == 201 <==> name != "" && ParseCampaignType(typeName).Some?
    ensures r.reply.code != 201 ==> r.store == s
    ensures r.reply.code == 201 ==>
              && r.reply.campaign.Some?
              && r.store == s.(campaigns := s.campaigns[newId := r.reply.campaign.value])
              && var c := r.reply.campaign.value;
                 && c.name == name && Some(c.campaignType) == ParseCampaignType(typeName)
                 && c.status == Draft && !c.executionEnqueued && !c.audienceSnapshotted
                 && c.openRate == 0 && c.ctr == 0 && c.delivered == 0
  {
    if name == "" || typeName == "" then Response(s, Reply(400, None))
    else
      var fields := CampaignFields(Some(name), ParseCampaignType(typeName), None, None,
                                   Some(Draft), Some(false), Some(false), None);
      match Create(fields, now)
      case None => Response(s, Reply(500, None))
      case Some(c) => Response(s.(campaigns := s.campaigns[newId := c]), Reply(201, Some(c)))
  }

  // ---------------------------------------------------------------------
  // createOrUpdateCampaign
  // ---------------------------------------------------------------------

  /** The scheduling half of `createOrUpdateCampaign`, run on the campaign as
      just written: only `action == "Scheduled"` does anything, and only for a
      Draft; then the filter is loaded, the campaign's recipients deleted, the
      audience snapshotted, execution enqueued, and the campaign saved as
      Scheduled with both flags set. Any thrown error answers 500 and leaves
      whatever was written before it. */
  function Schedule(s: Store, id: Id, c: Campaign, action: string, now: int,
                    rx: (Pattern, Value) -> bool, render: Value -> string): (r: Response)
    requires UniqueKeys(s.recipients)
    ensures action != "Scheduled" ==> r == Response(s, Reply(200, Some(c)))
    ensures action == "Scheduled" && c.status != Draft ==> r == Response(s, Reply(400, None))
    ensures (action == "Scheduled" && c.status == Draft && (c.audience.None? || c.audience.value !in s.filters))
              ==> r == Response(s, Reply(500, None))
    ensures r.store.templates == s.templates && r.store.audience == s.audience
    ensures r.store.filters == s.filters && r.store.jobs == s.jobs
    ensures action == "Scheduled" && c.status == Draft && c.name == "" ==> r.reply.code == 500
    ensures r.reply.code == 200 && action == "Scheduled" ==>
              && c.name != ""
              && id in r.store.campaigns
              && r.store.campaigns[id] == c.(status := Scheduled, executionEnqueued := true, audienceSnapshotted := true)
              && r.reply.campaign == Some(r.store.campaigns[id])
  {
    if action != "Scheduled" then Response(s, Reply(200, Some(c)))
    else if c.status != Draft then Response(s, Reply(400, None))
    else if c.audience.None? || c.audience.value !in s.filters then Response(s, Reply(500, None))
    else
      var s2 := s.(recipients := DeleteRecipientsOf(s.recipients, id));
      var snap := Snapshot.SnapshotAudience(s2, id, s.filters[c.audience.value], rx);
      if snap.result.Err? then Response(snap.store, Reply(500, None))
      else EnqueueAndSave(snap.store, id, c, now, render)
  }

  /** The last two steps of scheduling: enqueue execution (a campaign already
      claimed throws, answering 500), then save the in-memory campaign as
      Scheduled with both flags set. `save()` validates the whole document,
      so a campaign whose name is blank fails there with 500, after the
      claim has set the flag in the store. */
  function EnqueueAndSave(s: Store, id: Id, c: Campaign, now: int, render: Value -> string): (r: Response)
    ensures r.reply.code == 200 <==> id in s.campaigns && !s.campaigns[id].executionEnqueued && c.name != ""
    ensures !(id in s.campaigns && !s.campaigns[id].executionEnqueued) ==> r == Response(s, Reply(500, None))
    ensures (id in s.campaigns && !s.campaigns[id].executionEnqueued && c.name == "") ==>
              r == Response(s.(campaigns := s.campaigns[id := s.campaigns[id].(executionEnqueued := true)]),
                            Reply(500, None))
    ensures r.reply.code == 200 ==>
              var saved := c.(status := Scheduled, executionEnqueued := true, audienceSnapshotted := true);
              && r.store == s.(campaigns := s.campaigns[id := saved])
              && r.reply.campaign == Some(saved)
  {
    var enq := Enqueue.EnqueueCampaignExecution(s, id, now, render);
    if enq.result.Err? then Response(enq.store, Reply(500, None))
    else
      Enqueue.EnqueueOnlyFlipsFlag(s, id, now, render);
      if c.name == "" then Response(enq.store, Reply(500, None))
      else
        var saved := c.(status := Scheduled, executionEnqueued := true, audienceSnapshotted := true);
        Response(enq.store.(campaigns := enq.store.campaigns[id := saved]), Reply(200, Some(saved)))
  }

  /** `createOrUpdateCampaign`: with an id, the payload is written onto the
      stored campaign first (404 if there is none); without one, a campaign is
      created from the payload with status Draft and both flags false,
      whatever the payload says (a validation failure answers 500). Then the
      scheduling half runs on the written campaign. */
  function CreateOrUpdateCampaign(s: Store, campaignId: Option<Id>, newId: Id, action: string,
                                  payload: CampaignFields, now: int,
                                  rx: (Pattern, Value) -> bool, render: Value -> string): (r: Response)
    requires newId !in s.campaigns
    requires UniqueKeys(s.recipients)
    ensures campaignId.Some? && campaignId.value !in s.campaigns ==> r == Response(s, Reply(404, None))
    ensures r.store.jobs == s.jobs
  {
    match campaignId
    case Some(id) =>
      if id !in s.campaigns then Response(s, Reply(404, None))
      else
        var c := ApplyUpdate(s.campaigns[id], payload);
        Schedule(s.(campaigns := s.campaigns[id := c]), id, c, action, now, rx, render)
    case None =>
      var fields := payload.(status := Some(Draft), executionEnqueued := Some(false),
                             audienceSnapshotted := Some(false));
      match Create(fields, now)
      case None => Response(s, Reply(500, None))
      case Some(c) => Schedule(s.(campaigns := s.campaigns[newId := c]), newId, c, action, now, rx, render)
  }

  /** Creating without an id ignores the payload's status and flags: the
      stored campaign is a Draft with both flags false. */
  lemma CreateForcesDraft(s: Store, newId: Id, action: string, payload: CampaignFields, now: int,
                          rx: (Pattern, Value) -> bool, render: Value -> string)
    requires newId !in s.campaigns && UniqueKeys(s.recipients)
    requires action != "Scheduled"
    requires payload.name.Some? && payload.name.value != "" && payload.campaignType.Some?
    ensures var r := CreateOrUpdateCampaign(s, None, newId, action, payload, now, rx, render);
            && r.reply.code == 200
            && newId in r.store.campaigns
            && r.store.campaigns[newId].status == Draft
            && !r.store.campaigns[newId].executionEnqueued
            && !r.store.campaigns[newId].audienceSnapshotted
            && r.store.campaigns[newId].name == payload.name.value
  {
  }

  /** The two creation handlers agree: for a payload carrying only a name and
      a type, `createCampaign` and `createOrUpdateCampaign` without an id (and
      without scheduling) store the same campaign under the new id. */
  lemma CreatePathsAgree(s: Store, newId: Id, name: string, typeName: string, action: string, now: int,
                         rx: (Pattern, Value) -> bool, render: Value -> string)
    requires newId !in s.campaigns && UniqueKeys(s.recipients)
    requires action != "Scheduled"
    requires name != "" && ParseCampaignType(typeName).Some?
    ensures var payload := CampaignFields(Some(name), ParseCampaignType(typeName), None, None,
                                          None, None, None, None);
            CreateCampaign(s, newId, name, typeName, now).store
              == CreateOrUpdateCampaign(s, None, newId, action, payload, now, rx, render).store
  {
  }

  /** The update path writes a blank name without validation, yet the final
      `save()` of scheduling refuses it: the request answers 500 and the
      campaign stays a Draft, though its name was already blanked. */
  lemma BlankNameCannotBeScheduled(s: Store, id: Id, newId: Id, payload: CampaignFields, now: int,
                                   rx: (Pattern, Value) -> bool, render: Value -> string)
    requires newId !in s.campaigns && UniqueKeys(s.recipients)
    requires id in s.campaigns && s.campaigns[id].status == Draft
    requires payload.name == Some("") && payload.status.None?
    ensures var r := CreateOrUpdateCampaign(s, Some(id), newId, "Scheduled", payload, now, rx, render);
            && r.reply.code == 500
            && id in r.store.campaigns
            && r.store.campaigns[id].status == Draft
            && r.store.campaigns[id].name == ""
  {
    var c := ApplyUpdate(s.campaigns[id], payload);
    var s1 := s.(campaigns := s.campaigns[id := c]);
    if c.audience.Some? && c.audience.value in s1.filters {
      var s2 := s1.(recipients := DeleteRecipientsOf(s1.recipients, id));
      var snap := Snapshot.SnapshotAudience(s2, id, s1.filters[c.audience.value], rx);
      assert snap.store.campaigns == s1.campaigns;
    }
  }

  /** Asking to schedule a campaign whose status (after the payload) is not
      Draft answers 400, yet the payload has already been written. */
  lemma NonDraftSchedulePersistsPayload(s: Store, id: Id, newId: Id, payload: CampaignFields, now: int,
                                        rx: (Pattern, Value) -> bool, render: Value -> string)
    requires id in s.campaigns && newId !in s.campaigns && UniqueKeys(s.recipients)
    requires ApplyUpdate(s.campaigns[id], payload).status != Draft
    ensures var r := CreateOrUpdateCampaign(s, Some(id), newId, "Scheduled", payload, now, rx, render);
            && r.reply.code == 400
              && r.store.campaigns == s.campaigns[id := ApplyUpdate(s.campaigns[id], payload)]
  {
  }

  /** A campaign without a loadable filter is refused before any recipient
      is deleted. */
  lemma MissingFilterKeepsRecipients(s: Store, id: Id, newId: Id, now: int,
                                     rx: (Pattern, Value) -> bool, render: Value -> string)
    requires id in s.campaigns && newId !in s.campaigns && UniqueKeys(s.recipients)
    requires s.campaigns[id].status == Draft
    requires s.campaigns[id].audience.None? || s.campaigns[id].audience.value !in s.filters
    ensures var r := CreateOrUpdateCampaign(s, Some(id), newId, "Scheduled",
                                            CampaignFields(None, None, None, None, None, None, None, None),
                                            now, rx, render);
            r.reply.code == 500 && r.store.recipients == s.recipients
  {
  }

  /** A successful schedule leaves the campaign Scheduled with both flags
      set, keeps every other campaign's recipients, and (because the enqueue
      step returns early) queues no job at all. */
  lemma ScheduleOutcome(s: Store, id: Id, c: Campaign, now: int,
                        rx: (Pattern, Value) -> bool, render: Value -> string)
    requires UniqueKeys(s.recipients)
    ensures var r := Schedule(s, id, c, "Scheduled", now, rx, render);
            && r.store.jobs == s.jobs
            && (forall rec :: rec in s.recipients && rec.campaignId != id ==> rec in r.store.recipients)
            && (r.reply.code == 200 ==>
                  && (forall rec :: rec in r.store.recipients && rec.campaignId == id ==> rec.status == Pending)
                  && r.store.campaigns[id].status == Scheduled
                  && r.store.campaigns[id].executionEnqueued)
  {
    if c.status == Draft && c.audience.Some? && c.audience.value in s.filters {
      var s2 := s.(recipients := DeleteRecipientsOf(s.recipients, id));
      var snap := Snapshot.SnapshotAudience(s2, id, s.filters[c.audience.value], rx);
      AppendedOnly(s.recipients, s2.recipients, snap.store.recipients, id);
    }
  }

  /** Recipients that survive the delete stay through an insert that only
      appends Pending recipients of the campaign; and then every recipient of
      the campaign is Pending. */
  lemma AppendedOnly(before: seq<Recipient>, kept: seq<Recipient>, after: seq<Recipient>, id: Id)
    requires forall rec :: rec in kept <==> rec in before && rec.campaignId != id
    requires kept <= after
    requires forall i :: |kept| <= i < |after| ==> after[i].campaignId == id && after[i].status == Pending
    ensures forall rec :: rec in before && rec.campaignId != id ==> rec in after
    ensures forall rec :: rec in after && rec.campaignId == id ==> rec.status == Pending
  {
    forall rec | rec in before && rec.campaignId != id ensures rec in after {
      var k :| 0 <= k < |kept| && kept[k] == rec;
      assert after[k] == rec;
    }
    forall rec | rec in after && rec.campaignId == id ensures rec.status == Pending {
      var k :| 0 <= k < |after| && after[k] == rec;
    }
  }

  // ---------------------------------------------------------------------
  // toggleCampaignStatus, launchCampaign, duplicateCampaign
  // ---------------------------------------------------------------------

  /** `toggleCampaignStatus` as written: Active becomes Paused and every other
      status, Draft, Scheduled and Completed included, becomes Active. */
  function ToggleCampaignStatus(s: Store, id: Id): (r: Response)
    ensures id !in s.campaigns <==> r == Response(s, Reply(404, None))
    ensures id in s.campaigns && s.campaigns[id].name == "" ==> r == Response(s, Reply(500, None))
    ensures id in s.campaigns && s.campaigns[id].name != "" ==>
              && r.reply.code == 200 && r.reply.campaign.Some?
              && r.store == s.(campaigns := s.campaigns[id := r.reply.campaign.value])
              && r.reply.campaign.value.status == (if s.campaigns[id].status == Active then Paused else Active)
              && r.reply.campaign.value.(status := s.campaigns[id].status) == s.campaigns[id]
  {
    if id !in s.campaigns then Response(s, Reply(404, None))
    else
      var c := s.campaigns[id];
      if c.name == "" then Response(s, Reply(500, None))
      else
        var t := c.(status := if c.status == Active then Paused else Active);
        Response(s.(campaigns := s.campaigns[id := t]), Reply(200, Some(t)))
  }

  /** The toggle as written starts a named Draft campaign, and two toggles
      turn it into a Paused campaign rather than back into a Draft; a Draft
      whose name is blank fails validation and stays a Draft. */
  lemma ToggleActivatesDraft(s: Store, id: Id)
    requires id in s.campaigns && s.campaigns[id].status == Draft
    ensures ToggleCampaignStatus(s, id).store.campaigns[id].status
              == (if s.campaigns[id].name == "" then Draft else Active)
    ensures ToggleCampaignStatus(ToggleCampaignStatus(s, id).store, id).store.campaigns[id].status
              == (if s.campaigns[id].name == "" then Draft else Paused)
  {
  }

  /** Pause/resume as the handler's name describes it: only an Active or
      Paused campaign is toggled; any other status is refused with 400. The
      save still validates, so a blank name answers 500. */
  function ToggleCampaignStatusIntended(s: Store, id: Id): (r: Response)
    ensures id !in s.campaigns <==> r == Response(s, Reply(404, None))
    ensures (id in s.campaigns && s.campaigns[id].status != Active && s.campaigns[id].status != Paused)
              ==> r == Response(s, Reply(400, None))
    ensures (id in s.campaigns && (s.campaigns[id].status == Active || s.campaigns[id].status == Paused)
             && s.campaigns[id].name == "") ==> r == Response(s, Reply(500, None))
    ensures r.reply.code == 200 ==>
              && id in s.campaigns && r.reply.campaign.Some? && s.campaigns[id].name != ""
              && (s.campaigns[id].status == Active ==> r.reply.campaign.value.status == Paused)
              && (s.campaigns[id].status == Paused ==> r.reply.campaign.value.status == Active)
              && r.store == s.(campaigns := s.campaigns[id := r.reply.campaign.value])
  {
    if id !in s.campaigns then Response(s, Reply(404, None))
    else
      var c := s.campaigns[id];
      if c.status != Active && c.status != Paused then Response(s, Reply(400, None))
      else if c.name == "" then Response(s, Reply(500, None))
      else
        var t := c.(status := if c.status == Active then Paused else Active);
        Response(s.(campaigns := s.campaigns[id := t]), Reply(200, Some(t)))
  }

  /** The intended toggle is an involution: toggling twice restores the
      store, whatever the status. */
  lemma ToggleIntendedTwice(s: Store, id: Id)
    ensures ToggleCampaignStatusIntended(ToggleCampaignStatusIntended(s, id).store, id).store == s
  {
    if id in s.campaigns {
      var c := s.campaigns[id];
      if c.status == Active {
        assert c.(status := Paused).(status := Active) == c;
      } else if c.status == Paused {
        assert c.(status := Active).(status := Paused) == c;
      }
    }
  }

  /** `launchCampaign`: any stored campaign becomes Active. */
  function LaunchCampaign(s: Store, id: Id): (r: Response)
    ensures id !in s.campaigns <==> r == Response(s, Reply(404, None))
    ensures id in s.campaigns ==>
              && r.reply.code == 200
              && r.store.campaigns == s.campaigns[id := s.campaigns[id].(status := Active)]
              && r.store.(campaigns := s.campaigns) == s
  {
    if id !in s.campaigns then Response(s, Reply(404, None))
    else
      var c := s.campaigns[id].(status := Active);
      Response(s.(campaigns := s.campaigns[id := c]), Reply(200, Some(c)))
  }

  /** Launching is idempotent: a second launch changes nothing more. */
  lemma LaunchIdempotent(s: Store, id: Id)
    ensures LaunchCampaign(LaunchCampaign(s, id).store, id).store == LaunchCampaign(s, id).store
  {
    if id in s.campaigns {
      var c := s.campaigns[id].(status := Active);
      assert c.(status := Active) == c;
    }
  }

  /** A launched campaign is Active, so the pause/resume toggle pauses it,
      unless its name is blank and the save fails, leaving it Active. */
  lemma LaunchThenToggle(s: Store, id: Id)
    requires id in s.campaigns
    ensures ToggleCampaignStatus(LaunchCampaign(s, id).store, id).store.campaigns[id].status
              == (if s.campaigns[id].name == "" then Active else Paused)
    ensures ToggleCampaignStatusIntended(LaunchCampaign(s, id).store, id).store.campaigns[id].status
              == (if s.campaigns[id].name == "" then Active else Paused)
  {
  }

  /** `duplicateCampaign`: the copy is named `"Copy of " + name`, starts as a
      Draft, is created and published now, and copies every other field of
      the original, both flags and the metrics included. */
  function DuplicateCampaign(s: Store, id: Id, newId: Id, now: int): (r: Response)
    requires newId !in s.campaigns
    ensures id !in s.campaigns <==> r == Response(s, Reply(404, None))
    ensures id in s.campaigns ==>
              && r.reply.code == 201 && r.reply.campaign.Some?
              && var d := r.reply.campaign.value;
                 var c := s.campaigns[id];
                 && r.store == s.(campaigns := s.campaigns[newId := d])
                 && d.name == "Copy of " + c.name
                 && d.status == Draft && d.createdAt == now && d.publishedDate == Some(now)
                 && d.(name := c.name, status := c.status, createdAt := c.createdAt,
                       publishedDate := c.publishedDate) == c
  {
    if id !in s.campaigns then Response(s, Reply(404, None))
    else
      var c := s.campaigns[id];
      var d := c.(name := "Copy of " + c.name, createdAt := now, publishedDate := Some(now), status := Draft);
      Response(s.(campaigns := s.campaigns[newId := d]), Reply(201, Some(d)))
  }

  /** A duplicate of a campaign that was already enqueued inherits the flag,
      so scheduling the duplicate always fails with 500 (at the latest when
      the claim finds no unclaimed campaign). */
  lemma DuplicateOfEnqueuedCannotSchedule(s: Store, id: Id, dupId: Id, now: int,
                                          rx: (Pattern, Value) -> bool, render: Value -> string)
    requires id in s.campaigns && s.campaigns[id].executionEnqueued
    requires dupId !in s.campaigns && dupId + "-new" !in s.campaigns && dupId + "-new" != dupId
    requires UniqueKeys(s.recipients)
    ensures var dup := DuplicateCampaign(s, id, dupId, now).store;
            CreateOrUpdateCampaign(dup, Some(dupId), dupId + "-new", "Scheduled",
                                   CampaignFields(None, None, None, None, None, None, None, None),
                                   now, rx, render).reply.code == 500
  {
    var dup := DuplicateCampaign(s, id, dupId, now).store;
    var c := dup.campaigns[dupId];
    assert c.executionEnqueued && c.status == Draft;
    var fields := CampaignFields(None, None, None, None, None, None, None, None);
    assert ApplyUpdate(c, fields) == c;
    if c.audience.Some? && c.audience.value in dup.filters {
      var s1 := dup.(campaigns := dup.campaigns[dupId := c]);
      var s2 := s1.(recipients := DeleteRecipientsOf(s1.recipients, dupId));
      var snap := Snapshot.SnapshotAudience(s2, dupId, s1.filters[c.audience.value], rx);
      if snap.result.Ok? {
        assert snap.store.campaigns == s1.campaigns;
      }
    }
  }
}

=== FILE: campaign_model.dfy ===
/** The campaign and campaign-recipient records, their enumerations and the
    defaults their schemas apply when a document is created. */
module CampaignModel {
  import opened Wrappers

  /** Document ids (ObjectId hex strings). */
  type Id = string

  datatype Status = Paused | Draft | Scheduled | Active | Completed

  datatype CampaignType = CriteriaBased | RealTime | ScheduledType

  datatype Frequency = Once | Daily | Weekly | Monthly

  /** Every schedule field is optional; dates are milliseconds since the epoch. */
  datatype Schedule = Schedule(
    frequency: Option<Frequency>,
    time: Option<string>,
    startDate: Option<int>,
    endDate: Option<int>)

  datatype Campaign = Campaign(
    name: string,
    campaignType: CampaignType,
    audience: Option<Id>,
    template: Option<Id>,
    status: Status,
    executionEnqueued: bool,
    audienceSnapshotted: bool,
    schedule: Option<Schedule>,
    openRate: int,
    ctr: int,
    delivered: int,
    createdAt: int,
    publishedDate: Option<int>)

  /** The fields a request may carry for a campaign; `None` is a field the
      request leaves out. */
  datatype CampaignFields = CampaignFields(
    name: Option<string>,
    campaignType: Option<CampaignType>,
    audience: Option<Id>,
    template: Option<Id>,
    status: Option<Status>,
    executionEnqueued: Option<bool>,
    audienceSnapshotted: Option<bool>,
    schedule: Option<Schedule>)

  /** Creating a document: `name` (non-empty) and `type` are required;
      `status` defaults to Draft, both flags to false, the metrics to 0,
      `createdAt` to now and `publishedDate` to null. `None` is a validation
      failure. */
  function Create(f: CampaignFields, now: int): (r: Option<Campaign>)
    ensures r.Some? <==> f.name.Some? && f.name.value != "" && f.campaignType.Some?
    ensures r.Some? ==>
              && r.value.name == f.name.value
              && r.value.campaignType == f.campaignType.value
              && r.value.audience == f.audience
              && r.value.template == f.template
              && r.value.schedule == f.schedule
              && r.value.status == (if f.status.Some? then f.status.value else Draft)
              && r.value.executionEnqueued == (f.executionEnqueued == Some(true))
              && r.value.audienceSnapshotted == (f.audienceSnapshotted == Some(true))
              && r.value.openRate == 0 && r.value.ctr == 0 && r.value.delivered == 0
              && r.value.createdAt == now && r.value.publishedDate.None?
  {
    if f.name.None? || f.name.value == "" || f.campaignType.None? then None
    else Some(Campaign(
      f.name.value, f.campaignType.value, f.audience, f.template,
      OrElse(f.status, Draft), OrElse(f.executionEnqueued, false),
      OrElse(f.audienceSnapshotted, false), f.schedule,
      0, 0, 0, now, None))
  }

  /** `findByIdAndUpdate(id, payload)`: every field the payload carries
      replaces the stored one (update validators do not run); the rest stay. */
  function ApplyUpdate(c: Campaign, f: CampaignFields): (r: Campaign)
    ensures f.name.Some? ==> r.name == f.name.value
    ensures f.name.None? ==> r.name == c.name
    ensures f.campaignType.Some? ==> r.campaignType == f.campaignType.value
    ensures f.campaignType.None? ==> r.campaignType == c.campaignType
    ensures f.audience.Some? ==> r.audience == f.audience
    ensures f.audience.None? ==> r.audience == c.audience
    ensures f.template.Some? ==> r.template == f.template
    ensures f.template.None? ==> r.template == c.template
    ensures f.status.Some? ==> r.status == f.status.value
    ensures f.status.None? ==> r.status == c.status
    ensures f.executionEnqueued.Some? ==> r.executionEnqueued == f.executionEnqueued.value
    ensures f.executionEnqueued.None? ==> r.executionEnqueued == c.executionEnqueued
    ensures f.audienceSnapshotted.Some? ==> r.audienceSnapshotted == f.audienceSnapshotted.value
    ensures f.audienceSnapshotted.None? ==> r.audienceSnapshotted == c.audienceSnapshotted
    ensures f.schedule.Some? ==> r.schedule == f.schedule
    ensures f.schedule.None? ==> r.schedule == c.schedule
    ensures r.openRate == c.openRate && r.ctr == c.ctr && r.delivered == c.delivered
    ensures r.createdAt == c.createdAt && r.publishedDate == c.publishedDate
    ensures f == CampaignFields(None, None, None, None, None, None, None, None) ==> r == c
  {
    Campaign(
      OrElse(f.name, c.name),
      OrElse(f.campaignType, c.campaignType),
      if f.audience.Some? then f.audience else c.audience,
      if f.template.Some? then f.template else c.template,
      OrElse(f.status, c.status),
      OrElse(f.executionEnqueued, c.executionEnqueued),
      OrElse(f.audienceSnapshotted, c.audienceSnapshotted),
      if f.schedule.Some? then f.schedule else c.schedule,
      c.openRate, c.ctr, c.delivered, c.createdAt, c.publishedDate)
  }

  // ---------------------------------------------------------------------
  // Campaign recipients
  // ---------------------------------------------------------------------

  datatype RecipientStatus = Pending | Sent | Failed | Bounced

  datatype Recipient = Recipient(
    campaignId: Id,
    email: string,
    status: RecipientStatus,
    providerMessageId: Option<string>,
    error: Option<string>,
    sentAt: Option<int>)

  /** The composite unique key `(campaignId, email)`; it also stands for the
      recipient's document id. */
  datatype RecipientKey = RecipientKey(campaignId: Id, email: string)

  function Key(r: Recipient): RecipientKey {
    RecipientKey(r.campaignId, r.email)
  }

  /** A recipient created from `{campaignId, email}`: status defaults to
      PENDING and the optional fields are absent. */
  function NewRecipient(campaignId: Id, email: string): (r: Recipient)
    ensures Key(r) == RecipientKey(campaignId, email)
    ensures r.status == Pending
    ensures r.providerMessageId.None? && r.error.None? && r.sentAt.None?
  {
    Recipient(campaignId, email, Pending, None, None, None)
  }

  /** The unique index: no two recipients share `(campaignId, email)`. */
  predicate UniqueKeys(rs: seq<Recipient>) {
    forall i, j :: 0 <= i < j < |rs| ==> Key(rs[i]) != Key(rs[j])
  }

  predicate HasKey(rs: seq<Recipient>, k: RecipientKey) {
    exists i :: 0 <= i < |rs| && Key(rs[i]) == k
  }
}

=== FILE: criteria_block.dfy ===
/** The criteria-block registry: the block record and its schema rules, the
    per-type operator whitelist, and the validation chain of
    `createCriteriaBlock`. */
module CriteriaBlocks {
  import opened Wrappers
  import opened Values
  import Text
  import OperatorMap

  datatype ValueType = StringType | NumberType | DateType

  datatype Category = FilterComponent | TriggerFilter

  /** A stored block: the backend field path `key`, the display `label`, the
      value type, the category and the operators the UI may offer. */
  datatype CriteriaBlock = CriteriaBlock(
    key: string,
    labelText: string,
    valueType: ValueType,
    category: Category,
    operators: seq<string>)

  /** Blocks keyed by `key`: the unique index makes the key identify a block. */
  type BlockStore = map<string, CriteriaBlock>

  function ParseType(s: string): (t: Option<ValueType>)
    ensures t == Some(StringType) <==> s == "string"
    ensures t == Some(NumberType) <==> s == "number"
    ensures t == Some(DateType) <==> s == "date"
  {
    if s == "string" then Some(StringType)
    else if s == "number" then Some(NumberType)
    else if s == "date" then Some(DateType)
    else None
  }

  function ParseCategory(s: string): (c: Option<Category>)
    ensures c == Some(FilterComponent) <==> s == "filterComponent"
    ensures c == Some(TriggerFilter) <==> s == "triggerFilter"
  {
    if s == "filterComponent" then Some(FilterComponent)
    else if s == "triggerFilter" then Some(TriggerFilter)
    else None
  }

  /** `allowedOperatorsMap`. */
  function AllowedOperators(t: ValueType): seq<string> {
    match t
    case StringType =>
      ["equals", "not equals", "contains", "notContains", "startsWith", "endsWith",
       "isEmpty", "isNotEmpty"]
    case NumberType =>
      ["equals", "not equals", "greaterThan", "greaterThanOrEqual", "lessThan",
       "lessThanOrEqual", "between", "in", "notIn", "isEmpty", "isNotEmpty"]
    case DateType =>
      ["equals", "not equals", "before", "after", "on", "not on", "between",
       "onOrBefore", "onOrAfter", "notBetween", "isEmpty", "isNotEmpty"]
  }

  /** Every type offers equality and the two emptiness tests, numbers and
      dates offer `between`, and strings the text operators. */
  lemma WhitelistShape(t: ValueType)
    ensures var ops := AllowedOperators(t);
            && "equals" in ops && "not equals" in ops && "isEmpty" in ops && "isNotEmpty" in ops
            && (t != StringType ==> "between" in ops)
            && (t == StringType ==> "contains" in ops && "startsWith" in ops && "endsWith" in ops)
  {
  }

  predicate Allowed(t: ValueType, op: Value) {
    op.Str? && op.s in AllowedOperators(t)
  }

  /** `operators.filter(op => !allowedOperators.includes(op))`: exactly the
      entries the whitelist lacks, in input order. */
  function InvalidOperators(t: ValueType, ops: seq<Value>): (bad: seq<Value>)
    ensures |bad| <= |ops|
    ensures forall v :: v in bad <==> v in ops && !Allowed(t, v)
    ensures bad == [] <==> forall i :: 0 <= i < |ops| ==> Allowed(t, ops[i])
  {
    if |ops| == 0 then []
    else if Allowed(t, ops[0]) then InvalidOperators(t, ops[1..])
    else [ops[0]] + InvalidOperators(t, ops[1..])
  }

  /** The invalid operators keep the request's order: filtering a
      concatenation is concatenating the filtered parts, so the 400 message
      lists them as they were sent. */
  lemma {:induction false} InvalidOperatorsAppend(t: ValueType, xs: seq<Value>, zs: seq<Value>)
    ensures InvalidOperators(t, xs + zs) == InvalidOperators(t, xs) + InvalidOperators(t, zs)
    decreases |xs|
  {
    if |xs| > 0 {
      assert (xs + zs)[0] == xs[0];
      assert (xs + zs)[1..] == xs[1..] + zs;
      InvalidOperatorsAppend(t, xs[1..], zs);
    } else {
      assert xs + zs == zs;
    }
  }

  /** The schema rules: `key` and `label` are required (non-empty) and at
      least one operator is listed. */
  predicate SchemaValid(b: CriteriaBlock) {
    b.key != "" && b.labelText != "" && |b.operators| > 0
  }

  /** A store in which every block satisfies the schema and sits under its
      own key. */
  predicate StoreValid(store: BlockStore) {
    forall k :: k in store ==> SchemaValid(store[k]) && store[k].key == k
  }

  /** The body of a create request. Absent string fields are `""`, which
      every check treats like an absent one; `operators` is any value. */
  datatype CreateRequest = CreateRequest(
    key: string,
    labelText: string,
    valueType: string,
    category: string,
    operators: Value)

  /** The ways `createCriteriaBlock` answers without creating a block. */
  datatype BlockError =
    | MissingFields
    | OperatorsNotArray
    | InvalidType(given: string)
    | InvalidOperatorList(valueType: ValueType, invalid: seq<Value>)
    | DuplicateLabel
    | InternalError

  function StatusCode(e: BlockError): int {
    match e
    case DuplicateLabel => 409
    case InternalError => 500
    case _ => 400
  }

  /** An existing block in the same category whose label equals `text`
      case-insensitively. */
  predicate LabelTaken(store: BlockStore, text: string, category: string) {
    exists k :: k in store && Text.SameIgnoringCase(store[k].labelText, text)
                && ParseCategory(category) == Some(store[k].category)
  }

  /** The result of `createCriteriaBlock`: the new store, and the block
      created or the rejection. */
  datatype Outcome = Outcome(store: BlockStore, result: Result<CriteriaBlock, BlockError>)

  /** Everything a create request must satisfy to be stored: the
      controller's checks, then the schema and the unique index on the
      document it builds. */
  predicate Passes(store: BlockStore, req: CreateRequest) {
    && req.labelText != "" && req.valueType != "" && req.category != ""
    && req.operators.Arr? && |req.operators.items| > 0
    && ParseType(req.valueType).Some?
    && InvalidOperators(ParseType(req.valueType).value, req.operators.items) == []
    && !LabelTaken(store, req.labelText, req.category)
    && ParseCategory(req.category).Some?
    && req.key != "" && Text.Trim(req.labelText) != ""
    && req.key !in store
  }

  /** `createCriteriaBlock`: the checks run in source order and the first
      failing one answers; the document is written only once all of them and
      the schema pass. */
  function CreateCriteriaBlock(store: BlockStore, req: CreateRequest): (o: Outcome)
    ensures o.result.Err? ==> o.store == store
    ensures o.result.Ok? ==> o.store == store[req.key := o.result.value]
    ensures (req.labelText == "" || req.valueType == "" || req.category == "" || !Truthy(req.operators))
              ==> o.result == Err(MissingFields)
    ensures o.result.Ok? <==> Passes(store, req)
    ensures o.result.Ok? ==>
              var b := o.result.value;
              && b.key == req.key
              && b.labelText == Text.Trim(req.labelText)
              && Some(b.valueType) == ParseType(req.valueType)
              && Some(b.category) == ParseCategory(req.category)
              && |b.operators| == |req.operators.items|
              && (forall i :: 0 <= i < |b.operators| ==> req.operators.items[i] == Str(b.operators[i]))
              && SchemaValid(b)
  {
    if req.labelText == "" || req.valueType == "" || req.category == "" || !Truthy(req.operators) then
      Outcome(store, Err(MissingFields))
    else if !req.operators.Arr? || |req.operators.items| == 0 then
      Outcome(store, Err(OperatorsNotArray))
    else if ParseType(req.valueType).None? then
      Outcome(store, Err(InvalidType(req.valueType)))
    else
      var t := ParseType(req.valueType).value;
      var ops := req.operators.items;
      var bad := InvalidOperators(t, ops);
      if bad != [] then
        Outcome(store, Err(InvalidOperatorList(t, bad)))
      else if LabelTaken(store, req.labelText, req.category) then
        Outcome(store, Err(DuplicateLabel))
      else
        var names := seq(|ops|, i requires 0 <= i < |ops| => ops[i].s);
        match ParseCategory(req.category)
        case None => Outcome(store, Err(InternalError))
        case Some(cat) =>
          var b := CriteriaBlock(req.key, Text.Trim(req.labelText), t, cat, names);
          if !SchemaValid(b) || req.key in store then Outcome(store, Err(InternalError))
          else Outcome(store[req.key := b], Ok(b))
  }

  /** Creation keeps the store valid: every stored block still satisfies
      the schema and keys stay unique. */
  lemma CreatePreservesValidity(store: BlockStore, req: CreateRequest)
    requires StoreValid(store)
    ensures StoreValid(CreateCriteriaBlock(store, req).store)
  {
  }

  /** The checks answer in source order: a missing field wins over every other
      problem, a non-array or empty operator list over a bad type, a bad type
      over bad operators, and bad operators over a duplicate label. */
  lemma RejectionOrder(store: BlockStore, req: CreateRequest)
    ensures var r := CreateCriteriaBlock(store, req).result;
      && (req.labelText != "" && req.valueType != "" && req.category != "" && Truthy(req.operators)
          && (!req.operators.Arr? || req.operators.items == [])
          ==> r == Err(OperatorsNotArray))
      && (req.labelText != "" && req.category != "" && req.operators.Arr? && req.operators.items != []
          && req.valueType != "" && ParseType(req.valueType).None?
          ==> r == Err(InvalidType(req.valueType)))
      && (req.labelText != "" && req.category != "" && req.operators.Arr? && req.operators.items != []
          && ParseType(req.valueType).Some?
          && InvalidOperators(ParseType(req.valueType).value, req.operators.items) != []
          ==> r.Err? && r.error.InvalidOperatorList? && StatusCode(r.error) == 400)
      && (req.labelText != "" && req.category != "" && req.operators.Arr? && req.operators.items != []
          && ParseType(req.valueType).Some?
          && InvalidOperators(ParseType(req.valueType).value, req.operators.items) == []
          && LabelTaken(store, req.labelText, req.category)
          ==> r == Err(DuplicateLabel) && StatusCode(r.error) == 409)
  {
  }

  /** A label of white space only passes the controller's checks, but the
      trimmed label fails the schema's `required` rule, so the request ends in
      the catch-all 500. */
  lemma BlankLabelIsServerError(store: BlockStore, req: CreateRequest)
    requires req.labelText != "" && Text.Trim(req.labelText) == ""
    requires req.valueType != "" && req.category != "" && req.operators.Arr? && |req.operators.items| > 0
    requires ParseType(req.valueType).Some?
    requires InvalidOperators(ParseType(req.valueType).value, req.operators.items) == []
    requires !LabelTaken(store, req.labelText, req.category)
    ensures CreateCriteriaBlock(store, req).result == Err(InternalError)
    ensures StatusCode(CreateCriteriaBlock(store, req).result.error) == 500
  {
  }

  // ---------------------------------------------------------------------
  // The duplicate-label check runs on the untrimmed label
  // ---------------------------------------------------------------------

  /** No two blocks of one category carry labels equal up to case. */
  predicate LabelsDistinct(store: BlockStore) {
    forall k1, k2 :: k1 in store && k2 in store && k1 != k2 && store[k1].category == store[k2].category
                     ==> !Text.SameIgnoringCase(store[k1].labelText, store[k2].labelText)
  }

  /** As written, the duplicate lookup uses the label as sent while the
      stored label is trimmed: a label sent with a trailing blank slips past
      an existing block of the same label, and the category ends up with two
      blocks labelled alike. */
  lemma UntrimmedLabelSlipsPast()
    ensures var store := map["age" := CriteriaBlock("age", "Age", NumberType, FilterComponent, ["equals"])];
            var req := CreateRequest("age2", "Age ", "number", "filterComponent", Arr([Str("equals")]));
            var o := CreateCriteriaBlock(store, req);
            && LabelsDistinct(store)
            && o.result.Ok?
            && o.store["age2"].labelText == "Age"
            && !LabelsDistinct(o.store)
  {
    var store := map["age" := CriteriaBlock("age", "Age", NumberType, FilterComponent, ["equals"])];
    var req := CreateRequest("age2", "Age ", "number", "filterComponent", Arr([Str("equals")]));
    AgeAgainCreated(store, req);
    var o := CreateCriteriaBlock(store, req);
    assert o.store["age"].labelText == "Age" && o.store["age"].category == FilterComponent;
    assert Text.SameIgnoringCase(o.store["age"].labelText, o.store["age2"].labelText);
  }

  /** The request of `UntrimmedLabelSlipsPast` passes every check. */
  lemma AgeAgainCreated(store: BlockStore, req: CreateRequest)
    requires store == map["age" := CriteriaBlock("age", "Age", NumberType, FilterComponent, ["equals"])]
    requires req == CreateRequest("age2", "Age ", "number", "filterComponent", Arr([Str("equals")]))
    ensures CreateCriteriaBlock(store, req).result == Ok(CriteriaBlock("age2", "Age", NumberType, FilterComponent, ["equals"]))
  {
    AgeFacts();
    assert !LabelTaken(store, req.labelText, req.category);
    assert ParseType("number") == Some(NumberType);
    assert ParseCategory("filterComponent") == Some(FilterComponent);
    var ops := [Str("equals")];
    assert seq(|ops|, i requires 0 <= i < |ops| => ops[i].s) == ["equals"];
  }

  lemma AgeFacts()
    ensures Text.Trim("Age ") == "Age"
    ensures !Text.SameIgnoringCase("Age", "Age ")
    ensures InvalidOperators(NumberType, [Str("equals")]) == []
  {
    Text.TrimDropsTrailingSpace("Age", ' ');
    assert |Text.Lower("Age")| != |Text.Lower("Age ")|;
    assert Allowed(NumberType, Str("equals")) by {
      assert AllowedOperators(NumberType)[0] == "equals";
    }
    assert [Str("equals")][1..] == [];
  }

  /** `createCriteriaBlock` with the duplicate lookup run on the label as it
      will be stored: a request the written handler would create is refused
      with 409 when its trimmed label is taken in the category; every other
      answer is the written one. */
  function CreateCriteriaBlockIntended(store: BlockStore, req: CreateRequest): (o: Outcome)
    ensures o.result.Err? ==> o.store == store
    ensures o.result.Ok? ==> o == CreateCriteriaBlock(store, req)
    ensures o.result.Ok? <==>
              CreateCriteriaBlock(store, req).result.Ok? && !LabelTaken(store, Text.Trim(req.labelText), req.category)
    ensures o.result.Err? && o.result != CreateCriteriaBlock(store, req).result ==> o.result == Err(DuplicateLabel)
  {
    var w := CreateCriteriaBlock(store, req);
    if w.result.Ok? && LabelTaken(store, Text.Trim(req.labelText), req.category) then
      Outcome(store, Err(DuplicateLabel))
    else w
  }

  /** The corrected handler keeps labels distinct within each category. */
  lemma IntendedLabelsDistinct(store: BlockStore, req: CreateRequest)
    requires StoreValid(store) && LabelsDistinct(store)
    ensures LabelsDistinct(CreateCriteriaBlockIntended(store, req).store)
  {
    var o := CreateCriteriaBlockIntended(store, req);
    if o.result.Ok? {
      var b := o.result.value;
      forall k | k in store && store[k].category == b.category
        ensures !Text.SameIgnoringCase(store[k].labelText, b.labelText)
      {
        assert ParseCategory(req.category) == Some(store[k].category);
      }
    }
  }

  /** Whitelisted operators the compiler has no entry for. */
  lemma WhitelistBeyondCompiler()
    ensures "not equals" in AllowedOperators(StringType) && OperatorMap.Lookup("not equals").None?
    ensures "notContains" in AllowedOperators(StringType) && OperatorMap.Lookup("notContains").None?
    ensures forall op :: op in ["before", "after", "on", "not on", "onOrBefore", "onOrAfter", "notBetween"]
              ==> op in AllowedOperators(DateType) && OperatorMap.Lookup(op).None?
  {
    assert AllowedOperators(StringType)[1] == "not equals" && AllowedOperators(StringType)[3] == "notContains";
    DateWhitelistBeyondCompiler();
  }

  lemma DateWhitelistBeyondCompiler()
    ensures forall op :: op in ["before", "after", "on", "not on", "onOrBefore", "onOrAfter", "notBetween"]
              ==> op in AllowedOperators(DateType) && OperatorMap.Lookup(op).None?
  {
    var ds := AllowedOperators(DateType);
    assert ds[2] == "before" && ds[3] == "after" && ds[4] == "on" && ds[5] == "not on";
    assert ds[7] == "onOrBefore" && ds[8] == "onOrAfter" && ds[9] == "notBetween";
  }
}

=== FILE: criteria_seed.dfy ===
/** The criteria seed: seven built-in blocks upserted by key, so that running
    the seed any number of times leaves the same registry. */
module CriteriaSeed {
  import opened CriteriaBlocks
  import OperatorMap

  /** The `criteriaBlocks` constants. */
  const SeedBlocks: seq<CriteriaBlock> := [
    CriteriaBlock("age", "Age", NumberType, FilterComponent,
                  ["equals", "greaterThan", "lessThan", "between"]),
    CriteriaBlock("location.city", "City", StringType, FilterComponent,
                  ["equals", "startsWith", "contains"]),
    CriteriaBlock("location.state", "State", StringType, FilterComponent, ["equals"]),
    CriteriaBlock("location.country", "Country", StringType, FilterComponent, ["equals"]),
    CriteriaBlock("tags", "Tags", StringType, FilterComponent, ["contains"]),
    CriteriaBlock("attributes.region", "Region", StringType, FilterComponent, ["equals"]),
    CriteriaBlock("attributes.plan", "Plan", StringType, FilterComponent, ["equals"])
  ]

  /** What `updateOne` reports and leaves behind. */
  datatype UpsertResult = UpsertResult(store: BlockStore, upsertedCount: nat)

  /** `updateOne({key}, {$setOnInsert: block}, {upsert: true})`: the block is
      inserted only when no block has its key, and an existing block with that
      key is left exactly as it was. */
  function UpsertOnInsert(store: BlockStore, b: CriteriaBlock): (r: UpsertResult)
    ensures r.store.Keys == store.Keys + {b.key}
    ensures forall k :: k in store ==> r.store[k] == store[k]
    ensures b.key !in store ==> r.store[b.key] == b
    ensures r.upsertedCount > 0 <==> b.key !in store
  {
    if b.key in store then UpsertResult(store, 0)
    else UpsertResult(store[b.key := b], 1)
  }

  /** The line `seedCriteria` logs for each block. */
  datatype LogLine = Inserted(key: string) | AlreadyExists(key: string)

  function KeysOf(blocks: seq<CriteriaBlock>): set<string> {
    set i | 0 <= i < |blocks| :: blocks[i].key
  }

  /** The loop of `seedCriteria`, block after block. */
  datatype SeedRun = SeedRun(store: BlockStore, log: seq<LogLine>)

  function Seed(store: BlockStore, blocks: seq<CriteriaBlock>): (r: SeedRun)
    ensures r.store.Keys == store.Keys + KeysOf(blocks)
    ensures forall k :: k in store ==> r.store[k] == store[k]
    ensures |r.log| == |blocks|
    ensures forall i :: 0 <= i < |blocks| ==> r.log[i].key == blocks[i].key
    decreases |blocks|
  {
    if |blocks| == 0 then SeedRun(store, [])
    else
      var u := UpsertOnInsert(store, blocks[0]);
      var line := if u.upsertedCount > 0 then Inserted(blocks[0].key) else AlreadyExists(blocks[0].key);
      var rest := Seed(u.store, blocks[1..]);
      assert KeysOf(blocks) == {blocks[0].key} + KeysOf(blocks[1..]) by {
        forall k | k in KeysOf(blocks) ensures k in {blocks[0].key} + KeysOf(blocks[1..]) {
          var i :| 0 <= i < |blocks| && blocks[i].key == k;
          if i > 0 { assert blocks[1..][i - 1].key == k; }
        }
      }
      SeedRun(rest.store, [line] + rest.log)
  }

  /** The `i`-th block's key is neither stored nor used by an earlier block. */
  predicate FreshAt(store: BlockStore, blocks: seq<CriteriaBlock>, i: nat)
    requires i < |blocks|
  {
    blocks[i].key !in store && forall j :: 0 <= j < i ==> blocks[j].key != blocks[i].key
  }

  /** After the first upsert, freshness of a later block is freshness in the
      rest of the run against the grown store. */
  lemma FreshAtShift(store: BlockStore, blocks: seq<CriteriaBlock>, i: nat)
    requires 0 < i < |blocks|
    ensures FreshAt(store, blocks, i) <==> FreshAt(UpsertOnInsert(store, blocks[0]).store, blocks[1..], i - 1)
  {
    var tail := blocks[1..];
    assert blocks[i] == tail[i - 1];
    forall j | 0 < j < i ensures blocks[j] == tail[j - 1] { }
  }

  /** A block is logged as inserted exactly when its key was neither stored
      beforehand nor used by an earlier block of the run. */
  lemma {:induction false} SeedLogKinds(store: BlockStore, blocks: seq<CriteriaBlock>)
    ensures var r := Seed(store, blocks);
            forall i :: 0 <= i < |blocks| ==> (r.log[i].Inserted? <==> FreshAt(store, blocks, i))
    decreases |blocks|
  {
    if |blocks| > 0 {
      var u := UpsertOnInsert(store, blocks[0]);
      var tail := blocks[1..];
      SeedLogKinds(u.store, tail);
      var r := Seed(store, blocks);
      forall i | 0 <= i < |blocks|
        ensures r.log[i].Inserted? <==> FreshAt(store, blocks, i)
      {
        if i > 0 {
          assert r.log[i] == Seed(u.store, tail).log[i - 1];
          FreshAtShift(store, blocks, i);
        }
      }
    }
  }

  /** Seeding a store that already holds every key changes nothing and logs
      every block as already present. */
  lemma {:induction false} SeedOverSeededStore(store: BlockStore, blocks: seq<CriteriaBlock>)
    requires forall i :: 0 <= i < |blocks| ==> blocks[i].key in store
    ensures Seed(store, blocks).store == store
    ensures forall i :: 0 <= i < |blocks| ==> Seed(store, blocks).log[i] == AlreadyExists(blocks[i].key)
    decreases |blocks|
  {
    if |blocks| > 0 {
      assert UpsertOnInsert(store, blocks[0]) == UpsertResult(store, 0);
      SeedOverSeededStore(store, blocks[1..]);
      var r := Seed(store, blocks);
      forall i | 0 <= i < |blocks|
        ensures r.log[i] == AlreadyExists(blocks[i].key)
      {
        if i > 0 {
          assert r.log[i] == Seed(store, blocks[1..]).log[i - 1];
        }
      }
    }
  }

  /** Running the seed twice leaves the store exactly as running it once. */
  lemma SeedIdempotent(store: BlockStore, blocks: seq<CriteriaBlock>)
    ensures Seed(Seed(store, blocks).store, blocks).store == Seed(store, blocks).store
  {
    var once := Seed(store, blocks).store;
    forall i | 0 <= i < |blocks| ensures blocks[i].key in once {
      assert blocks[i].key in KeysOf(blocks);
    }
    SeedOverSeededStore(once, blocks);
  }

  /** On an empty registry every built-in block is inserted, under its key. */
  lemma SeedIntoEmpty()
    ensures var r := Seed(map[], SeedBlocks);
            forall i :: 0 <= i < |SeedBlocks| ==> r.store[SeedBlocks[i].key] == SeedBlocks[i]
  {
    SeedDistinctInserts(map[], SeedBlocks);
    SeedKeysDistinct();
  }

  /** With pairwise distinct keys none of which is stored yet, each block ends
      up stored under its key. */
  lemma {:induction false} SeedDistinctInserts(store: BlockStore, blocks: seq<CriteriaBlock>)
    requires forall i, j :: 0 <= i < j < |blocks| ==> blocks[i].key != blocks[j].key
    requires forall i :: 0 <= i < |blocks| ==> blocks[i].key !in store
    ensures forall i :: 0 <= i < |blocks| ==> Seed(store, blocks).store[blocks[i].key] == blocks[i]
    decreases |blocks|
  {
    if |blocks| > 0 {
      var u := UpsertOnInsert(store, blocks[0]);
      var tail := blocks[1..];
      forall i | 0 <= i < |tail| ensures tail[i].key !in u.store {
        assert tail[i] == blocks[i + 1];
      }
      SeedDistinctInserts(u.store, tail);
      forall i | 0 <= i < |blocks|
        ensures Seed(store, blocks).store[blocks[i].key] == blocks[i]
      {
        if i > 0 { assert blocks[i] == tail[i - 1]; }
      }
    }
  }

  /** The seeded keys are pairwise distinct. */
  lemma SeedKeysDistinct()
    ensures forall i, j :: 0 <= i < j < |SeedBlocks| ==> SeedBlocks[i].key != SeedBlocks[j].key
  {
  }

  /** Every seeded operator is both a key of the operator table and allowed
      for its block's value type, and every seeded block satisfies the schema. */
  lemma SeedOperatorsSupported()
    ensures forall i, j :: 0 <= i < |SeedBlocks| && 0 <= j < |SeedBlocks[i].operators| ==>
              && OperatorMap.Lookup(SeedBlocks[i].operators[j]).Some?
              && SeedBlocks[i].operators[j] in AllowedOperators(SeedBlocks[i].valueType)
    ensures forall i :: 0 <= i < |SeedBlocks| ==> SchemaValid(SeedBlocks[i])
  {
  }
}

=== FILE: enqueue.dfy ===
/** `enqueueCampaignExecution`: claim the campaign by flipping
    `executionEnqueued`, then (in the tail) build one delayed `send-email` job
    per PENDING recipient and mark the campaign Scheduled. The renderer and
    the clock are parameters. */
module Enqueue {
  import opened Wrappers
  import opened Values
  import opened CampaignModel
  import opened StoreModel
  import Templates

  datatype EnqueueError =
    | CampaignNotFound
    | StartDateMissing
    | StartInPast
    | TemplateNotFound

  /** `findOneAndUpdate({_id, executionEnqueued: {$ne: true}},
      {$set: {executionEnqueued: true}}, {new: true})`: only a campaign that
      exists and is not claimed yet matches; the flag flips and the updated
      document is returned. */
  function Claim(s: Store, id: Id): (r: Step<Campaign, EnqueueError>)
    ensures r.result.Ok? <==> id in s.campaigns && !s.campaigns[id].executionEnqueued
    ensures r.result.Err? ==> r == Step(s, Err(CampaignNotFound))
    ensures r.result.Ok? ==>
              && r.result.value == s.campaigns[id].(executionEnqueued := true)
              && r.store == s.(campaigns := s.campaigns[id := r.result.value])
  {
    if id in s.campaigns && !s.campaigns[id].executionEnqueued then
      var c := s.campaigns[id].(executionEnqueued := true);
      Step(s.(campaigns := s.campaigns[id := c]), Ok(c))
    else Step(s, Err(CampaignNotFound))
  }

  /** `CampaignRecipient.find({campaignId, status: "PENDING"})`, in store order. */
  function PendingOf(rs: seq<Recipient>, id: Id): (out: seq<Recipient>)
    ensures |out| <= |rs|
    ensures forall r :: r in out <==> r in rs && r.campaignId == id && r.status == Pending
  {
    if |rs| == 0 then []
    else if rs[0].campaignId == id && rs[0].status == Pending then [rs[0]] + PendingOf(rs[1..], id)
    else PendingOf(rs[1..], id)
  }

  /** Each PENDING recipient of the campaign is found exactly as often as it
      is stored, and nothing else is found. */
  lemma {:induction false} PendingOfCounts(rs: seq<Recipient>, id: Id)
    ensures forall r :: multiset(PendingOf(rs, id))[r]
                        == if r.campaignId == id && r.status == Pending then multiset(rs)[r] else 0
  {
    if |rs| > 0 {
      PendingOfCounts(rs[1..], id);
      assert rs == [rs[0]] + rs[1..];
    }
  }

  /** Under the unique index the query finds no recipient twice. */
  lemma {:induction false} PendingOfUnique(rs: seq<Recipient>, id: Id)
    requires UniqueKeys(rs)
    ensures UniqueKeys(PendingOf(rs, id))
  {
    if |rs| > 0 {
      assert UniqueKeys(rs[1..]);
      PendingOfUnique(rs[1..], id);
      var out := PendingOf(rs, id);
      if rs[0].campaignId == id && rs[0].status == Pending {
        forall j | 1 <= j < |out| ensures Key(out[0]) != Key(out[j]) {
          assert out[j] in rs[1..];
          var k :| 0 <= k < |rs[1..]| && rs[1..][k] == out[j];
          assert rs[k + 1] == out[j];
        }
      }
    }
  }

  /** The query keeps store order: the pending recipients of a concatenation
      are those of each part, concatenated. */
  lemma {:induction false} PendingOfAppend(xs: seq<Recipient>, zs: seq<Recipient>, id: Id)
    ensures PendingOf(xs + zs, id) == PendingOf(xs, id) + PendingOf(zs, id)
    decreases |xs|
  {
    if |xs| > 0 {
      assert (xs + zs)[0] == xs[0];
      assert (xs + zs)[1..] == xs[1..] + zs;
      PendingOfAppend(xs[1..], zs, id);
    } else {
      assert xs + zs == zs;
    }
  }

  /** The idempotency key of a recipient's job. */
  function IdempotencyKey(id: Id, email: string): (k: string)
    ensures |k| == |id| + 1 + |email|
    ensures k[..|id|] == id && k[|id|] == ':' && k[|id| + 1..] == email
  {
    id + ":" + email
  }

  /** The index of the first `:` of `s`, or `|s|` when there is none. */
  function ColonAt(s: string): (n: nat)
    ensures n <= |s|
  {
    if |s| == 0 || s[0] == ':' then 0 else 1 + ColonAt(s[1..])
  }

  lemma {:induction false} ColonAfter(id: string, rest: string)
    requires ':' !in id
    ensures ColonAt(id + ":" + rest) == |id|
  {
    if |id| > 0 {
      assert (id + ":" + rest)[1..] == id[1..] + ":" + rest;
      ColonAfter(id[1..], rest);
    }
  }

  /** When campaign ids contain no `:`, the key identifies the pair. */
  lemma IdempotencyKeyInjective(id1: Id, e1: string, id2: Id, e2: string)
    requires ':' !in id1 && ':' !in id2
    requires IdempotencyKey(id1, e1) == IdempotencyKey(id2, e2)
    ensures id1 == id2 && e1 == e2
  {
    var k := IdempotencyKey(id1, e1);
    ColonAfter(id1, e1);
    ColonAfter(id2, e2);
    assert id1 == k[..|id1|] == id2;
    assert e1 == k[|id1| + 1..] == e2;
  }

  /** One job per recipient, in order, all sharing subject, html and delay. */
  function JobsFor(id: Id, rs: seq<Recipient>, subject: string, html: string, delay: int): (jobs: seq<EmailJob>)
    ensures |jobs| == |rs|
    ensures forall i :: 0 <= i < |rs| ==>
              jobs[i] == EmailJob(id, Key(rs[i]), None, rs[i].email, subject, html,
                                  Some(IdempotencyKey(id, rs[i].email)), delay)
  {
    seq(|rs|, i requires 0 <= i < |rs| =>
      EmailJob(id, Key(rs[i]), None, rs[i].email, subject, html, Some(IdempotencyKey(id, rs[i].email)), delay))
  }

  /** The tail after the guard: the start date must be there and not in the
      past (a zero delay is accepted), the template must exist, and then the
      jobs are the pending recipients' jobs with the template rendered once. */
  function BuildJobs(s: Store, id: Id, c: Campaign, now: int, render: Value -> string)
    : (r: Result<seq<EmailJob>, EnqueueError>)
    ensures (c.schedule.None? || c.schedule.value.startDate.None?) <==> r == Err(StartDateMissing)
    ensures r == Err(StartInPast) <==>
              c.schedule.Some? && c.schedule.value.startDate.Some? && c.schedule.value.startDate.value < now
    ensures r.Ok? ==>
              && c.schedule.value.startDate.value >= now
              && c.template.Some? && c.template.value in s.templates
              && var t := s.templates[c.template.value];
                 var pending := PendingOf(s.recipients, id);
                 && |r.value| == |pending|
                 && forall i :: 0 <= i < |pending| ==>
                      && r.value[i].to == pending[i].email
                      && r.value[i].recipientId == Key(pending[i])
                      && r.value[i].idempotencyKey == Some(IdempotencyKey(id, pending[i].email))
                      && r.value[i].subject == t.subject
                      && r.value[i].html == render(t.content)
                      && r.value[i].delay == c.schedule.value.startDate.value - now
    ensures r.Ok? && UniqueKeys(s.recipients) ==>
              forall i, j :: 0 <= i < j < |r.value| ==> r.value[i].recipientId != r.value[j].recipientId
    ensures r == Err(TemplateNotFound) <==>
              && c.schedule.Some? && c.schedule.value.startDate.Some? && c.schedule.value.startDate.value >= now
              && (c.template.None? || c.template.value !in s.templates)
  {
    if c.schedule.None? || c.schedule.value.startDate.None? then Err(StartDateMissing)
    else
      var delay := c.schedule.value.startDate.value - now;
      if delay < 0 then Err(StartInPast)
      else if c.template.None? || c.template.value !in s.templates then Err(TemplateNotFound)
      else
        var t := s.templates[c.template.value];
        assert UniqueKeys(s.recipients) ==> UniqueKeys(PendingOf(s.recipients, id)) by {
          if UniqueKeys(s.recipients) { PendingOfUnique(s.recipients, id); }
        }
        Ok(JobsFor(id, PendingOf(s.recipients, id), t.subject, render(t.content), delay))
  }

  /** The tail's effect: on success the jobs are queued after the existing
      ones and the campaign's status becomes Scheduled; an error changes
      nothing. */
  function RunTail(s: Store, id: Id, c: Campaign, now: int, render: Value -> string): (r: Step<(), EnqueueError>)
    ensures r.result.Err? ==> r.store == s && Err(r.result.error) == BuildJobs(s, id, c, now, render)
    ensures r.result.Ok? ==>
              && BuildJobs(s, id, c, now, render).Ok?
              && r.store.jobs == s.jobs + BuildJobs(s, id, c, now, render).value
              && r.store.recipients == s.recipients && r.store.templates == s.templates
              && r.store.filters == s.filters && r.store.audience == s.audience
              && r.store.campaigns.Keys == s.campaigns.Keys
              && (id in s.campaigns ==> r.store.campaigns[id] == s.campaigns[id].(status := Scheduled))
              && forall k :: k in s.campaigns && k != id ==> r.store.campaigns[k] == s.campaigns[k]
  {
    match BuildJobs(s, id, c, now, render)
    case Err(e) => Step(s, Err(e))
    case Ok(jobs) =>
      var cs := if id in s.campaigns then s.campaigns[id := s.campaigns[id].(status := Scheduled)] else s.campaigns;
      Step(s.(jobs := s.jobs + jobs, campaigns := cs), Ok(()))
  }

  /** `enqueueCampaignExecution` as written: the claim returns the updated
      document, whose flag is already true, so the early return is always
      taken and the tail is never reached. */
  function EnqueueCampaignExecution(s: Store, id: Id, now: int, render: Value -> string): (r: Step<(), EnqueueError>)
    ensures r.result.Err? ==> r == Step(s, Err(CampaignNotFound))
    ensures r.result.Ok? <==> id in s.campaigns && !s.campaigns[id].executionEnqueued
  {
    var claim := Claim(s, id);
    match claim.result
    case Err(e) => Step(s, Err(e))
    case Ok(c) =>
      if c.executionEnqueued then Step(claim.store, Ok(()))
      else RunTail(claim.store, id, c, now, render)
  }

  /** What the service as written does: it flips the flag and nothing else;
      no job is queued and the status does not change. */
  lemma EnqueueOnlyFlipsFlag(s: Store, id: Id, now: int, render: Value -> string)
    ensures var r := EnqueueCampaignExecution(s, id, now, render);
            && r.store.jobs == s.jobs
            && (r.result.Ok? ==> r.store == s.(campaigns := s.campaigns[id := s.campaigns[id].(executionEnqueued := true)]))
            && (r.result.Ok? ==> r.store.campaigns[id].status == s.campaigns[id].status)
  {
  }

  /** The service as the code around the guard intends it: claim the
      campaign, then run the tail. */
  function EnqueueIntended(s: Store, id: Id, now: int, render: Value -> string): (r: Step<(), EnqueueError>)
    ensures r.result == Err(CampaignNotFound) <==> !(id in s.campaigns && !s.campaigns[id].executionEnqueued)
    ensures r.result.Ok? ==>
              && id in s.campaigns && id in r.store.campaigns
              && r.store.campaigns[id] == s.campaigns[id].(executionEnqueued := true, status := Scheduled)
              && |r.store.jobs| == |s.jobs| + |PendingOf(s.recipients, id)|
              && r.store.jobs[..|s.jobs|] == s.jobs
              && r.store.recipients == s.recipients
    ensures (id in s.campaigns && !s.campaigns[id].executionEnqueued && r.result.Err?) ==>
              r.store == s.(campaigns := s.campaigns[id := s.campaigns[id].(executionEnqueued := true)])
  {
    var claim := Claim(s, id);
    match claim.result
    case Err(e) => Step(s, Err(e))
    case Ok(c) => RunTail(claim.store, id, c, now, render)
  }

  /** Every PENDING recipient of the campaign gets one of the jobs that
      follow the pending recipients one for one. */
  lemma JobsCoverPending(rs: seq<Recipient>, id: Id, jobs: seq<EmailJob>)
    requires |jobs| == |PendingOf(rs, id)|
    requires forall i :: 0 <= i < |jobs| ==>
               jobs[i].recipientId == Key(PendingOf(rs, id)[i]) && jobs[i].to == PendingOf(rs, id)[i].email
    ensures forall rc :: rc in rs && rc.campaignId == id && rc.status == Pending ==>
              exists i :: 0 <= i < |jobs| && jobs[i].recipientId == Key(rc) && jobs[i].to == rc.email
  {
    var pending := PendingOf(rs, id);
    forall rc | rc in rs && rc.campaignId == id && rc.status == Pending
      ensures exists i :: 0 <= i < |jobs| && jobs[i].recipientId == Key(rc) && jobs[i].to == rc.email
    {
      assert rc in pending;
      var i :| 0 <= i < |pending| && pending[i] == rc;
      assert jobs[i].recipientId == Key(rc);
    }
  }

  /** Each of those jobs is addressed to a PENDING recipient of the campaign. */
  lemma JobsOnlyPending(rs: seq<Recipient>, id: Id, jobs: seq<EmailJob>)
    requires |jobs| == |PendingOf(rs, id)|
    requires forall i :: 0 <= i < |jobs| ==>
               jobs[i].recipientId == Key(PendingOf(rs, id)[i]) && jobs[i].to == PendingOf(rs, id)[i].email
    ensures forall i :: 0 <= i < |jobs| ==>
              exists rc :: rc in rs && rc.campaignId == id && rc.status == Pending
                           && jobs[i].recipientId == Key(rc) && jobs[i].to == rc.email
  {
    var pending := PendingOf(rs, id);
    forall i | 0 <= i < |jobs|
      ensures exists rc :: rc in rs && rc.campaignId == id && rc.status == Pending
                           && jobs[i].recipientId == Key(rc) && jobs[i].to == rc.email
    {
      var rc := pending[i];
      assert rc in pending;
    }
  }

  /** Under the unique index the intended service queues exactly one job per
      PENDING recipient of the campaign, addressed to it, and no other job. */
  lemma EnqueueIntendedOnePerPending(s: Store, id: Id, now: int, render: Value -> string)
    requires UniqueKeys(s.recipients)
    ensures var r := EnqueueIntended(s, id, now, render);
            r.result.Ok? ==>
              var queued := r.store.jobs[|s.jobs|..];
              && (forall i, j :: 0 <= i < j < |queued| ==> queued[i].recipientId != queued[j].recipientId)
              && (forall rc :: rc in s.recipients && rc.campaignId == id && rc.status == Pending ==>
                    exists i :: 0 <= i < |queued| && queued[i].recipientId == Key(rc) && queued[i].to == rc.email)
              && (forall i :: 0 <= i < |queued| ==>
                    exists rc :: rc in s.recipients && rc.campaignId == id && rc.status == Pending
                                 && queued[i].recipientId == Key(rc) && queued[i].to == rc.email)
  {
    var r := EnqueueIntended(s, id, now, render);
    if r.result.Ok? {
      var claim := Claim(s, id);
      var c := claim.result.value;
      var t := RunTail(claim.store, id, c, now, render);
      assert r == t;
      assert claim.store.recipients == s.recipients;
      var queued := r.store.jobs[|s.jobs|..];
      assert queued == BuildJobs(claim.store, id, c, now, render).value;
      JobsCoverPending(s.recipients, id, queued);
      JobsOnlyPending(s.recipients, id, queued);
    }
  }

  /** The claim makes the intended service run at most once per campaign: a
      second call is refused with `Campaign not found` and queues nothing. */
  lemma EnqueueIntendedOnce(s: Store, id: Id, now1: int, now2: int, render: Value -> string)
    ensures var first := EnqueueIntended(s, id, now1, render);
            id in first.store.campaigns ==>
              EnqueueIntended(first.store, id, now2, render) == Step(first.store, Err(CampaignNotFound))
  {
    var first := EnqueueIntended(s, id, now1, render);
    if id in s.campaigns && !s.campaigns[id].executionEnqueued {
      var claim := Claim(s, id);
      assert claim.store.campaigns[id].executionEnqueued;
    }
  }

  /** A Draft campaign with a future start, an existing template and one
      pending recipient: the service as written queues no job where the
      intended one queues exactly one. */
  lemma EnqueueQueuesNothing()
    ensures var c := Campaign("Spring", CriteriaBased, None, Some("t1"), Draft, false, false,
                              Some(Schedule(Some(Once), None, Some(5000), None)), 0, 0, 0, 0, None);
            var t := Templates.Template("T", "Hello", "Email", "News", [], "", Str("body"),
                                        false, false, 0, 0, 0, 0);
            var s := Store(map["c1" := c], [NewRecipient("c1", "a@x.io")], map[], map["t1" := t], [], []);
            var render := (v: Value) => "<p>";
            && |EnqueueCampaignExecution(s, "c1", 1000, render).store.jobs| == 0
            && |EnqueueIntended(s, "c1", 1000, render).store.jobs| == 1
            && EnqueueIntended(s, "c1", 1000, render).store.jobs[0].delay == 4000
  {
    var c := Campaign("Spring", CriteriaBased, None, Some("t1"), Draft, false, false,
                      Some(Schedule(Some(Once), None, Some(5000), None)), 0, 0, 0, 0, None);
    var t := Templates.Template("T", "Hello", "Email", "News", [], "", Str("body"),
                                false, false, 0, 0, 0, 0);
    var s := Store(map["c1" := c], [NewRecipient("c1", "a@x.io")], map[], map["t1" := t], [], []);
    var render := (v: Value) => "<p>";
    var claim := Claim(s, "c1");
    assert PendingOf(claim.store.recipients, "c1") == [NewRecipient("c1", "a@x.io")];
  }
}

=== FILE: listing.dfy ===
/** The arithmetic and query building shared by the list endpoints:
    `parseInt(x) || default` pagination, page counts, sort directions and the
    campaign list filter. */
module Listing {
  import opened Wrappers
  import Text

  /** `parseInt(raw, 10) || d`: `None` is a `NaN` parse; a parsed 0 is falsy
      as well, so both fall back to the default. */
  function ParseOr(parsed: Option<int>, d: int): (n: int)
    ensures parsed.Some? && parsed.value != 0 ==> n == parsed.value
    ensures parsed.None? || parsed.value == 0 ==> n == d
  {
    match parsed
    case Some(v) => if v != 0 then v else d
    case None => d
  }

  /** A page request: its number, its size and the documents skipped. */
  datatype Page = Page(number: int, size: int, skip: int)

  /** `page || 1`, `limit || 10` and `skip = (page - 1) * size`. */
  function Paginate(page: Option<int>, limit: Option<int>): (p: Page)
    ensures p.number != 0 && p.size != 0
    ensures p.skip == (p.number - 1) * p.size
    ensures p.number == (if page.Some? && page.value != 0 then page.value else 1)
    ensures p.size == (if limit.Some? && limit.value != 0 then limit.value else 10)
    ensures page.None? && limit.None? ==> p == Page(1, 10, 0)
  {
    var number := ParseOr(page, 1);
    var size := ParseOr(limit, 10);
    Page(number, size, (number - 1) * size)
  }

  /** `Math.ceil(total / size)` for a non-zero integer size. */
  function CeilDiv(total: int, size: int): (n: int)
    requires size != 0
    ensures size > 0 ==> (n - 1) * size < total <= n * size
    ensures size < 0 ==> n * size <= total < (n - 1) * size
  {
    if size > 0 then -((-total) / size) else -(total / (-size))
  }

  /** The number of pages the list responses report. */
  function TotalPages(total: nat, p: Page): (n: int)
    requires p.size != 0
    ensures p.size > 0 ==> (n - 1) * p.size < total <= n * p.size
    ensures p.size > 0 && total == 0 ==> n == 0
  {
    CeilDiv(total, p.size)
  }

  /** Paging through `total` documents with a non-negative limit: every page
      `1..TotalPages` skips fewer documents than there are, so none comes back
      empty, and the page after the last skips them all. */
  lemma PagesCoverAll(total: nat, limit: Option<int>)
    requires limit.Some? ==> limit.value >= 0
    ensures var n := TotalPages(total, Paginate(Some(1), limit));
            && (forall k :: 1 <= k <= n ==> Paginate(Some(k), limit).skip < total)
            && Paginate(Some(n + 1), limit).skip >= total
  {
    var size := Paginate(Some(1), limit).size;
    var n := TotalPages(total, Paginate(Some(1), limit));
    forall k | 1 <= k <= n ensures Paginate(Some(k), limit).skip < total {
      assert (k - 1) * size <= (n - 1) * size by { MulMonotone(k - 1, n - 1, size); }
    }
  }

  lemma MulMonotone(a: int, b: int, c: nat)
    requires a <= b
    ensures a * c <= b * c
  {
  }

  /** The sort direction of `getCampaigns` and `getAllTemplates`: the order
      defaults to `"desc"`, exactly `"desc"` sorts descending (-1) and any
      other value ascending (1). */
  function ListSortOrder(order: Option<string>): (dir: int)
    ensures dir == -1 || dir == 1
    ensures dir == -1 <==> order.None? || order.value == "desc"
  {
    if OrElse(order, "desc") == "desc" then -1 else 1
  }

  /** The sort direction of `getRecentlyUsedTemplates`: exactly `"asc"`
      sorts ascending (1), anything else, absent included, descending (-1). */
  function RecentSortOrder(order: Option<string>): (dir: int)
    ensures dir == -1 || dir == 1
    ensures dir == 1 <==> order == Some("asc")
  {
    if order == Some("asc") then 1 else -1
  }

  /** The two endpoints disagree on everything but `"desc"` and `"asc"`: an
      absent order sorts descending in both, and an unknown value sorts
      ascending in one and descending in the other. */
  lemma SortOrdersDiffer(order: string)
    requires order != "desc" && order != "asc"
    ensures ListSortOrder(Some(order)) == 1 && RecentSortOrder(Some(order)) == -1
    ensures ListSortOrder(None) == RecentSortOrder(None) == -1
  {
  }

  // ---------------------------------------------------------------------
  // The campaign list filter
  // ---------------------------------------------------------------------

  /** The query `getCampaigns` builds: a case-insensitive name search, the
      accepted statuses and types, and a `publishedDate` range. */
  datatype CampaignListQuery = CampaignListQuery(
    nameSearch: Option<string>,
    statusIn: Option<seq<string>>,
    typeIn: Option<seq<string>>,
    publishedBetween: Option<(string, string)>)

  /** Absent query parameters are `None`; an empty string is falsy and adds
      no condition either. */
  function Present(o: Option<string>): bool {
    o.Some? && o.value != ""
  }

  function BuildCampaignListQuery(search: Option<string>, status: Option<string>, campaignType: Option<string>,
                                  startDate: Option<string>, endDate: Option<string>): (q: CampaignListQuery)
    ensures q.nameSearch.Some? <==> Present(search)
    ensures q.nameSearch.Some? ==> q.nameSearch.value == search.value
    ensures q.statusIn.Some? <==> Present(status)
    ensures q.statusIn.Some? ==> q.statusIn.value == Text.CommaList(status.value)
    ensures q.typeIn.Some? <==> Present(campaignType)
    ensures q.typeIn.Some? ==> q.typeIn.value == Text.CommaList(campaignType.value)
    ensures q.publishedBetween.Some? <==> Present(startDate) && Present(endDate)
    ensures q.publishedBetween.Some? ==> q.publishedBetween.value == (startDate.value, endDate.value)
  {
    CampaignListQuery(
      if Present(search) then Some(search.value) else None,
      if Present(status) then Some(Text.CommaList(status.value)) else None,
      if Present(campaignType) then Some(Text.CommaList(campaignType.value)) else None,
      if Present(startDate) && Present(endDate) then Some((startDate.value, endDate.value)) else None)
  }

  /** Statuses written as a comma list are read back exactly, and a date range
      with one end missing is ignored altogether. */
  lemma StatusListRoundTrip(statuses: seq<string>, start: string)
    requires |statuses| >= 1
    requires forall i :: 0 <= i < |statuses| ==> statuses[i] != "" && ',' !in statuses[i] && Text.Trimmed(statuses[i])
    ensures var q := BuildCampaignListQuery(None, Some(Text.Join(statuses, ',')), None, Some(start), None);
            q.statusIn == Some(statuses) && q.publishedBetween.None?
  {
    Text.CommaListRoundTrip(statuses);
    assert Text.Join(statuses, ',') != "" by {
      JoinNonEmpty(statuses, ',');
    }
  }

  lemma {:induction false} JoinNonEmpty(xs: seq<string>, sep: char)
    requires |xs| >= 1 && xs[0] != ""
    ensures Text.Join(xs, sep) != ""
  {
    if |xs| > 1 {
      assert Text.Join(xs, sep) == xs[0] + [sep] + Text.Join(xs[1..], sep);
    }
  }
}

=== FILE: operator_map.dfy ===
/** The operator table of the filter compiler: fourteen operator names, each
    mapped to a constructor of a one-field query node, and the logical
    operator table. */
module OperatorMap {
  import opened Wrappers
  import opened Values
  import opened Query

  /** The keys of the operator table. */
  datatype Op =
    | Equals | NotEquals
    | Contains | StartsWith | EndsWith
    | GreaterThan | GreaterThanOrEqual | LessThan | LessThanOrEqual
    | Between
    | In | NotIn
    | IsEmpty | IsNotEmpty

  /** The spelling of each key, as filter criteria name it. */
  function Name(op: Op): string {
    match op
    case Equals => "equals"
    case NotEquals => "notEquals"
    case Contains => "contains"
    case StartsWith => "startsWith"
    case EndsWith => "endsWith"
    case GreaterThan => "greaterThan"
    case GreaterThanOrEqual => "greaterThanOrEqual"
    case LessThan => "lessThan"
    case LessThanOrEqual => "lessThanOrEqual"
    case Between => "between"
    case In => "in"
    case NotIn => "notIn"
    case IsEmpty => "isEmpty"
    case IsNotEmpty => "isNotEmpty"
  }

  /** Every key of the table, in declaration order. */
  const Ops: seq<Op> := [
    Equals, NotEquals, Contains, StartsWith, EndsWith,
    GreaterThan, GreaterThanOrEqual, LessThan, LessThanOrEqual,
    Between, In, NotIn, IsEmpty, IsNotEmpty
  ]

  /** `operatorMap[name]`: the entry for `name`, if the table has one. */
  function Lookup(name: string): (r: Option<Op>)
    ensures r.Some? ==> Name(r.value) == name
    ensures r.None? ==> forall op: Op :: Name(op) != name
  {
    if name == "equals" then Some(Equals)
    else if name == "notEquals" then Some(NotEquals)
    else if name == "contains" then Some(Contains)
    else if name == "startsWith" then Some(StartsWith)
    else if name == "endsWith" then Some(EndsWith)
    else if name == "greaterThan" then Some(GreaterThan)
    else if name == "greaterThanOrEqual" then Some(GreaterThanOrEqual)
    else if name == "lessThan" then Some(LessThan)
    else if name == "lessThanOrEqual" then Some(LessThanOrEqual)
    else if name == "between" then Some(Between)
    else if name == "in" then Some(In)
    else if name == "notIn" then Some(NotIn)
    else if name == "isEmpty" then Some(IsEmpty)
    else if name == "isNotEmpty" then Some(IsNotEmpty)
    else None
  }

  /** Looking a key up by its own name finds that key. */
  lemma LookupName(op: Op)
    ensures Lookup(Name(op)) == Some(op)
  {
  }

  /** The table has exactly fourteen distinct keys, and `"not equals"` (with a
      space) is not one of them. */
  lemma FourteenKeys()
    ensures |Ops| == 14
    ensures forall op: Op :: op in Ops
    ensures forall i, j :: 0 <= i < j < |Ops| ==> Name(Ops[i]) != Name(Ops[j])
    ensures Lookup("not equals") == None
  {
    forall op: Op ensures op in Ops {
      match op
      case Equals => assert Ops[0] == op;
      case NotEquals => assert Ops[1] == op;
      case Contains => assert Ops[2] == op;
      case StartsWith => assert Ops[3] == op;
      case EndsWith => assert Ops[4] == op;
      case GreaterThan => assert Ops[5] == op;
      case GreaterThanOrEqual => assert Ops[6] == op;
      case LessThan => assert Ops[7] == op;
      case LessThanOrEqual => assert Ops[8] == op;
      case Between => assert Ops[9] == op;
      case In => assert Ops[10] == op;
      case NotIn => assert Ops[11] == op;
      case IsEmpty => assert Ops[12] == op;
      case IsNotEmpty => assert Ops[13] == op;
    }
    forall i, j | 0 <= i < j < |Ops| ensures Name(Ops[i]) != Name(Ops[j]) {
      LookupName(Ops[i]);
      LookupName(Ops[j]);
    }
  }

  /** What the compiler throws. */
  datatype CompileError =
    | UnsupportedOperator(operator: string)
    | NotIterable(field: string)

  /** The text of the thrown error. */
  function Message(e: CompileError): string {
    match e
    case UnsupportedOperator(op) => "Unsupported operator: " + op
    case NotIterable(_) => "value is not iterable"
  }

  /** The element at `i` of an iterated value, `undefined` past its end. */
  function ElementOr(xs: seq<Value>, i: nat): Value {
    if i < |xs| then xs[i] else Undefined
  }

  /** The parameter pattern `[min, max]` of the `between` constructor: arrays
      yield their first two elements and strings their first two characters;
      any other value is not iterable and the destructuring throws. */
  function Destructure(field: string, v: Value): (r: Result<(Value, Value), CompileError>)
    ensures r.Err? <==> !(v.Arr? || v.Str?)
    ensures v.Arr? && |v.items| >= 2 ==> r == Ok((v.items[0], v.items[1]))
  {
    match v
    case Arr(xs) => Ok((ElementOr(xs, 0), ElementOr(xs, 1)))
    case Str(s) =>
      Ok((if |s| > 0 then Str([s[0]]) else Undefined,
          if |s| > 1 then Str([s[1]]) else Undefined))
    case _ => Err(NotIterable(field))
  }

  /** `operatorMap[op](field, value)`. */
  function Build(op: Op, field: string, v: Value): (r: Result<Node, CompileError>)
    ensures r.Err? <==> op == Between && !(v.Arr? || v.Str?)
    ensures r.Ok? ==> r.value.Field? && r.value.path == field
  {
    match op
    case Equals => Ok(Field(field, Eq(v)))
    case NotEquals => Ok(Field(field, Ne(v)))
    case Contains => Ok(Field(field, Regex(Raw(v), "i")))
    case StartsWith => Ok(Field(field, Regex(Template("^", v, ""), "i")))
    case EndsWith => Ok(Field(field, Regex(Template("", v, "$"), "i")))
    case GreaterThan => Ok(Field(field, Gt(v)))
    case GreaterThanOrEqual => Ok(Field(field, Gte(v)))
    case LessThan => Ok(Field(field, Lt(v)))
    case LessThanOrEqual => Ok(Field(field, Lte(v)))
    case Between =>
      (match Destructure(field, v)
       case Ok((lo, hi)) => Ok(Field(field, Range(lo, hi)))
       case Err(e) => Err(e))
    case In => Ok(Field(field, AnyOf(v)))
    case NotIn => Ok(Field(field, NoneOf(v)))
    case IsEmpty => Ok(Field(field, Exists(false)))
    case IsNotEmpty => Ok(Field(field, Exists(true)))
  }

  /** `between` on a pair builds one node holding both bounds. */
  lemma BuildBetweenPair(f: string, v: Value, w: Value)
    ensures Build(Between, f, Arr([v, w])) == Ok(Field(f, Range(v, w)))
  {
  }

  /** What each operator is meant to select, stated on the field value `x`
      (and whether the field is present) without reference to query nodes. */
  predicate Intended(op: Op, present: bool, x: Value, v: Value, rx: (Pattern, Value) -> bool) {
    match op
    case Equals => x == v
    case NotEquals => x != v
    case Contains => present && rx(Raw(v), x)
    case StartsWith => present && rx(Template("^", v, ""), x)
    case EndsWith => present && rx(Template("", v, "$"), x)
    case GreaterThan => x.Num? && v.Num? && x.n > v.n
    case GreaterThanOrEqual => x.Num? && v.Num? && x.n >= v.n
    case LessThan => x.Num? && v.Num? && x.n < v.n
    case LessThanOrEqual => x.Num? && v.Num? && x.n <= v.n
    case Between =>
      && v.Arr? && |v.items| >= 2 && x.Num?
      && v.items[0].Num? && v.items[1].Num?
      && v.items[0].n <= x.n <= v.items[1].n
    case In => v.Arr? && x in v.items
    case NotIn => !(v.Arr? && x in v.items)
    case IsEmpty => !present
    case IsNotEmpty => present
  }

  /** Every node the table builds selects exactly the records the operator is
      meant to select. */
  lemma BuildMeaning(op: Op, f: string, v: Value, rec: Record, rx: (Pattern, Value) -> bool)
    requires Build(op, f, v).Ok?
    ensures Matches(Build(op, f, v).value, rec, rx) <==> Intended(op, f in rec, Get(rec, f), v, rx)
  {
  }

  /** `logicalOperatorMap`: the two combinators a filter may name. */
  datatype Combinator = AndOp | OrOp

  function LogicalOperator(name: string): (r: Option<Combinator>)
    ensures r == Some(AndOp) <==> name == "AND"
    ensures r == Some(OrOp) <==> name == "OR"
    ensures r.None? <==> name != "AND" && name != "OR"
  {
    if name == "AND" then Some(AndOp) else if name == "OR" then Some(OrOp) else None
  }
}

=== FILE: query.dfy ===
/** The MongoDB-style query tree the filter compiler produces, with a small
    evaluation semantics over flat records so that compiled filters can be
    compared by meaning and not only by shape. */
module Query {
  import opened Values

  /** The operand of `$regex`: the criterion value as given, or a template
      literal that places the value between a fixed prefix and suffix. The
      regular-expression language itself is not modelled. */
  datatype Pattern =
    | Raw(v: Value)
    | Template(prefix: string, v: Value, suffix: string)

  /** The condition placed on one field: `{f: v}`, `{f: {$ne: v}}`, …;
      `AnyOf` and `NoneOf` stand for `$in` and `$nin`. */
  datatype Cond =
    | Eq(v: Value)
    | Ne(v: Value)
    | Regex(pattern: Pattern, options: string)
    | Gt(v: Value)
    | Gte(v: Value)
    | Lt(v: Value)
    | Lte(v: Value)
    | Range(min: Value, max: Value)
    | AnyOf(v: Value)
    | NoneOf(v: Value)
    | Exists(present: bool)

  /** A query document: a condition on one field path, or `$and`/`$or` of
      sub-queries. */
  datatype Node =
    | Field(path: string, cond: Cond)
    | And(children: seq<Node>)
    | Or(children: seq<Node>)

  /** An audience document flattened to its dotted field paths
      (`"location.city"`, `"attributes.plan"`). */
  type Record = map<string, Value>

  /** Reading an absent field yields `undefined`. */
  function Get(rec: Record, path: string): Value {
    if path in rec then rec[path] else Undefined
  }

  /** Ordering is modelled on numbers only; values of other types never
      compare. */
  predicate Below(a: Value, b: Value) {
    a.Num? && b.Num? && a.n < b.n
  }

  predicate AtMost(a: Value, b: Value) {
    a.Num? && b.Num? && a.n <= b.n
  }

  /** Whether the field value `x` (present or not) satisfies `c`; `rx` decides
      regular-expression matches. */
  predicate CondHolds(c: Cond, present: bool, x: Value, rx: (Pattern, Value) -> bool) {
    match c
    case Eq(v) => x == v
    case Ne(v) => x != v
    case Regex(p, _) => present && rx(p, x)
    case Gt(v) => Below(v, x)
    case Gte(v) => AtMost(v, x)
    case Lt(v) => Below(x, v)
    case Lte(v) => AtMost(x, v)
    case Range(lo, hi) => AtMost(lo, x) && AtMost(x, hi)
    case AnyOf(v) => v.Arr? && x in v.items
    case NoneOf(v) => !(v.Arr? && x in v.items)
    case Exists(b) => present == b
  }

  /** Whether record `rec` is selected by query `q`. */
  predicate Matches(q: Node, rec: Record, rx: (Pattern, Value) -> bool)
    decreases q
  {
    match q
    case Field(p, c) => CondHolds(c, p in rec, Get(rec, p), rx)
    case And(qs) => forall i :: 0 <= i < |qs| ==> Matches(qs[i], rec, rx)
    case Or(qs) => exists i :: 0 <= i < |qs| && Matches(qs[i], rec, rx)
  }

  /** Operands the store refuses: `$in`/`$nin` need an array and a raw
      `$regex` needs a string. */
  predicate CondExecutable(c: Cond) {
    match c
    case AnyOf(v) => v.Arr?
    case NoneOf(v) => v.Arr?
    case Regex(Raw(v), _) => v.Str?
    case _ => true
  }

  /** Queries the store accepts: MongoDB refuses `$and` and `$or` with an
      empty array. */
  predicate Executable(q: Node)
    decreases q
  {
    match q
    case Field(_, c) => CondExecutable(c)
    case And(qs) => |qs| > 0 && forall i :: 0 <= i < |qs| ==> Executable(qs[i])
    case Or(qs) => |qs| > 0 && forall i :: 0 <= i < |qs| ==> Executable(qs[i])
  }
}

=== FILE: scenario.dfy ===
/** One campaign taken through the whole pipeline on a small audience, and a
    criteria block that the admin endpoint accepts but no filter can use. */
module Scenario {
  import opened Wrappers
  import opened Values
  import opened Query
  import opened CampaignModel
  import opened StoreModel
  import AudienceQuery
  import OperatorMap
  import CriteriaBlocks
  import Snapshot
  import Enqueue
  import Templates
  import CampaignController
  import Text

  /** `age > 30`, a single group. */
  const Over30: AudienceQuery.Filter :=
    AudienceQuery.Filter([AudienceQuery.Group("AND", [AudienceQuery.Criterion("age", "greaterThan", Num(30))])], "AND")

  const People: seq<Record> := [
    map["email" := Str("ann@x.io"), "age" := Num(25)],
    map["email" := Str("bob@x.io"), "age" := Num(35)],
    map["email" := Str("cat@x.io"), "age" := Num(45)]
  ]

  const Spring: Campaign :=
    Campaign("Spring", CriteriaBased, Some("f1"), Some("t1"), Draft, false, false,
             Some(Schedule(Some(Once), None, Some(5000), None)), 0, 0, 0, 0, None)

  const Welcome: Templates.Template :=
    Templates.Template("Welcome", "Hello", "Email", "News", [], "", Str("body"), false, false, 1, 0, 0, 0)

  const Initial: Store :=
    Store(map["c1" := Spring], [], map["f1" := Over30], map["t1" := Welcome], People, [])

  const NoChanges: CampaignFields := CampaignFields(None, None, None, None, None, None, None, None)

  const AgeOver30: Node := And([Field("age", Gt(Num(30)))])

  /** The filter compiles to one `$gt` node wrapped in the group's `$and`. */
  lemma Over30Compiles()
    ensures AudienceQuery.Compile(Over30) == Ok(AgeOver30)
  {
    var c := AudienceQuery.Criterion("age", "greaterThan", Num(30));
    var g := AudienceQuery.Group("AND", [c]);
    assert OperatorMap.Lookup("greaterThan") == Some(OperatorMap.GreaterThan);
    assert AudienceQuery.CompileCriterion(c) == Ok(Field("age", Gt(Num(30))));
    assert [c][1..] == [] && [c][0] == c;
    var cr := AudienceQuery.CompileCriteria([c]);
    assert cr.Ok? && |cr.value| == 1 && cr.value[0] == Field("age", Gt(Num(30)));
    assert cr.value == [Field("age", Gt(Num(30)))];
    assert AudienceQuery.CompileGroup(g) == Ok(AgeOver30);
    assert [g][1..] == [] && [g][0] == g;
    var gr := AudienceQuery.CompileGroups([g]);
    assert gr.Ok? && |gr.value| == 1 && gr.value[0] == AgeOver30;
    assert gr.value == [AgeOver30];
  }

  /** The query selects the two people over thirty, in store order. */
  lemma Over30Selects(rx: (Pattern, Value) -> bool)
    ensures Snapshot.Matched(People, AgeOver30, rx) == People[1..]
  {
    assert Get(People[0], "age") == Num(25);
    assert Get(People[1], "age") == Num(35);
    assert Get(People[2], "age") == Num(45);
    var gt := Field("age", Gt(Num(30)));
    assert AgeOver30.children == [gt];
    assert !Matches(AgeOver30, People[0], rx) by {
      assert !Matches(AgeOver30.children[0], People[0], rx);
    }
    assert Matches(AgeOver30, People[1], rx) by {
      assert Matches(Field("age", Gt(Num(30))), People[1], rx);
    }
    assert Matches(AgeOver30, People[2], rx) by {
      assert Matches(Field("age", Gt(Num(30))), People[2], rx);
    }
    assert People[1..] == [People[1], People[2]];
    assert People[1..][1..] == [People[2]];
    assert People[1..][1..][1..] == [];
    assert Snapshot.Matched([People[2]], AgeOver30, rx) == [People[2]];
    assert Snapshot.Matched(People[1..], AgeOver30, rx) == [People[1], People[2]];
  }

  /** Inserting the two selected people into an empty collection stores both. */
  lemma SpringInsert()
    ensures var docs := [Snapshot.Doc("c1", Str("bob@x.io")), Snapshot.Doc("c1", Str("cat@x.io"))];
            Snapshot.InsertUnordered([], docs)
              == Snapshot.InsertReport([NewRecipient("c1", "bob@x.io"), NewRecipient("c1", "cat@x.io")], 2, 0)
  {
    var docs := [Snapshot.Doc("c1", Str("bob@x.io")), Snapshot.Doc("c1", Str("cat@x.io"))];
    var bob := NewRecipient("c1", "bob@x.io");
    var cat := NewRecipient("c1", "cat@x.io");
    assert docs[1..] == [Snapshot.Doc("c1", Str("cat@x.io"))];
    assert docs[1..][1..] == [];
    assert !HasKey([], Key(bob));
    assert !HasKey([bob], Key(cat)) by {
      assert Key(bob) != Key(cat);
    }
    assert Snapshot.InsertUnordered([bob, cat], docs[1..][1..]) == Snapshot.InsertReport([bob, cat], 0, 0);
    assert Snapshot.InsertUnordered([bob], docs[1..]) == Snapshot.InsertReport([bob, cat], 1, 0);
  }

  /** The snapshot step of scheduling Spring. */
  lemma SpringSnapshot(s: Store, rx: (Pattern, Value) -> bool)
    requires s.audience == People && s.recipients == []
    ensures Snapshot.SnapshotAudience(s, "c1", Over30, rx)
              == Step(s.(recipients := [NewRecipient("c1", "bob@x.io"), NewRecipient("c1", "cat@x.io")]), Ok(2))
  {
    assert Executable(AgeOver30) by {
      assert AgeOver30.children[0] == Field("age", Gt(Num(30)));
    }
    Over30Compiles();
    Over30Selects(rx);
    SpringDocs();
    SpringInsert();
  }

  /** The documents built from the two selected people. */
  lemma SpringDocs()
    ensures Snapshot.DocsFor("c1", People[1..])
              == [Snapshot.Doc("c1", Str("bob@x.io")), Snapshot.Doc("c1", Str("cat@x.io"))]
  {
    var docs := Snapshot.DocsFor("c1", People[1..]);
    assert Get(People[1], "email") == Str("bob@x.io");
    assert Get(People[2], "email") == Str("cat@x.io");
    assert |docs| == 2 && docs[0] == Snapshot.Doc("c1", Str("bob@x.io")) && docs[1] == Snapshot.Doc("c1", Str("cat@x.io"));
  }

  const Snapped: Store := Initial.(recipients := [NewRecipient("c1", "bob@x.io"), NewRecipient("c1", "cat@x.io")])

  /** Scheduling the campaign snapshots the two matching people as PENDING
      recipients and marks the campaign Scheduled with both flags set, yet no
      job is queued. */
  lemma SchedulingSpring(rx: (Pattern, Value) -> bool, render: Value -> string)
    ensures var r := CampaignController.CreateOrUpdateCampaign(Initial, Some("c1"), "c2", "Scheduled",
                                                               NoChanges, 1000, rx, render);
            && r.reply.code == 200
            && r.store.recipients == Snapped.recipients
            && r.store.campaigns["c1"] == Spring.(status := Scheduled, executionEnqueued := true,
                                                  audienceSnapshotted := true)
            && r.store.jobs == []
  {
    assert ApplyUpdate(Spring, NoChanges) == Spring;
    assert Initial.(campaigns := Initial.campaigns["c1" := Spring]) == Initial;
    SpringScheduleStep(rx, render);
  }

  const ScheduledSpring: Campaign :=
    Spring.(status := Scheduled, executionEnqueued := true, audienceSnapshotted := true)

  /** The scheduling half on the stored campaign, step by step. */
  lemma SpringScheduleStep(rx: (Pattern, Value) -> bool, render: Value -> string)
    ensures var r := CampaignController.Schedule(Initial, "c1", Spring, "Scheduled", 1000, rx, render);
            r.reply.code == 200 && r.store.recipients == Snapped.recipients
  {
    assert Initial.(recipients := DeleteRecipientsOf(Initial.recipients, "c1")) == Initial by {
      assert DeleteRecipientsOf([], "c1") == [];
    }
    assert Initial.filters["f1"] == Over30;
    SpringSnapshot(Initial, rx);
    SpringSaved(render);
  }

  /** The named, unclaimed Spring campaign is enqueued and saved. */
  lemma SpringSaved(render: Value -> string)
    ensures var r := CampaignController.EnqueueAndSave(Snapped, "c1", Spring, 1000, render);
            r.reply.code == 200 && r.store.recipients == Snapped.recipients
  {
    assert "c1" in Snapped.campaigns && !Snapped.campaigns["c1"].executionEnqueued;
    assert Spring.name != "";
  }

  /** The intended enqueue on the same snapshot queues one job per person,
      keyed by campaign and email and delayed until the start. */
  lemma SpringIntendedJobs(render: Value -> string)
    ensures var e := Enqueue.EnqueueIntended(Snapped, "c1", 1000, render);
            && e.result.Ok?
            && |e.store.jobs| == 2
            && e.store.jobs[0].idempotencyKey == Some("c1:bob@x.io")
            && e.store.jobs[1].idempotencyKey == Some("c1:cat@x.io")
            && e.store.jobs[0].delay == 4000 && e.store.jobs[1].delay == 4000
  {
    var claim := Enqueue.Claim(Snapped, "c1");
    SpringJobsBuilt(render);
    var jobs := Enqueue.BuildJobs(claim.store, "c1", claim.result.value, 1000, render);
    var e := Enqueue.EnqueueIntended(Snapped, "c1", 1000, render);
    assert e.store.jobs == [] + jobs.value;
  }

  /** The jobs the tail builds after claiming the snapped campaign. */
  lemma SpringJobsBuilt(render: Value -> string)
    ensures var claim := Enqueue.Claim(Snapped, "c1");
            && claim.result.Ok?
            && var jobs := Enqueue.BuildJobs(claim.store, "c1", claim.result.value, 1000, render);
               && jobs.Ok? && |jobs.value| == 2
               && jobs.value[0].idempotencyKey == Some("c1:bob@x.io")
               && jobs.value[1].idempotencyKey == Some("c1:cat@x.io")
               && jobs.value[0].delay == 4000 && jobs.value[1].delay == 4000
  {
    var bob := NewRecipient("c1", "bob@x.io");
    var cat := NewRecipient("c1", "cat@x.io");
    var claim := Enqueue.Claim(Snapped, "c1");
    assert claim.store.recipients == [bob, cat];
    assert [bob, cat][1..] == [cat] && [cat][1..] == [];
    assert Enqueue.PendingOf([bob, cat], "c1") == [bob, cat];
    assert Enqueue.IdempotencyKey("c1", "bob@x.io") == "c1:bob@x.io";
    assert Enqueue.IdempotencyKey("c1", "cat@x.io") == "c1:cat@x.io";
  }

  /** The admin endpoint accepts a string block offering `not equals`. */
  lemma NotEqualsBlockAccepted()
    ensures var req := CriteriaBlocks.CreateRequest("name-ne", "Name is not", "string", "filterComponent",
                                                    Arr([Str("not equals")]));
            CriteriaBlocks.CreateCriteriaBlock(map[], req).result.Ok?
  {
    NotEqualsRequestPasses();
  }

  /** Every check of the create request with `not equals` passes. */
  lemma NotEqualsRequestPasses()
    ensures CriteriaBlocks.Passes(map[], CriteriaBlocks.CreateRequest("name-ne", "Name is not", "string",
                                                                      "filterComponent", Arr([Str("not equals")])))
  {
    var req := CriteriaBlocks.CreateRequest("name-ne", "Name is not", "string", "filterComponent",
                                            Arr([Str("not equals")]));
    NameIsNotTrimmed();
    assert CriteriaBlocks.ParseType("string") == Some(CriteriaBlocks.StringType);
    assert CriteriaBlocks.ParseCategory("filterComponent") == Some(CriteriaBlocks.FilterComponent);
    assert CriteriaBlocks.InvalidOperators(CriteriaBlocks.StringType, req.operators.items) == [] by {
      assert "not equals" in CriteriaBlocks.AllowedOperators(CriteriaBlocks.StringType);
    }
    assert !CriteriaBlocks.LabelTaken(map[], req.labelText, req.category);
  }

  lemma NameIsNotTrimmed()
    ensures Text.Trim("Name is not") == "Name is not"
  {
    var l := "Name is not";
    assert l[0] == 'N' && l[|l| - 1] == 't';
    Text.TrimOfTrimmed(l);
  }

  /** Yet a filter using the block's operator never compiles: the whitelist
      and the operator table spell it differently. */
  lemma NotEqualsFilterFails()
    ensures var f := AudienceQuery.Filter(
                       [AudienceQuery.Group("AND", [AudienceQuery.Criterion("name", "not equals", Str("Ann"))])], "AND");
            AudienceQuery.Compile(f) == Err(OperatorMap.UnsupportedOperator("not equals"))
  {
    var c := AudienceQuery.Criterion("name", "not equals", Str("Ann"));
    var g := AudienceQuery.Group("AND", [c]);
    assert OperatorMap.Lookup("not equals").None?;
    assert AudienceQuery.CompileCriterion(c) == Err(OperatorMap.UnsupportedOperator("not equals"));
    assert [c][0] == c && [g][0] == g;
    assert AudienceQuery.CompileCriteria([c]) == Err(OperatorMap.UnsupportedOperator("not equals"));
    assert AudienceQuery.CompileGroup(g) == Err(OperatorMap.UnsupportedOperator("not equals"));
  }
}

=== FILE: send_worker.dfy ===
/** The `send-email` worker: a per-sender rate limit kept as a Redis counter
    that lives one second, a dedupe key per idempotency key that lives one
    hour, then one delivery attempt. Redis is a map from key to an integer
    value with an optional expiry instant (milliseconds); the transport's
    answer for the attempt is a parameter. */
module SendWorker {
  import opened Wrappers
  import opened StoreModel

  /** A Redis value: an integer and, when a TTL is set, the instant it ends. */
  datatype Entry = Entry(value: int, expiresAt: Option<int>)

  type Kv = map<string, Entry>

  /** A key exists for Redis at `now` when it is stored and its TTL, if any,
      has not run out: Redis counts a key as expired only once the clock is
      strictly past its expiry instant. */
  predicate Live(kv: Kv, k: string, now: int) {
    k in kv && (kv[k].expiresAt.None? || now <= kv[k].expiresAt.value)
  }

  /** The counter as `INCR` reads it: a missing or expired key counts 0. */
  function Count(kv: Kv, k: string, now: int): int {
    if Live(kv, k, now) then kv[k].value else 0
  }

  /** Only key `k` may differ between `a` and `b`. */
  ghost predicate OnlyKeyChanged(a: Kv, b: Kv, k: string) {
    forall j :: j != k ==> (j in a <==> j in b) && (j in a ==> a[j] == b[j])
  }

  /** `INCR k`: the counter goes up by one and its TTL is kept; a missing or
      expired key restarts from 1 without a TTL. */
  function Incr(kv: Kv, k: string, now: int): (r: (Kv, int))
    ensures r.1 == Count(kv, k, now) + 1
    ensures Live(r.0, k, now) && Count(r.0, k, now) == r.1
    ensures Live(kv, k, now) ==> r.0[k].expiresAt == kv[k].expiresAt
    ensures !Live(kv, k, now) ==> r.0[k].expiresAt.None?
    ensures OnlyKeyChanged(kv, r.0, k)
  {
    var n := Count(kv, k, now) + 1;
    var ttl := if Live(kv, k, now) then kv[k].expiresAt else None;
    (kv[k := Entry(n, ttl)], n)
  }

  /** `EXPIRE k seconds`: a live key gets a TTL ending `seconds` from now; a
      missing key is left alone. */
  function Expire(kv: Kv, k: string, now: int, seconds: int): (r: Kv)
    ensures Live(kv, k, now) ==> k in r && r[k] == kv[k].(expiresAt := Some(now + seconds * 1000))
    ensures !Live(kv, k, now) ==> r == kv
    ensures OnlyKeyChanged(kv, r, k)
  {
    if Live(kv, k, now) then kv[k := kv[k].(expiresAt := Some(now + seconds * 1000))] else kv
  }

  /** `SETNX k 1`: set without a TTL and answer true exactly when the key did
      not exist. */
  function SetNx(kv: Kv, k: string, now: int): (r: (Kv, bool))
    ensures r.1 <==> !Live(kv, k, now)
    ensures Live(r.0, k, now)
    ensures r.1 ==> r.0[k] == Entry(1, None)
    ensures !r.1 ==> r.0 == kv
    ensures OnlyKeyChanged(kv, r.0, k)
  {
    if Live(kv, k, now) then (kv, false) else (kv[k := Entry(1, None)], true)
  }

  function TokenKey(sender: string): string {
    "token:" + sender
  }

  function DedupeKey(idempotencyKey: string): string {
    "dedupe:" + idempotencyKey
  }

  /** A token key and a dedupe key never collide: they differ in their first
      character. */
  lemma TokenNotDedupe(sender: string, k: string)
    ensures TokenKey(sender) != DedupeKey(k)
  {
    assert TokenKey(sender)[0] == 't' && DedupeKey(k)[0] == 'd';
  }

  /** `p.from || 'default@local'`. */
  function SenderOf(from: Option<string>): (sender: string)
    ensures from.Some? && from.value != "" ==> sender == from.value
    ensures from.None? || from.value == "" ==> sender == "default@local"
  {
    if from.Some? && from.value != "" then from.value else "default@local"
  }

  /** `Number(process.env.SENDER_RPS || 5)`, with the environment value given
      already parsed when it is set and not empty. */
  function Cap(rps: Option<int>): (cap: int)
    ensures rps.Some? ==> cap == rps.value
    ensures rps.None? ==> cap == 5
  {
    if rps.Some? then rps.value else 5
  }

  /** `acquireToken(sender, max)`: count this send in the sender's current
      one-second window, opening a window when the count starts at 1, and
      allow it while the count stays within `max`. */
  function AcquireToken(kv: Kv, sender: string, max: int, now: int): (r: (Kv, bool))
    ensures r.1 <==> Count(kv, TokenKey(sender), now) + 1 <= max
    ensures Count(r.0, TokenKey(sender), now) == Count(kv, TokenKey(sender), now) + 1
    ensures TokenKey(sender) in r.0
    ensures Count(kv, TokenKey(sender), now) == 0 ==>
              r.0[TokenKey(sender)] == Entry(1, Some(now + 1000))
    ensures Count(kv, TokenKey(sender), now) != 0 ==>
              r.0[TokenKey(sender)] == kv[TokenKey(sender)].(value := kv[TokenKey(sender)].value + 1)
    ensures OnlyKeyChanged(kv, r.0, TokenKey(sender))
  {
    var key := TokenKey(sender);
    var (kv1, current) := Incr(kv, key, now);
    var kv2 := if current == 1 then Expire(kv1, key, now, 1) else kv1;
    (kv2, current <= max)
  }

  function Min(a: int, b: int): int { if a <= b then a else b }

  function Max(a: int, b: int): int { if a <= b then b else a }

  /** Acquisitions for one sender at the given instants, in order: the store
      afterwards and how many were allowed. */
  function Burst(kv: Kv, sender: string, max: int, times: seq<int>): (r: (Kv, nat))
    ensures r.1 <= |times|
  {
    if |times| == 0 then (kv, 0)
    else
      var (kv1, n) := Burst(kv, sender, max, times[..|times| - 1]);
      var (kv2, ok) := AcquireToken(kv1, sender, max, times[|times| - 1]);
      (kv2, n + (if ok then 1 else 0))
  }

  /** Inside one window (every instant within a second of the first, with no
      window open at the first) a sender gets at most `max` sends: exactly
      `min(n, max)` of `n` attempts are allowed, and the counter holds `n`
      with the window ending one second after the first attempt. */
  lemma {:induction false} BurstWithinWindow(kv: Kv, sender: string, max: int, times: seq<int>)
    requires |times| > 0
    requires !Live(kv, TokenKey(sender), times[0])
    requires forall i :: 0 <= i < |times| ==> times[0] <= times[i] <= times[0] + 1000
    ensures var r := Burst(kv, sender, max, times);
            && r.0[TokenKey(sender)] == Entry(|times|, Some(times[0] + 1000))
            && r.1 == Min(|times|, Max(max, 0))
    decreases |times|
  {
    var key := TokenKey(sender);
    var init := times[..|times| - 1];
    if |init| == 0 {
      assert Burst(kv, sender, max, init) == (kv, 0);
    } else {
      assert init[0] == times[0];
      BurstWithinWindow(kv, sender, max, init);
      var prev := Burst(kv, sender, max, init);
      assert Live(prev.0, key, times[|times| - 1]);
    }
  }

  /** Once the window has run out the next attempt opens a new one and is
      allowed whenever `max` is at least 1, however many came before. */
  lemma WindowResets(kv: Kv, sender: string, max: int, now: int)
    requires TokenKey(sender) in kv && kv[TokenKey(sender)].expiresAt.Some?
    requires now > kv[TokenKey(sender)].expiresAt.value
    requires max >= 1
    ensures var r := AcquireToken(kv, sender, max, now);
            r.1 && r.0[TokenKey(sender)] == Entry(1, Some(now + 1000))
  {
  }

  // ---------------------------------------------------------------------
  // The job handler
  // ---------------------------------------------------------------------

  /** The transport's answer to one `sendMail`. */
  datatype Delivery = Delivered(messageId: string) | Failed(reason: string)

  datatype JobOutcome = SentOk(messageId: string) | SkippedDuplicate

  /** Thrown: rate limited (BullMQ retries) or the transport's error. */
  datatype JobError = RateLimited | SendFailed(reason: string)

  datatype Handled = Handled(kv: Kv, result: Result<JobOutcome, JobError>)

  /** The idempotency key when it is truthy. */
  predicate HasDedupe(p: EmailJob) {
    p.idempotencyKey.Some? && p.idempotencyKey.value != ""
  }

  /** The worker's handler as written: take a token, then claim the dedupe
      key (setting its one-hour TTL) before sending, then send once. */
  function HandleJob(kv: Kv, p: EmailJob, rps: Option<int>, now: int, delivery: Delivery): (r: Handled)
    ensures var tk := TokenKey(SenderOf(p.from));
            && (r.result == Err(RateLimited) <==> Count(kv, tk, now) + 1 > Cap(rps))
            && (r.result == Err(RateLimited) ==> r.kv == AcquireToken(kv, SenderOf(p.from), Cap(rps), now).0)
            && (r.result == Ok(SkippedDuplicate) <==>
                  Count(kv, tk, now) + 1 <= Cap(rps) && HasDedupe(p)
                  && Live(kv, DedupeKey(p.idempotencyKey.value), now))
            && (r.result.Ok? && r.result.value.SentOk? <==>
                  && Count(kv, tk, now) + 1 <= Cap(rps)
                  && (HasDedupe(p) ==> !Live(kv, DedupeKey(p.idempotencyKey.value), now))
                  && delivery.Delivered?)
            && (r.result.Ok? && r.result.value.SentOk? ==> r.result.value.messageId == delivery.messageId)
            && (r.result.Err? && r.result.error.SendFailed? ==> delivery == Failed(r.result.error.reason))
            && (!HasDedupe(p) ==> OnlyKeyChanged(kv, r.kv, tk))
            && (HasDedupe(p) ==> forall j :: j != tk && j != DedupeKey(p.idempotencyKey.value) ==>
                                   (j in kv <==> j in r.kv) && (j in kv ==> kv[j] == r.kv[j]))
            && (HasDedupe(p) && r.result != Err(RateLimited) ==> Live(r.kv, DedupeKey(p.idempotencyKey.value), now))
  {
    var sender := SenderOf(p.from);
    var (kv1, allowed) := AcquireToken(kv, sender, Cap(rps), now);
    assert HasDedupe(p) ==> TokenKey(sender) != DedupeKey(p.idempotencyKey.value) by {
      if HasDedupe(p) {
        TokenNotDedupe(sender, p.idempotencyKey.value);
      }
    }
    if !allowed then Handled(kv1, Err(RateLimited))
    else
      var claim := ClaimDedupe(kv1, p, now);
      if claim.1 then Handled(claim.0, Ok(SkippedDuplicate))
      else
        match delivery
        case Delivered(id) => Handled(claim.0, Ok(SentOk(id)))
        case Failed(e) => Handled(claim.0, Err(SendFailed(e)))
  }

  /** The dedupe step: with a truthy key, `SETNX` it and on success give it a
      one-hour TTL; answer whether the job is a duplicate. */
  function ClaimDedupe(kv: Kv, p: EmailJob, now: int): (r: (Kv, bool))
    ensures !HasDedupe(p) ==> r == (kv, false)
    ensures HasDedupe(p) ==> (r.1 <==> Live(kv, DedupeKey(p.idempotencyKey.value), now))
    ensures HasDedupe(p) && r.1 ==> r.0 == kv
    ensures HasDedupe(p) && !r.1 ==>
              r.0 == kv[DedupeKey(p.idempotencyKey.value) := Entry(1, Some(now + 3600000))]
  {
    if !HasDedupe(p) then (kv, false)
    else
      var key := DedupeKey(p.idempotencyKey.value);
      var (kv1, isNew) := SetNx(kv, key, now);
      if isNew then (Expire(kv1, key, now, 3600), false) else (kv1, true)
  }

  /** Once a job has been sent, the same idempotency key is never sent again
      within the hour: the next job with it is skipped or rate limited. */
  lemma SentAtMostOnce(kv: Kv, p1: EmailJob, p2: EmailJob, rps: Option<int>,
                       t1: int, t2: int, d1: Delivery, d2: Delivery)
    requires HasDedupe(p1) && p2.idempotencyKey == p1.idempotencyKey
    requires HandleJob(kv, p1, rps, t1, d1).result.Ok?
    requires HandleJob(kv, p1, rps, t1, d1).result.value.SentOk?
    requires t1 <= t2 <= t1 + 3600000
    ensures var r1 := HandleJob(kv, p1, rps, t1, d1);
            HandleJob(r1.kv, p2, rps, t2, d2).result in {Ok(SkippedDuplicate), Err(RateLimited)}
  {
    var dk := DedupeKey(p1.idempotencyKey.value);
    var sender := SenderOf(p1.from);
    TokenNotDedupe(sender, p1.idempotencyKey.value);
    TokenNotDedupe(SenderOf(p2.from), p1.idempotencyKey.value);
    var kv1 := AcquireToken(kv, sender, Cap(rps), t1).0;
    assert kv1[dk := Entry(1, Some(t1 + 3600000))] == HandleJob(kv, p1, rps, t1, d1).kv;
  }

  /** As written, a send that fails leaves the dedupe key behind, so the
      retry BullMQ makes of the same job is skipped as a duplicate and the
      email is never sent: here a first attempt that fails and a retry one
      second later that the transport would have delivered. */
  lemma RetryAfterFailureIsSkipped()
    ensures var p := EmailJob("c1", CampaignModel.RecipientKey("c1", "a@x.io"), None, "a@x.io",
                              "Hi", "<p>", Some("c1:a@x.io"), 0);
            var first := HandleJob(map[], p, None, 0, Failed("timeout"));
            && first.result == Err(SendFailed("timeout"))
            && HandleJob(first.kv, p, None, 1000, Delivered("m1")).result == Ok(SkippedDuplicate)
  {
    var p := EmailJob("c1", CampaignModel.RecipientKey("c1", "a@x.io"), None, "a@x.io",
                      "Hi", "<p>", Some("c1:a@x.io"), 0);
    TokenNotDedupe("default@local", "c1:a@x.io");
    var first := HandleJob(map[], p, None, 0, Failed("timeout"));
    assert Live(first.kv, DedupeKey("c1:a@x.io"), 1000);
  }

  /** The handler as the dedupe step evidently intends it: the dedupe key
      marks a send that happened, so a failed send releases it again. */
  function HandleJobIntended(kv: Kv, p: EmailJob, rps: Option<int>, now: int, delivery: Delivery): (r: Handled)
    ensures delivery.Delivered? ==> r == HandleJob(kv, p, rps, now, delivery)
    ensures r.result == HandleJob(kv, p, rps, now, delivery).result
    ensures r.result.Err? && r.result.error.SendFailed? && HasDedupe(p) ==>
              !Live(r.kv, DedupeKey(p.idempotencyKey.value), now)
    ensures r.result.Err? && r.result.error.SendFailed? ==>
              OnlyKeyChanged(kv, r.kv, TokenKey(SenderOf(p.from)))
  {
    var r := HandleJob(kv, p, rps, now, delivery);
    if r.result.Err? && r.result.error.SendFailed? && HasDedupe(p) then
      var dk := DedupeKey(p.idempotencyKey.value);
      TokenNotDedupe(SenderOf(p.from), p.idempotencyKey.value);
      assert !Live(kv, dk, now);
      Handled(r.kv - {dk} + (if dk in kv then map[dk := kv[dk]] else map[]), r.result)
    else r
  }

  /** With the intended handler the retry of a failed send is delivered. */
  lemma IntendedRetrySends()
    ensures var p := EmailJob("c1", CampaignModel.RecipientKey("c1", "a@x.io"), None, "a@x.io",
                              "Hi", "<p>", Some("c1:a@x.io"), 0);
            var first := HandleJobIntended(map[], p, None, 0, Failed("timeout"));
            && first.result == Err(SendFailed("timeout"))
            && HandleJobIntended(first.kv, p, None, 1000, Delivered("m1")).result == Ok(SentOk("m1"))
  {
    var p := EmailJob("c1", CampaignModel.RecipientKey("c1", "a@x.io"), None, "a@x.io",
                      "Hi", "<p>", Some("c1:a@x.io"), 0);
    var first := HandleJobIntended(map[], p, None, 0, Failed("timeout"));
    assert !Live(first.kv, DedupeKey("c1:a@x.io"), 0);
    assert !Live(first.kv, DedupeKey("c1:a@x.io"), 1000);
    assert first.kv[TokenKey("default@local")] == Entry(1, Some(1000));
  }
}

=== FILE: snapshot.dfy ===
/** `snapshotAudience`: compile the campaign's filter, select the matching
    audience records projected on `email`, and bulk-insert one PENDING
    recipient per record with an unordered insert. */
module Snapshot {
  import opened Wrappers
  import opened Values
  import opened Query
  import opened CampaignModel
  import opened StoreModel
  import AudienceQuery
  import OperatorMap

  /** `Audience.find(query)`: the matching records, in store order. */
  function Matched(audience: seq<Record>, q: Node, rx: (Pattern, Value) -> bool): (ms: seq<Record>)
    ensures |ms| <= |audience|
    ensures forall r :: r in ms <==> r in audience && Matches(q, r, rx)
  {
    if |audience| == 0 then []
    else if Matches(q, audience[0], rx) then [audience[0]] + Matched(audience[1..], q, rx)
    else Matched(audience[1..], q, rx)
  }

  /** The selection keeps store order: selecting from a concatenation is
      concatenating the selections. */
  lemma {:induction false} MatchedAppend(a: seq<Record>, b: seq<Record>, q: Node, rx: (Pattern, Value) -> bool)
    ensures Matched(a + b, q, rx) == Matched(a, q, rx) + Matched(b, q, rx)
    decreases |a|
  {
    if |a| > 0 {
      assert (a + b)[0] == a[0];
      assert (a + b)[1..] == a[1..] + b;
      MatchedAppend(a[1..], b, q, rx);
    } else {
      assert a + b == b;
    }
  }

  /** One `{campaignId, email}` document to insert; `email` is whatever the
      projection yields, `undefined` included. */
  datatype Doc = Doc(campaignId: Id, email: Value)

  function DocsFor(campaignId: Id, ms: seq<Record>): (docs: seq<Doc>)
    ensures |docs| == |ms|
    ensures forall i :: 0 <= i < |ms| ==> docs[i] == Doc(campaignId, Get(ms[i], "email"))
  {
    seq(|ms|, i requires 0 <= i < |ms| => Doc(campaignId, Get(ms[i], "email")))
  }

  /** The schema's `required` validator: a string email, not empty. */
  predicate DocValid(d: Doc) {
    d.email.Str? && d.email.s != ""
  }

  function DocKey(d: Doc): RecipientKey
    requires DocValid(d)
  {
    RecipientKey(d.campaignId, d.email.s)
  }

  function ValidCount(docs: seq<Doc>): (n: nat)
    ensures n <= |docs|
  {
    if |docs| == 0 then 0
    else (if DocValid(docs[0]) then 1 else 0) + ValidCount(docs[1..])
  }

  /** The outcome of an unordered bulk insert: the recipients afterwards,
      how many documents went in and how many hit the unique index. */
  datatype InsertReport = InsertReport(recipients: seq<Recipient>, inserted: nat, conflicts: nat)

  lemma HasKeyExtends(rs: seq<Recipient>, more: seq<Recipient>, k: RecipientKey)
    requires HasKey(rs, k)
    ensures HasKey(rs + more, k)
  {
    var i :| 0 <= i < |rs| && Key(rs[i]) == k;
    assert (rs + more)[i] == rs[i];
  }

  /** Recipient `r` is the one the schema builds from document `d`. */
  predicate MadeFrom(r: Recipient, d: Doc) {
    DocValid(d) && r == NewRecipient(d.campaignId, d.email.s)
  }

  /** Every recipient of `rs` from index `from` on is built from a document
      of `docs`. */
  predicate AllMadeFrom(rs: seq<Recipient>, from: nat, docs: seq<Doc>) {
    forall i :: from <= i < |rs| ==> MadeFromSome(rs[i], docs)
  }

  predicate MadeFromSome(r: Recipient, docs: seq<Doc>) {
    exists d :: d in docs && MadeFrom(r, d)
  }

  lemma NewFromTail(rs: seq<Recipient>, from: nat, docs: seq<Doc>)
    requires |docs| > 0
    requires AllMadeFrom(rs, from, docs[1..])
    ensures AllMadeFrom(rs, from, docs)
  {
    forall i | from <= i < |rs| ensures MadeFromSome(rs[i], docs) {
      assert MadeFromSome(rs[i], docs[1..]);
      var d :| d in docs[1..] && MadeFrom(rs[i], d);
      assert d in docs;
    }
  }

  /** `insertMany(docs, {ordered: false})`: invalid documents are dropped,
      a document whose key is already taken is a conflict, every other one is
      appended as a PENDING recipient; existing recipients are never touched
      and the unique index keeps holding. */
  function InsertUnordered(existing: seq<Recipient>, docs: seq<Doc>): (r: InsertReport)
    requires UniqueKeys(existing)
    ensures UniqueKeys(r.recipients)
    ensures |r.recipients| == |existing| + r.inserted
    ensures r.recipients[..|existing|] == existing
    ensures AllMadeFrom(r.recipients, |existing|, docs)
    ensures forall j :: 0 <= j < |docs| && DocValid(docs[j]) ==> HasKey(r.recipients, DocKey(docs[j]))
    ensures r.inserted + r.conflicts == ValidCount(docs)
    decreases |docs|
  {
    if |docs| == 0 then InsertReport(existing, 0, 0)
    else
      var d := docs[0];
      if !DocValid(d) then
        var r := InsertUnordered(existing, docs[1..]);
        assert forall j :: 1 <= j < |docs| ==> docs[j] == docs[1..][j - 1];
        NewFromTail(r.recipients, |existing|, docs);
        r
      else if HasKey(existing, DocKey(d)) then
        var r := InsertUnordered(existing, docs[1..]);
        assert forall j :: 1 <= j < |docs| ==> docs[j] == docs[1..][j - 1];
        NewFromTail(r.recipients, |existing|, docs);
        assert HasKey(r.recipients, DocKey(d)) by {
          assert r.recipients == existing + r.recipients[|existing|..];
          HasKeyExtends(existing, r.recipients[|existing|..], DocKey(d));
        }
        r.(conflicts := r.conflicts + 1)
      else
        var nr := NewRecipient(d.campaignId, d.email.s);
        var grown := existing + [nr];
        assert UniqueKeys(grown) by {
          forall i | 0 <= i < |existing| ensures Key(existing[i]) != Key(nr) {
          }
        }
        var r := InsertUnordered(grown, docs[1..]);
        assert forall j :: 1 <= j < |docs| ==> docs[j] == docs[1..][j - 1];
        NewFromTail(r.recipients, |grown|, docs);
        assert r.recipients[..|existing|] == grown[..|existing|];
        assert r.recipients[|existing|] == nr by {
          assert r.recipients[|existing|] == r.recipients[..|grown|][|existing|];
        }
        assert MadeFromSome(nr, docs) by {
          assert MadeFrom(nr, docs[0]);
        }
        r.(inserted := r.inserted + 1)
  }

  /** A second insert of documents whose keys are all present already adds
      nothing: every valid document conflicts. */
  lemma {:induction false} InsertAllPresent(existing: seq<Recipient>, docs: seq<Doc>)
    requires UniqueKeys(existing)
    requires forall j :: 0 <= j < |docs| && DocValid(docs[j]) ==> HasKey(existing, DocKey(docs[j]))
    ensures InsertUnordered(existing, docs).recipients == existing
    ensures InsertUnordered(existing, docs).inserted == 0
    decreases |docs|
  {
    if |docs| > 0 {
      assert forall j :: 1 <= j < |docs| ==> docs[j] == docs[1..][j - 1];
      InsertAllPresent(existing, docs[1..]);
    }
  }

  /** After inserting the documents of the matched records, every matched
      record with a usable email has its recipient. */
  lemma MatchedKeysPresent(existing: seq<Recipient>, audience: seq<Record>, campaignId: Id, q: Node,
                           rx: (Pattern, Value) -> bool)
    requires UniqueKeys(existing)
    ensures var ins := InsertUnordered(existing, DocsFor(campaignId, Matched(audience, q, rx)));
            forall rec :: rec in audience && Matches(q, rec, rx) && Get(rec, "email").Str? && Get(rec, "email").s != ""
                          ==> HasKey(ins.recipients, RecipientKey(campaignId, Get(rec, "email").s))
  {
    var ms := Matched(audience, q, rx);
    var docs := DocsFor(campaignId, ms);
    forall rec | rec in audience && Matches(q, rec, rx) && Get(rec, "email").Str? && Get(rec, "email").s != ""
      ensures HasKey(InsertUnordered(existing, docs).recipients, RecipientKey(campaignId, Get(rec, "email").s))
    {
      var j :| 0 <= j < |ms| && ms[j] == rec;
      assert DocValid(docs[j]);
    }
  }

  /** Documents none of whose valid keys is taken in `existing` and no two
      of whose valid documents share a key. */
  predicate FreshKeys(existing: seq<Recipient>, docs: seq<Doc>) {
    && (forall j :: 0 <= j < |docs| && DocValid(docs[j]) ==> !HasKey(existing, DocKey(docs[j])))
    && (forall i, j :: 0 <= i < j < |docs| && DocValid(docs[i]) && DocValid(docs[j])
                       ==> DocKey(docs[i]) != DocKey(docs[j]))
  }

  /** Documents with fresh, distinct keys meet no conflict: every valid one
      is inserted. */
  lemma {:induction false} InsertFreshNoConflicts(existing: seq<Recipient>, docs: seq<Doc>)
    requires UniqueKeys(existing)
    requires FreshKeys(existing, docs)
    ensures InsertUnordered(existing, docs).conflicts == 0
    ensures InsertUnordered(existing, docs).inserted == ValidCount(docs)
    decreases |docs|
  {
    if |docs| > 0 {
      var d := docs[0];
      var tail := docs[1..];
      assert forall j :: 0 <= j < |tail| ==> tail[j] == docs[j + 1];
      if !DocValid(d) {
        InsertFreshNoConflicts(existing, tail);
      } else {
        var nr := NewRecipient(d.campaignId, d.email.s);
        var grown := existing + [nr];
        assert UniqueKeys(grown) by {
          forall i | 0 <= i < |existing| ensures Key(existing[i]) != Key(nr) {
          }
        }
        forall j | 0 <= j < |tail| && DocValid(tail[j]) ensures !HasKey(grown, DocKey(tail[j])) {
          assert DocKey(docs[0]) != DocKey(docs[j + 1]);
        }
        InsertFreshNoConflicts(grown, tail);
      }
    }
  }

  datatype SnapshotError =
    | CompileFailed(cause: OperatorMap.CompileError)
    | QueryRejected
    | DuplicateKey(inserted: nat)

  /** `snapshotAudience(campaignId, filter)`: a filter that does not compile
      throws before the store is read, a query the store refuses throws, no
      match returns 0 without writing, and otherwise the documents are
      inserted; a unique-index conflict throws after the other documents went
      in, and a clean insert returns how many were stored. */
  function SnapshotAudience(s: Store, campaignId: Id, f: AudienceQuery.Filter, rx: (Pattern, Value) -> bool)
    : (r: Step<nat, SnapshotError>)
    requires UniqueKeys(s.recipients)
    ensures r.store.(recipients := s.recipients) == s
    ensures UniqueKeys(r.store.recipients)
    ensures s.recipients <= r.store.recipients
    ensures AudienceQuery.Compile(f).Err? ==>
              r == Step(s, Err(CompileFailed(AudienceQuery.Compile(f).error)))
    ensures AudienceQuery.Compile(f).Ok? && !Executable(AudienceQuery.Compile(f).value) ==>
              r == Step(s, Err(QueryRejected))
    ensures r.result.Ok? ==> |r.store.recipients| == |s.recipients| + r.result.value
    ensures r.result == Ok(0) ==> r.store == s
    ensures (AudienceQuery.Compile(f).Ok? && Executable(AudienceQuery.Compile(f).value)
             && |Matched(s.audience, AudienceQuery.Compile(f).value, rx)| == 0) ==> r == Step(s, Ok(0))
    ensures AudienceQuery.Compile(f).Ok? && Executable(AudienceQuery.Compile(f).value) ==>
              var ins := InsertUnordered(s.recipients, DocsFor(campaignId, Matched(s.audience, AudienceQuery.Compile(f).value, rx)));
              && r.store.recipients == ins.recipients
              && (r.result.Ok? <==> ins.conflicts == 0)
              && (r.result.Ok? ==> r.result.value == ins.inserted)
    ensures AudienceQuery.Compile(f).Ok? && Executable(AudienceQuery.Compile(f).value) ==>
              (r.result.Err? ==> r.result.error.DuplicateKey?)
    ensures AudienceQuery.Compile(f).Ok? && Executable(AudienceQuery.Compile(f).value) ==>
              forall rec :: rec in s.audience && Matches(AudienceQuery.Compile(f).value, rec, rx)
                            && Get(rec, "email").Str? && Get(rec, "email").s != ""
                            ==> HasKey(r.store.recipients, RecipientKey(campaignId, Get(rec, "email").s))
    ensures forall i :: |s.recipients| <= i < |r.store.recipients| ==>
              r.store.recipients[i].campaignId == campaignId && r.store.recipients[i].status == Pending
  {
    match AudienceQuery.Compile(f)
    case Err(e) => Step(s, Err(CompileFailed(e)))
    case Ok(q) =>
      if !Executable(q) then Step(s, Err(QueryRejected))
      else
        var ms := Matched(s.audience, q, rx);
        if |ms| == 0 then Step(s, Ok(0))
        else
          var docs := DocsFor(campaignId, ms);
          var ins := InsertUnordered(s.recipients, docs);
          var s' := s.(recipients := ins.recipients);
          MatchedKeysPresent(s.recipients, s.audience, campaignId, q, rx);
          if ins.conflicts == 0 then Step(s', Ok(ins.inserted))
          else Step(s', Err(DuplicateKey(ins.inserted)))
  }

  /** When no selected email is a recipient of the campaign yet and no two
      selected records share an email, the snapshot stores one recipient per
      selected record with a usable email and returns that number. */
  lemma FreshSnapshotStoresAll(s: Store, campaignId: Id, f: AudienceQuery.Filter, q: Node,
                               rx: (Pattern, Value) -> bool)
    requires UniqueKeys(s.recipients)
    requires AudienceQuery.Compile(f) == Ok(q) && Executable(q)
    requires FreshKeys(s.recipients, DocsFor(campaignId, Matched(s.audience, q, rx)))
    ensures SnapshotAudience(s, campaignId, f, rx).result
              == Ok(ValidCount(DocsFor(campaignId, Matched(s.audience, q, rx))))
  {
    InsertFreshNoConflicts(s.recipients, DocsFor(campaignId, Matched(s.audience, q, rx)));
  }

  /** Snapshotting the same campaign twice in a row stores nothing the second
      time: every key is taken, so the recipients are exactly those of the
      first run. */
  lemma SnapshotTwiceAddsNothing(s: Store, campaignId: Id, f: AudienceQuery.Filter, rx: (Pattern, Value) -> bool)
    requires UniqueKeys(s.recipients)
    ensures var once := SnapshotAudience(s, campaignId, f, rx).store;
            SnapshotAudience(once, campaignId, f, rx).store == once
  {
    var once := SnapshotAudience(s, campaignId, f, rx).store;
    if AudienceQuery.Compile(f).Ok? && Executable(AudienceQuery.Compile(f).value) {
      var q := AudienceQuery.Compile(f).value;
      assert once.audience == s.audience;
      var ms := Matched(once.audience, q, rx);
      var docs := DocsFor(campaignId, ms);
      forall j | 0 <= j < |docs| && DocValid(docs[j])
        ensures HasKey(once.recipients, DocKey(docs[j]))
      {
        assert ms[j] in s.audience;
      }
      if |ms| > 0 {
        InsertAllPresent(once.recipients, docs);
      }
    }
  }
}

=== FILE: store.dfy ===
/** The state the campaign pipeline works on: the collections it reads and
    writes, and the jobs it has put on the email queue. */
module StoreModel {
  import opened Wrappers
  import opened CampaignModel
  import Query
  import AudienceQuery
  import Templates

  /** The payload of a `send-email` job plus its delay in milliseconds.
      `from` is absent on the jobs the pipeline builds. */
  datatype EmailJob = EmailJob(
    campaignId: Id,
    recipientId: RecipientKey,
    from: Option<string>,
    to: string,
    subject: string,
    html: string,
    idempotencyKey: Option<string>,
    delay: int)

  /** Campaigns, recipients (in insertion order), saved audience filters,
      templates, the audience collection, and the queued jobs in order. */
  datatype Store = Store(
    campaigns: map<Id, Campaign>,
    recipients: seq<Recipient>,
    filters: map<Id, AudienceQuery.Filter>,
    templates: Templates.TemplateStore,
    audience: seq<Query.Record>,
    jobs: seq<EmailJob>)

  /** A step of the pipeline: the state it leaves and what it returns or
      throws. */
  datatype Step<T, E> = Step(store: Store, result: Result<T, E>)

  /** `deleteMany({campaignId})`: drops exactly that campaign's recipients and
      keeps the others in order. */
  function DeleteRecipientsOf(rs: seq<Recipient>, campaignId: Id): (out: seq<Recipient>)
    ensures |out| <= |rs|
    ensures forall r :: r in out <==> r in rs && r.campaignId != campaignId
    ensures UniqueKeys(rs) ==> UniqueKeys(out)
  {
    if |rs| == 0 then []
    else
      var rest := DeleteRecipientsOf(rs[1..], campaignId);
      if rs[0].campaignId == campaignId then rest
      else
        var out := [rs[0]] + rest;
        assert UniqueKeys(rs) ==> UniqueKeys(out) by {
          if UniqueKeys(rs) {
            assert UniqueKeys(rs[1..]);
            forall j | 1 <= j < |out| ensures Key(out[0]) != Key(out[j]) {
              assert out[j] in rs[1..];
              var k :| 0 <= k < |rs[1..]| && rs[1..][k] == out[j];
              assert rs[k + 1] == out[j];
            }
          }
        }
        out
  }

  /** The delete keeps the other recipients in their order: deleting from a
      concatenation is concatenating what each part keeps. */
  lemma {:induction false} DeleteRecipientsOfAppend(xs: seq<Recipient>, zs: seq<Recipient>, campaignId: Id)
    ensures DeleteRecipientsOf(xs + zs, campaignId)
            == DeleteRecipientsOf(xs, campaignId) + DeleteRecipientsOf(zs, campaignId)
    decreases |xs|
  {
    if |xs| > 0 {
      assert (xs + zs)[0] == xs[0];
      assert (xs + zs)[1..] == xs[1..] + zs;
      DeleteRecipientsOfAppend(xs[1..], zs, campaignId);
    } else {
      assert xs + zs == zs;
    }
  }
}

=== FILE: templates.dfy ===
/** The template controller's bookkeeping: creation with its checks and
    defaults, the test-email list, the truthy-merge update with its version
    counter, duplication and the favourite toggle. The template schema itself
    is not part of this model; the record below holds the fields the
    controller reads and writes. */
module Templates {
  import opened Wrappers
  import opened Values
  import Text

  /** A stored template. `version` 0 stands for a document without a version,
      which `version || 1` treats like 1. Dates are milliseconds. */
  datatype Template = Template(
    name: string,
    subject: string,
    templateType: string,
    category: string,
    tags: seq<string>,
    layout: string,
    content: Value,
    favorite: bool,
    includeOptOutText: bool,
    version: int,
    createdAt: int,
    lastModified: int,
    lastUsed: int)

  /** Templates by document id. */
  type TemplateStore = map<string, Template>

  datatype TemplateError = NameExists | MissingRequired | TemplateNotFound

  function StatusCode(e: TemplateError): int {
    if e == TemplateNotFound then 404 else 400
  }

  /** What a template request leaves behind and answers. */
  datatype TemplateOutcome = TemplateOutcome(store: TemplateStore, result: Result<Template, TemplateError>)

  // ---------------------------------------------------------------------
  // createTemplate
  // ---------------------------------------------------------------------

  /** The body of a create request. Absent strings are `""`, which the checks
      treat as absent; `name` is kept optional because the duplicate lookup
      runs on it before anything checks it is there. */
  datatype TemplateBody = TemplateBody(
    name: Option<string>,
    subject: string,
    templateType: string,
    category: string,
    tags: seq<string>,
    layout: string,
    content: Value,
    favorite: Option<bool>,
    includeOptOutText: Option<bool>,
    testEmails: string)

  predicate NameTaken(store: TemplateStore, name: string) {
    exists id :: id in store && store[id].name == name
  }

  /** `Template.findOne({ name })` finds a document: a given name finds a
      template of that name, and an absent name leaves the filter empty, so
      any stored template is found. */
  predicate NameLookupHits(store: TemplateStore, name: Option<string>) {
    if name.Some? then NameTaken(store, name.value) else store != map[]
  }

  predicate RequiredPresent(b: TemplateBody) {
    b.name.Some? && b.name.value != "" && b.templateType != "" && b.category != "" && Truthy(b.content)
  }

  /** `createTemplate`: the name lookup answers first, then the required
      fields; on success the template is stored under a fresh id with both
      flags defaulting to false and all three dates set to now. */
  function CreateTemplate(store: TemplateStore, newId: string, b: TemplateBody, now: int): (o: TemplateOutcome)
    requires newId !in store
    ensures o.result == Err(NameExists) <==> NameLookupHits(store, b.name)
    ensures o.result == Err(MissingRequired) <==> !NameLookupHits(store, b.name) && !RequiredPresent(b)
    ensures b.name.None? && store != map[] ==> o.result == Err(NameExists)
    ensures o.result.Err? ==> o.store == store
    ensures o.result.Ok? ==>
              var t := o.result.value;
              && o.store == store[newId := t]
              && Some(t.name) == b.name && t.templateType == b.templateType
              && t.category == b.category && t.content == b.content && t.subject == b.subject
              && t.tags == b.tags && t.layout == b.layout
              && t.favorite == (b.favorite == Some(true))
              && t.includeOptOutText == (b.includeOptOutText == Some(true))
              && t.createdAt == now && t.lastModified == now && t.lastUsed == now
              && !NameTaken(store, t.name)
  {
    if NameLookupHits(store, b.name) then TemplateOutcome(store, Err(NameExists))
    else if !RequiredPresent(b) then TemplateOutcome(store, Err(MissingRequired))
    else
      var t := Template(b.name.value, b.subject, b.templateType, b.category, b.tags, b.layout,
                        b.content, b.favorite == Some(true), b.includeOptOutText == Some(true),
                        0, now, now, now);
      TemplateOutcome(store[newId := t], Ok(t))
  }

  /** No two templates share a name. */
  predicate NamesUnique(store: TemplateStore) {
    forall a, b :: a in store && b in store && a != b ==> store[a].name != store[b].name
  }

  /** Creation alone keeps names unique: a taken name is refused. */
  lemma CreateKeepsNamesUnique(store: TemplateStore, newId: string, b: TemplateBody, now: int)
    requires newId !in store
    requires NamesUnique(store)
    ensures NamesUnique(CreateTemplate(store, newId, b, now).store)
  {
    var o := CreateTemplate(store, newId, b, now);
    if o.result.Ok? {
      forall x, y | x in o.store && y in o.store && x != y
        ensures o.store[x].name != o.store[y].name
      {
        if x == newId {
          assert store[y].name != o.result.value.name;
        } else if y == newId {
          assert store[x].name != o.result.value.name;
        }
      }
    }
  }

  /** The duplicate-name check wins over the required-field check: a body
      whose name is taken is refused as a duplicate even when it lacks every
      other required field. */
  lemma NameCheckFirst(store: TemplateStore, newId: string, b: TemplateBody, now: int)
    requires newId !in store
    requires b.name.Some? && NameTaken(store, b.name.value)
    requires b.templateType == "" && b.category == "" && !Truthy(b.content)
    ensures CreateTemplate(store, newId, b, now).result == Err(NameExists)
  {
  }

  /** The addresses a test email goes to: only for `Email` templates with a
      non-empty list, the comma-separated entries trimmed, empty ones dropped. */
  function TestEmailRecipients(templateType: string, testEmails: string): (to: seq<string>)
    ensures templateType != "Email" || testEmails == "" ==> to == []
    ensures forall e :: e in to ==> e != "" && ',' !in e && Text.Trimmed(e)
  {
    if templateType == "Email" && testEmails != "" then Text.CleanList(testEmails) else []
  }

  /** A list of clean addresses sent as one comma-separated field is read back
      exactly. */
  lemma TestEmailsRoundTrip(addresses: seq<string>)
    requires |addresses| >= 1
    requires forall i :: 0 <= i < |addresses| ==>
               addresses[i] != "" && ',' !in addresses[i] && Text.Trimmed(addresses[i])
    ensures TestEmailRecipients("Email", Text.Join(addresses, ',')) == addresses
  {
    Text.CleanListRoundTrip(addresses);
  }

  // ---------------------------------------------------------------------
  // updateTemplate
  // ---------------------------------------------------------------------

  /** The body of an update request: `""` and a falsy `content` are absent for
      the truthy merge; `None` is `undefined`. */
  datatype TemplatePatch = TemplatePatch(
    name: string,
    subject: string,
    content: Value,
    templateType: string,
    category: string,
    tags: Option<seq<string>>,
    layout: string,
    favorite: Option<bool>,
    includeOptOutText: Option<bool>)

  const EmptyPatch := TemplatePatch("", "", Undefined, "", "", None, "", None, None)

  function PickString(given: string, current: string): string {
    if given != "" then given else current
  }

  /** The field assignments of `updateTemplate`: a string, the content and
      the tags are replaced when the new value is truthy, `favorite` and
      `includeOptOutText` when they are defined. */
  function Merge(t: Template, p: TemplatePatch): (m: Template)
    ensures m.name == (if p.name != "" then p.name else t.name)
    ensures m.content == (if Truthy(p.content) then p.content else t.content)
    ensures m.tags == (if p.tags.Some? then p.tags.value else t.tags)
    ensures m.favorite == (if p.favorite.Some? then p.favorite.value else t.favorite)
    ensures m.subject == (if p.subject != "" then p.subject else t.subject)
    ensures m.templateType == (if p.templateType != "" then p.templateType else t.templateType)
    ensures m.category == (if p.category != "" then p.category else t.category)
    ensures m.layout == (if p.layout != "" then p.layout else t.layout)
    ensures m.includeOptOutText == (if p.includeOptOutText.Some? then p.includeOptOutText.value else t.includeOptOutText)
    ensures m.version == t.version && m.createdAt == t.createdAt
    ensures m.lastModified == t.lastModified && m.lastUsed == t.lastUsed
    ensures p == EmptyPatch ==> m == t
  {
    Template(
      PickString(p.name, t.name),
      PickString(p.subject, t.subject),
      PickString(p.templateType, t.templateType),
      PickString(p.category, t.category),
      if p.tags.Some? then p.tags.value else t.tags,
      PickString(p.layout, t.layout),
      if Truthy(p.content) then p.content else t.content,
      if p.favorite.Some? then p.favorite.value else t.favorite,
      if p.includeOptOutText.Some? then p.includeOptOutText.value else t.includeOptOutText,
      t.version, t.createdAt, t.lastModified, t.lastUsed)
  }

  function StrList(xs: seq<string>): (v: Value)
    ensures v.Arr? && |v.items| == |xs|
  {
    Arr(seq(|xs|, i requires 0 <= i < |xs| => Str(xs[i])))
  }

  /** The `previousVersion` object: nine fields of the template as it was. */
  function SnapshotOf(t: Template): (v: Value)
    ensures v.Obj? && "_id" !in Keys(v.fields)
  {
    Obj([("name", Str(t.name)), ("subject", Str(t.subject)), ("content", t.content),
         ("type", Str(t.templateType)), ("category", Str(t.category)), ("tags", StrList(t.tags)),
         ("layout", Str(t.layout)), ("favorite", Bool(t.favorite)), ("lastModified", Num(t.lastModified))])
  }

  /** `template.toObject()`: the whole document, its `_id` first. */
  function DocumentOf(id: string, t: Template): (v: Value)
    ensures v.Obj? && "_id" in Keys(v.fields)
  {
    Obj([("_id", Str(id)), ("name", Str(t.name)), ("subject", Str(t.subject)),
         ("type", Str(t.templateType)), ("category", Str(t.category)), ("tags", StrList(t.tags)),
         ("layout", Str(t.layout)), ("content", t.content), ("favorite", Bool(t.favorite)),
         ("includeOptOutText", Bool(t.includeOptOutText)), ("version", Num(t.version)),
         ("createdAt", Num(t.createdAt)), ("lastModified", Num(t.lastModified)),
         ("lastUsed", Num(t.lastUsed))])
  }

  /** `(version || 1) + 1`. */
  function NextVersion(v: int): (n: int)
    ensures v >= 1 ==> n == v + 1
    ensures v == 0 ==> n == 2
  {
    (if v != 0 then v else 1) + 1
  }

  /** `updateTemplate` as written: merge, bump the version when the
      serialised snapshot differs from the serialised document, then stamp
      both dates with now. */
  function UpdateTemplate(id: string, t: Template, p: TemplatePatch, now: int): (u: Template)
    ensures u.lastModified == now && u.lastUsed == now
    ensures u.(version := t.version, lastModified := t.lastModified, lastUsed := t.lastUsed) == Merge(t, p)
  {
    var m := Merge(t, p);
    var v := if SnapshotOf(t) != DocumentOf(id, m) then NextVersion(t.version) else t.version;
    m.(version := v, lastModified := now, lastUsed := now)
  }

  /** The snapshot never equals the document, which carries `_id`: every
      update bumps the version, even one that changes no field. */
  lemma UpdateAlwaysBumpsVersion(id: string, t: Template, p: TemplatePatch, now: int)
    ensures UpdateTemplate(id, t, p, now).version == NextVersion(t.version)
    ensures UpdateTemplate(id, t, EmptyPatch, now).version != t.version
  {
    var m := Merge(t, p);
    assert "_id" in Keys(DocumentOf(id, m).fields);
    assert "_id" !in Keys(SnapshotOf(t).fields);
    var m0 := Merge(t, EmptyPatch);
    assert "_id" in Keys(DocumentOf(id, m0).fields);
  }

  /** The nine snapshotted fields, compared directly. */
  predicate TrackedChanged(t: Template, m: Template) {
    SnapshotOf(t) != SnapshotOf(m)
  }

  /** The update the versioning comment describes: the version moves exactly
      when a snapshotted field changed. */
  function UpdateTemplateIntended(t: Template, p: TemplatePatch, now: int): (u: Template)
    ensures u.lastModified == now && u.lastUsed == now
    ensures u.(version := t.version, lastModified := t.lastModified, lastUsed := t.lastUsed) == Merge(t, p)
  {
    var m := Merge(t, p);
    var v := if TrackedChanged(t, m) then NextVersion(t.version) else t.version;
    m.(version := v, lastModified := now, lastUsed := now)
  }

  /** The corrected update leaves the version alone when no field changes. */
  lemma IntendedEmptyKeepsVersion(t: Template, now: int)
    ensures UpdateTemplateIntended(t, EmptyPatch, now).version == t.version
  {
  }

  /** The corrected update bumps the version when the name changes. */
  lemma IntendedRenameBumps(t: Template, p: TemplatePatch, now: int)
    requires p.name != "" && p.name != t.name
    ensures UpdateTemplateIntended(t, p, now).version == NextVersion(t.version)
  {
    var m := Merge(t, p);
    assert SnapshotOf(m).fields[0] != SnapshotOf(t).fields[0];
  }

  /** Apart from the version, the corrected update agrees with the update as
      written, and its version moves exactly when a tracked field changed. */
  lemma IntendedVersioning(id: string, t: Template, p: TemplatePatch, now: int)
    ensures UpdateTemplateIntended(t, p, now).(version := 0) == UpdateTemplate(id, t, p, now).(version := 0)
    ensures UpdateTemplateIntended(t, p, now).version != t.version <==> TrackedChanged(t, Merge(t, p))
  {
  }

  // ---------------------------------------------------------------------
  // duplicateTemplate and toggleFavoriteTemplate
  // ---------------------------------------------------------------------

  /** The copy `duplicateTemplate` saves under a new id: the name is prefixed
      with `"Copy of "`, the version restarts at 1, the three dates are now,
      and every other field is the original's. */
  function Duplicate(t: Template, now: int): (d: Template)
    ensures |d.name| == 8 + |t.name| && d.name[..8] == "Copy of " && d.name[8..] == t.name
    ensures d.version == 1
    ensures d.createdAt == now && d.lastModified == now && d.lastUsed == now
    ensures d.(name := t.name, version := t.version, createdAt := t.createdAt,
               lastModified := t.lastModified, lastUsed := t.lastUsed) == t
  {
    t.(name := "Copy of " + t.name, version := 1, createdAt := now, lastModified := now, lastUsed := now)
  }

  function DuplicateTemplate(store: TemplateStore, id: string, newId: string, now: int): (o: TemplateOutcome)
    requires newId !in store
    ensures id !in store <==> o.result == Err(TemplateNotFound)
    ensures o.result.Err? ==> o.store == store
    ensures o.result.Ok? ==> o.store == store[newId := o.result.value] && o.result.value == Duplicate(store[id], now)
  {
    if id !in store then TemplateOutcome(store, Err(TemplateNotFound))
    else
      var d := Duplicate(store[id], now);
      TemplateOutcome(store[newId := d], Ok(d))
  }

  /** A copy never carries its original's name. */
  lemma DuplicateRenames(t: Template, now: int)
    ensures Duplicate(t, now).name != t.name
  {
    assert |Duplicate(t, now).name| != |t.name|;
  }

  /** `toggleFavoriteTemplate`: only `favorite` changes, to its negation. */
  function ToggleFavorite(store: TemplateStore, id: string): (o: TemplateOutcome)
    ensures id !in store <==> o.result == Err(TemplateNotFound)
    ensures o.result.Err? ==> o.store == store
    ensures o.result.Ok? ==>
              && o.store == store[id := o.result.value]
              && o.result.value.favorite == !store[id].favorite
              && o.result.value.(favorite := store[id].favorite) == store[id]
  {
    if id !in store then TemplateOutcome(store, Err(TemplateNotFound))
    else
      var t := store[id].(favorite := !store[id].favorite);
      TemplateOutcome(store[id := t], Ok(t))
  }

  /** Toggling twice restores the store. */
  lemma ToggleTwice(store: TemplateStore, id: string)
    ensures ToggleFavorite(ToggleFavorite(store, id).store, id).store == store
  {
    if id in store {
      var once := ToggleFavorite(store, id).store;
      assert once[id].(favorite := !once[id].favorite) == store[id];
    }
  }
}

=== FILE: text.dfy ===
/** The string helpers the controllers rely on: JavaScript's `trim`, a
    single-character `split`, and ASCII lower-casing for case-insensitive
    comparisons. */
module Text {

  /** White space as `String.prototype.trim` removes it: the WhiteSpace and
      LineTerminator code points of ECMAScript. */
  predicate IsSpace(c: char) {
    || c == ' ' || c == '\t' || c == '\n' || c == '\r'
    || c == '\U{000B}' || c == '\U{000C}' || c == '\U{00A0}' || c == '\U{1680}'
    || ('\U{2000}' <= c <= '\U{200A}')
    || c == '\U{2028}' || c == '\U{2029}' || c == '\U{202F}' || c == '\U{205F}'
    || c == '\U{3000}' || c == '\U{FEFF}'
  }

  /** Every character of `s` from index `lo` up to `hi` is white space. */
  predicate SpaceBetween(s: string, lo: int, hi: int)
    requires 0 <= lo <= hi <= |s|
  {
    forall i :: lo <= i < hi ==> IsSpace(s[i])
  }

  /** A string `trim` leaves as it is: empty, or no white space at either end. */
  predicate Trimmed(s: string) {
    s == [] || (!IsSpace(s[0]) && !IsSpace(s[|s| - 1]))
  }

  /** How many characters `trim` drops at the front of `s`: the run of white
      space that starts it. */
  function LeadLength(s: string): (n: nat)
    ensures n <= |s|
    ensures SpaceBetween(s, 0, n)
    ensures n < |s| ==> !IsSpace(s[n])
  {
    if |s| > 0 && IsSpace(s[0]) then
      var n := 1 + LeadLength(s[1..]);
      assert forall i :: 1 <= i < n ==> s[i] == s[1..][i - 1];
      n
    else 0
  }

  /** Where the run of white space that ends `s` starts, never below `lo`. */
  function TrailStart(s: string, lo: nat): (hi: nat)
    requires lo <= |s|
    ensures lo <= hi <= |s|
    ensures SpaceBetween(s, hi, |s|)
    ensures hi > lo ==> !IsSpace(s[hi - 1])
    decreases |s|
  {
    if |s| > lo && IsSpace(s[|s| - 1]) then
      var hi := TrailStart(s[..|s| - 1], lo);
      assert forall i :: hi <= i < |s| - 1 ==> s[i] == s[..|s| - 1][i];
      hi
    else |s|
  }

  /** `String.prototype.trim`: the result is the infix of `s` left once the
      white space at both ends is dropped, and it has none at either end. */
  function Trim(s: string): (r: string)
    ensures LeadLength(s) + |r| <= |s|
    ensures r == s[LeadLength(s)..LeadLength(s) + |r|]
    ensures SpaceBetween(s, 0, LeadLength(s)) && SpaceBetween(s, LeadLength(s) + |r|, |s|)
    ensures Trimmed(r)
  {
    var lo := LeadLength(s);
    s[lo..TrailStart(s, lo)]
  }

  /** A string that is already trimmed is left unchanged by `trim`. */
  lemma TrimOfTrimmed(s: string)
    requires Trimmed(s)
    ensures Trim(s) == s
  {
  }

  /** `trim` drops one trailing blank after a non-empty trimmed string. */
  lemma TrimDropsTrailingSpace(s: string, c: char)
    requires s != "" && Trimmed(s) && IsSpace(c)
    ensures Trim(s + [c]) == s
  {
    var t := s + [c];
    assert t[0] == s[0];
    assert LeadLength(t) == 0;
    assert t[..|t| - 1] == s;
    assert TrailStart(s, 0) == |s|;
    assert TrailStart(t, 0) == |s|;
    assert t[0..|s|] == s;
  }

  /** Joins `parts` with `sep` between neighbours, as `Array.prototype.join`. */
  function Join(parts: seq<string>, sep: char): string {
    if |parts| == 0 then ""
    else if |parts| == 1 then parts[0]
    else parts[0] + [sep] + Join(parts[1..], sep)
  }

  /** `String.prototype.split` with a one-character separator: at least one
      part, no part contains the separator, and joining the parts back with
      the separator gives `s` again. */
  function Split(s: string, sep: char): (parts: seq<string>)
    ensures |parts| >= 1
    ensures forall i :: 0 <= i < |parts| ==> sep !in parts[i]
    ensures Join(parts, sep) == s
    decreases |s|
  {
    if |s| == 0 then [""]
    else
      var rest := Split(s[1..], sep);
      if s[0] == sep then
        assert Join([""] + rest, sep) == [sep] + Join(rest, sep) by {
          assert ([""] + rest)[1..] == rest;
        }
        [""] + rest
      else
        var parts := [[s[0]] + rest[0]] + rest[1..];
        assert sep !in parts[0];
        assert forall i :: 1 <= i < |parts| ==> parts[i] == rest[i];
        assert Join(parts, sep) == [s[0]] + Join(rest, sep) by {
          assert parts[1..] == rest[1..];
        }
        assert [s[0]] + s[1..] == s;
        parts
  }

  /** Splitting a string that starts with a separator-free chunk `x`. */
  lemma {:induction false} SplitPrefix(x: string, t: string, sep: char)
    requires sep !in x
    ensures Split(x + t, sep) == [x + Split(t, sep)[0]] + Split(t, sep)[1..]
    decreases |x|
  {
    if |x| == 0 {
      assert x + t == t;
      var p := Split(t, sep);
      assert x + p[0] == p[0];
      assert [p[0]] + p[1..] == p;
      assert [x + Split(t, sep)[0]] + Split(t, sep)[1..] == Split(t, sep);
    } else {
      assert (x + t)[1..] == x[1..] + t;
      assert (x + t)[0] == x[0];
      SplitPrefix(x[1..], t, sep);
      assert [x[0]] + (x[1..] + Split(t, sep)[0]) == x + Split(t, sep)[0];
    }
  }

  /** Splitting undoes joining, when no part contains the separator. */
  lemma {:induction false} SplitJoin(parts: seq<string>, sep: char)
    requires |parts| >= 1
    requires forall i :: 0 <= i < |parts| ==> sep !in parts[i]
    ensures Split(Join(parts, sep), sep) == parts
    decreases |parts|
  {
    if |parts| == 1 {
      SplitPrefix(parts[0], "", sep);
      assert parts[0] + "" == parts[0];
    } else {
      var tail := parts[1..];
      SplitJoin(tail, sep);
      var t := [sep] + Join(tail, sep);
      assert Join(parts, sep) == parts[0] + t;
      SplitPrefix(parts[0], t, sep);
      assert Split(t, sep) == [""] + tail by {
        assert t[1..] == Join(tail, sep);
      }
      assert parts[0] + "" == parts[0];
      assert [parts[0]] + tail == parts;
    }
  }

  /** `map(s => s.trim())` over a list. */
  function TrimAll(xs: seq<string>): (ys: seq<string>)
    ensures |ys| == |xs|
    ensures forall i :: 0 <= i < |xs| ==> ys[i] == Trim(xs[i])
  {
    if |xs| == 0 then [] else [Trim(xs[0])] + TrimAll(xs[1..])
  }

  /** `filter(Boolean)` over strings: drops the empty ones, keeping order. */
  function DropEmpty(xs: seq<string>): (ys: seq<string>)
    ensures |ys| <= |xs|
    ensures forall y :: y in ys ==> y != "" && y in xs
    ensures forall x :: x in xs && x != "" ==> x in ys
    ensures multiset(ys) == multiset(xs)["" := 0]
    ensures (forall i :: 0 <= i < |xs| ==> xs[i] != "") ==> ys == xs
  {
    if |xs| == 0 then []
    else
      assert xs == [xs[0]] + xs[1..];
      if xs[0] == "" then DropEmpty(xs[1..])
      else [xs[0]] + DropEmpty(xs[1..])
  }

  /** Filtering keeps the order: it distributes over concatenation. */
  lemma {:induction false} DropEmptyAppend(xs: seq<string>, zs: seq<string>)
    ensures DropEmpty(xs + zs) == DropEmpty(xs) + DropEmpty(zs)
    decreases |xs|
  {
    if |xs| > 0 {
      assert (xs + zs)[0] == xs[0];
      assert (xs + zs)[1..] == xs[1..] + zs;
      DropEmptyAppend(xs[1..], zs);
    } else {
      assert xs + zs == zs;
    }
  }

  /** Trimming never introduces a character. */
  lemma TrimKeepsAbsent(p: string, c: char)
    requires c !in p
    ensures c !in Trim(p)
  {
  }

  /** `s.split(",").map(x => x.trim())`: the comma-separated entries, each
      trimmed. */
  function CommaList(s: string): (ys: seq<string>)
    ensures |ys| >= 1
    ensures |ys| == |Split(s, ',')| && forall i :: 0 <= i < |ys| ==> ys[i] == Trim(Split(s, ',')[i])
    ensures forall i :: 0 <= i < |ys| ==> ',' !in ys[i] && Trimmed(ys[i])
  {
    var parts := Split(s, ',');
    var ys := TrimAll(parts);
    assert forall i :: 0 <= i < |ys| ==> ys[i] == Trim(parts[i]);
    assert forall i :: 0 <= i < |ys| ==> Trimmed(ys[i]);
    forall i | 0 <= i < |ys| ensures ',' !in ys[i] {
      TrimKeepsAbsent(parts[i], ',');
    }
    ys
  }

  /** A list of trimmed, comma-free entries written out with `,` reads back
      as the same list. */
  lemma CommaListRoundTrip(xs: seq<string>)
    requires |xs| >= 1
    requires forall i :: 0 <= i < |xs| ==> ',' !in xs[i] && Trimmed(xs[i])
    ensures CommaList(Join(xs, ',')) == xs
  {
    SplitJoin(xs, ',');
    forall i | 0 <= i < |xs| ensures Trim(xs[i]) == xs[i] {
      TrimOfTrimmed(xs[i]);
    }
  }

  /** `split(",").map(trim).filter(Boolean)`: the non-empty trimmed entries. */
  function CleanList(s: string): (ys: seq<string>)
    ensures forall y :: y in ys ==> y != "" && ',' !in y && Trimmed(y)
    ensures forall y :: y in ys <==> y != "" && y in CommaList(s)
    ensures multiset(ys) == multiset(CommaList(s))["" := 0]
  {
    DropEmpty(CommaList(s))
  }

  /** Non-empty, trimmed, comma-free entries survive a write-out and a clean
      read-back unchanged. */
  lemma CleanListRoundTrip(xs: seq<string>)
    requires |xs| >= 1
    requires forall i :: 0 <= i < |xs| ==> xs[i] != "" && ',' !in xs[i] && Trimmed(xs[i])
    ensures CleanList(Join(xs, ',')) == xs
  {
    CommaListRoundTrip(xs);
  }

  /** ASCII lower-casing; other characters are left alone. */
  function LowerChar(c: char): char {
    if 'A' <= c <= 'Z' then (c as int + 32) as char else c
  }

  function Lower(s: string): (r: string)
    ensures |r| == |s|
    ensures forall i :: 0 <= i < |s| ==> r[i] == LowerChar(s[i])
  {
    if |s| == 0 then [] else [LowerChar(s[0])] + Lower(s[1..])
  }

  /** Case-insensitive equality as an anchored `^…$` regular expression with
      the `i` flag decides it, for ASCII letters. */
  predicate SameIgnoringCase(a: string, b: string) {
    Lower(a) == Lower(b)
  }
}

=== FILE: values.dfy ===
/** JSON-like values as they arrive in request bodies, filter criteria and documents. */
module Values {

  /** A JavaScript value as far as this model needs it. Numbers are integers
      (floating point is not modelled); `Obj` keeps its keys in insertion
      order, as `JSON.stringify` does. */
  datatype Value =
    | Undefined
    | Null
    | Bool(b: bool)
    | Num(n: int)
    | Str(s: string)
    | Arr(items: seq<Value>)
    | Obj(fields: seq<(string, Value)>)

  /** JavaScript truthiness: what `if (v)`, `!v` and `v || d` test. */
  predicate Truthy(v: Value) {
    match v
    case Undefined => false
    case Null => false
    case Bool(b) => b
    case Num(n) => n != 0
    case Str(s) => s != ""
    case Arr(_) => true
    case Obj(_) => true
  }

  /** Exactly five values are falsy; every array and object is truthy, empty
      or not. */
  lemma FalsyValues(v: Value)
    ensures !Truthy(v) <==> v in [Undefined, Null, Bool(false), Num(0), Str("")]
  {
  }

  /** The keys of an object value, in order. */
  function Keys(fields: seq<(string, Value)>): (ks: seq<string>)
    ensures |ks| == |fields|
    ensures forall i :: 0 <= i < |fields| ==> ks[i] == fields[i].0
  {
    if |fields| == 0 then [] else [fields[0].0] + Keys(fields[1..])
  }
}

=== FILE: wrappers.dfy ===
/** Failure-compatible wrappers shared by every module of the model. */
module Wrappers {

  /** An optional value: a field that may be absent from a document or a request. */
  datatype Option<+T> = None | Some(value: T)

  /** The outcome of an operation that may throw: its value, or the error it throws. */
  datatype Result<+T, +E> = Ok(value: T) | Err(error: E)

  /** `o ?? d`: the value when present, the default otherwise. */
  function OrElse<T>(o: Option<T>, d: T): T {
    match o
    case Some(v) => v
    case None => d
  }
}
